=== FILE: README.md ===
# Quiz-Craft core, modelled in Dafny

Quiz-Craft is a quiz web application. A Spring Boot back end keeps topics, questions with
their answer options, users and quiz attempts. A React front end lets a user choose topics,
a difficulty and a question count, play the drawn quiz, and read a scored review. Admins
edit the catalogue. Accounts are verified and passwords reset through links sent by mail.

This project models the core of both tiers as pure functions over immutable values:

- **Back end.**
  - `QuizService`: draws a quiz from the questions of the chosen topics and difficulty, hiding which option is correct. It also scores a submission, records the attempt and its answers, replays a stored attempt, and counts questions per topic and difficulty.
  - `AdminService`: creates, reads, updates and deletes topics and questions. It enforces unique topic names and exactly one correct option per question.
  - `AuthService`: registration, e-mail verification, resending the verification mail, forgotten and reset passwords, and password change.
  - `EmailService`: the links, subject and score verdict of the mails.
- **Front end.**
  - The topic chooser (`UserHome`) and the quiz player (`QuizPlay`).
  - The result page (`QuizResult`).
  - The admin question editor (`QuestionForm`) and topic list (`TopicsPage`).
  - The password pages (`ForgotPassword`, `ResetPassword`, `ChangePassword`) and the verification page (`VerifyEmail`).
  - The navigation bar's initials, theme toggle and resend button (`Navbar`), and the route guard (`ProtectedRoute`). No route in `App.jsx` sets the guard's `adminOnly`: the admin pages are guarded like every other page, so any logged-in account reaches them.
- **Both tiers together.** `ClientServer` proves facts that need a page and a service, for example:
  - what the verification page shows for every message the service can return;
  - that the link in a verification mail verifies the account;
  - that a finished quiz is accepted by the server exactly when its questions are distinct.

How the model is built:

- Repositories are values: sequences or maps of records.
- An asynchronous page handler is split in two:
  - `Submit` runs the handler's checks and yields the request or a toast;
  - `Complete` takes the server's reply (`Feedback.Reply`).
- Everything the code reads from outside becomes a parameter:
  - random UUIDs and tokens, the clock, the password encoder's output and its `matches` verdict, the JWT;
  - the shuffle, which is a permutation of the drawn pool;
  - whether a mail was delivered.

Modules: `Wrappers`, `Text`, `Url`, `Catalog`, `Wire`, `Feedback`, `AdminService`, `AuthService`,
`EmailService`, `QuizService`, `QuizPlay`, `UserHome`, `QuizResult`, `QuestionForm`,
`TopicsPage`, `ForgotPassword`, `ResetPassword`, `ChangePassword`, `VerifyEmail`, `Navbar`,
`ProtectedRoute`, `ClientServer`.

## Model

| member | source | states |
|---|---|---|
| Catalog.ParseDifficulty | quiz-backend/src/main/java/com/quizapp/dto/admindto/QuestionRequest.java:28 | a difficulty name binds exactly when it is the name of one of BEGINNER, MODERATE, EXPERT, and then to that level |
| Catalog.FirstCorrectIndex | quiz-backend/src/main/java/com/quizapp/service/QuizService.java:141-144 | the index of the first option marked correct, none before it is correct, and none exists exactly when no option is correct |
| Catalog.CountCorrectZero | quiz-backend/src/main/java/com/quizapp/service/AdminService.java:82-88 | counting zero correct options means no option is correct, and conversely |
| Catalog.SingleCorrectIsFirst | quiz-backend/src/main/java/com/quizapp/service/QuizService.java:141-146 | when exactly one option is correct, `findFirst` finds it and it is the only correct one |
| AdminService.CreateTopic | quiz-backend/src/main/java/com/quizapp/service/AdminService.java:30-39 | fails with "Topic already exists with name: …" exactly when the name is taken; otherwise the new topic, with the requested name and description, is stored under the new id, every other topic is unchanged and the questions are untouched |
| AdminService.GetTopicById | quiz-backend/src/main/java/com/quizapp/service/AdminService.java:48-50 | returns the stored topic exactly when the id exists, else "Topic not found with id: <id>" |
| AdminService.UpdateTopic | quiz-backend/src/main/java/com/quizapp/service/AdminService.java:54-67 | succeeds exactly when the topic exists and no other topic has the new name; the missing id and the name clash have their own messages; other topics and the questions are unchanged |
| AdminService.DeleteTopic | quiz-backend/src/main/java/com/quizapp/service/AdminService.java:71-74 | removes exactly the given topic when it exists, leaving every other topic as it was, else reports it missing |
| AdminService.CreateQuestion | quiz-backend/src/main/java/com/quizapp/service/AdminService.java:78-110 | succeeds exactly when the topic exists and exactly one requested option is correct, with the two failure messages in that order; stores a question with the requested text, topic, difficulty and options under the new id and leaves every other question and the topics as they were |
| AdminService.NoBreakSpaceNameIsValid | quiz-backend/src/main/java/com/quizapp/dto/admindto/TopicRequest.java:16-18 | `@NotBlank` tests with Java's `trim`, which strips only characters up to U+0020: a name of two no-break spaces is a valid topic request though JavaScript would call it blank, and a name of two plain spaces is not |
| AdminService.NewOptions | quiz-backend/src/main/java/com/quizapp/service/AdminService.java:97-108 | the created options follow the request row by row, each with its own new id, and hold as many correct entries as the request did |
| AdminService.SameTicks | quiz-backend/src/main/java/com/quizapp/service/AdminService.java:82-88 | options ticked like the requests, position by position, have the same count of correct entries |
| AdminService.GetQuestionById | quiz-backend/src/main/java/com/quizapp/service/AdminService.java:129-132 | returns the stored question exactly when the id exists, else "Question not found with id: <id>" |
| AdminService.GetQuestionsByTopic | quiz-backend/src/main/java/com/quizapp/service/AdminService.java:121-125 | for an existing topic, one record per listed id in the repository's order, each the stored question, together exactly the questions filed under the topic; else "Topic not found with id: <id>" |
| AdminService.ApplyOptionEdits | quiz-backend/src/main/java/com/quizapp/service/AdminService.java:160-175 | the loop that trims or extends the stored options and overwrites them in place computes the option list the request describes |
| AdminService.Resized | quiz-backend/src/main/java/com/quizapp/service/AdminService.java:160-175 | the updated option list is as long as the request and takes its texts and ticks, so it holds as many correct entries as the request; the first rows keep their old ids and rows past the old length take fresh ids |
| AdminService.UpdateQuestion | quiz-backend/src/main/java/com/quizapp/service/AdminService.java:137-179 | the checks run in the source's order: question, then topic, then exactly one correct option; on success the question keeps its id and carries the requested fields, its kept rows keep their option ids, appended rows take the fresh ids, and every other question is unchanged |
| AdminService.DeleteQuestion | quiz-backend/src/main/java/com/quizapp/service/AdminService.java:184-186 | removes exactly the given question when it exists, leaving every other question as it was, else "Question not found" |
| AdminService.CreateTopicThenGet | quiz-backend/src/main/java/com/quizapp/service/AdminService.java:30-50 | a created topic is found by `getTopicById` under its new id with the requested name and description, and every other id answers as before |
| AdminService.UpdateTopicThenGet | quiz-backend/src/main/java/com/quizapp/service/AdminService.java:48-67 | an updated topic is found under its id with the new name and description, and every other id answers as before |
| AdminService.DeleteTopicThenGet | quiz-backend/src/main/java/com/quizapp/service/AdminService.java:48-74 | a deleted topic is then not found, and every other id answers as before |
| AdminService.CreateQuestionThenGet | quiz-backend/src/main/java/com/quizapp/service/AdminService.java:78-132 | a created question is found by `getQuestionById` under its new id, and every other id answers as before |
| AdminService.UpdateQuestionThenGet | quiz-backend/src/main/java/com/quizapp/service/AdminService.java:129-179 | an updated question is found with the returned content and the option list the edit loops build, and every other id answers as before |
| AdminService.DeleteQuestionThenGet | quiz-backend/src/main/java/com/quizapp/service/AdminService.java:129-186 | a deleted question is then not found, and every other id answers as before |
| AdminService.CreateQuestionFiled | quiz-backend/src/main/java/com/quizapp/service/AdminService.java:78-125 | creating a question files it under its own topic and changes no topic's set of questions otherwise |
| AdminService.DeleteQuestionUnfiled | quiz-backend/src/main/java/com/quizapp/service/AdminService.java:121-186 | deleting a question takes exactly it out of its topic's set of questions |
| AdminService.CreateQuestionListed | quiz-backend/src/main/java/com/quizapp/service/AdminService.java:78-125 | after a create, the topic's listing holds exactly the records it held before and the new question |
| AdminService.CreateTopicKeepsValid | quiz-backend/src/main/java/com/quizapp/service/AdminService.java:30-39 | creating a topic keeps the catalogue valid: every record sits under its own id, topic names stay unique and every question keeps exactly one correct option with distinct option ids |
| AdminService.UpdateTopicKeepsValid | quiz-backend/src/main/java/com/quizapp/service/AdminService.java:54-67 | updating a topic keeps the catalogue valid |
| AdminService.UpdateTopicOwnName | quiz-backend/src/main/java/com/quizapp/service/AdminService.java:57-62 | a topic may always be saved again under its own name |
| AdminService.CreateQuestionKeepsValid | quiz-backend/src/main/java/com/quizapp/service/AdminService.java:78-110 | creating a question keeps the catalogue valid |
| AdminService.UpdateQuestionKeepsValid | quiz-backend/src/main/java/com/quizapp/service/AdminService.java:137-179 | updating a question keeps the catalogue valid |
| AdminService.DeletesKeepValid | quiz-backend/src/main/java/com/quizapp/service/AdminService.java:71-186 | deleting a topic or a question keeps the catalogue valid |
| AuthService.FirstWhere | quiz-backend/src/main/java/com/quizapp/service/AuthService.java:153-154 | a repository `findBy…` lookup: the first account matching, none before it matches, none found exactly when no account matches |
| AuthService.Register | quiz-backend/src/main/java/com/quizapp/service/AuthService.java:67-116 | fails with "Email already exists!" exactly when the e-mail is taken; otherwise appends an unverified USER account holding the verification token and answers with its e-mail, name, role and verified flag |
| AuthService.RegisterAdmin | quiz-backend/src/main/java/com/quizapp/service/AuthService.java:118-149 | the same duplicate check; otherwise appends an already verified ADMIN account with no verification token |
| AuthService.VerifyEmail | quiz-backend/src/main/java/com/quizapp/service/AuthService.java:152-173 | an unknown token leaves every account and gives "Email already verified or invalid token"; a verified holder gives "Email already verified"; otherwise only the holder becomes verified, its token is cleared, and the reply is "Email verified successfully" |
| AuthService.ResendVerificationEmail | quiz-backend/src/main/java/com/quizapp/service/AuthService.java:177-196 | an unknown e-mail is "User not found"; a verified account is answered "Email already verified" and left alone; otherwise only that account gets the fresh token, and the reply is Ok exactly when the mail went out: a failure building the message gives "Failed to send verification email", a failed send gives the send's own message |
| AuthService.ForgotPassword | quiz-backend/src/main/java/com/quizapp/service/AuthService.java:200-220 | an unknown e-mail is "User not found with this email"; otherwise only that account gets the fresh reset token expiring 60 minutes from now, and an undelivered mail is reported as a failure though the token stays stored |
| AuthService.ResetPassword | quiz-backend/src/main/java/com/quizapp/service/AuthService.java:223-237 | an unknown token is "Invalid or expired reset token", an expired one "Reset token has expired. Please request a new one"; otherwise only the holder's password changes and its reset token and expiry are cleared |
| AuthService.ChangePassword | quiz-backend/src/main/java/com/quizapp/service/AuthService.java:239-255 | no or empty principal, unknown user and wrong current password each fail with their own message, in that order; otherwise only that account's password changes |
| AuthService.FindByEmailUnique | quiz-backend/src/main/java/com/quizapp/service/AuthService.java:70-71 | with e-mails unique, the lookup by e-mail finds an account exactly when the e-mail is taken, and finds the one holding it |
| AuthService.VerifiedHolderUnreachable | quiz-backend/src/main/java/com/quizapp/service/AuthService.java:162-165 | in a well-formed store verified accounts hold no token, so the "Email already verified" branch of `verifyEmail` is never taken |
| AuthService.VerifyTwice | quiz-backend/src/main/java/com/quizapp/service/AuthService.java:152-173 | following a verification link a second time changes nothing and gives the invalid-token message |
| AuthService.VerificationIsPermanent | quiz-backend/src/main/java/com/quizapp/service/AuthService.java:163-187 | verifying and resending never make a verified account unverified |
| AuthService.PasswordStepsKeepVerified | quiz-backend/src/main/java/com/quizapp/service/AuthService.java:200-237 | the forgotten-password and reset steps never make a verified account unverified |
| AuthService.ForgotThenReset | quiz-backend/src/main/java/com/quizapp/service/AuthService.java:200-237 | the token issued by `forgotPassword` resets that account's password at any time up to and including its expiry, and fails after it |
| AuthService.ResetOnce | quiz-backend/src/main/java/com/quizapp/service/AuthService.java:232-236 | a reset token works once: the same token then gives "Invalid or expired reset token" |
| AuthService.ResetTouchesOnlyHolder | quiz-backend/src/main/java/com/quizapp/service/AuthService.java:225-236 | a reset leaves every account other than the token's holder as it was |
| AuthService.RegisterKeepsWf | quiz-backend/src/main/java/com/quizapp/service/AuthService.java:67-86 | registration keeps the account store well formed: unique e-mails, unique verification and reset tokens, verified accounts without a verification token |
| AuthService.RegisterAdminKeepsWf | quiz-backend/src/main/java/com/quizapp/service/AuthService.java:118-131 | admin registration keeps the account store well formed |
| AuthService.ReplaceKeepsWf | quiz-backend/src/main/java/com/quizapp/service/AuthService.java:168-170 | saving an account back with the same e-mail and tokens nobody else holds keeps the store well formed |
| AuthService.VerifyKeepsWf | quiz-backend/src/main/java/com/quizapp/service/AuthService.java:152-173 | verification keeps the store well formed |
| AuthService.ResendKeepsWf | quiz-backend/src/main/java/com/quizapp/service/AuthService.java:177-196 | resending with a fresh token keeps the store well formed |
| AuthService.ForgotKeepsWf | quiz-backend/src/main/java/com/quizapp/service/AuthService.java:200-220 | issuing a fresh reset token keeps the store well formed |
| AuthService.ResetKeepsWf | quiz-backend/src/main/java/com/quizapp/service/AuthService.java:223-237 | a reset keeps the store well formed |
| AuthService.ChangeKeepsWf | quiz-backend/src/main/java/com/quizapp/service/AuthService.java:239-255 | a password change keeps the store well formed |
| EmailService.TokenLink | quiz-backend/src/main/java/com/quizapp/service/EmailService.java:35 | a mail link starts with the base address and ends with the token, and is exactly as long as its parts |
| EmailService.VerificationLink | quiz-backend/src/main/java/com/quizapp/service/EmailService.java:35 | the verification link is the base address, `/verify-email?token=` and the token |
| EmailService.ResetLink | quiz-backend/src/main/java/com/quizapp/service/EmailService.java:96 | the reset link is the base address, `/reset-password?token=` and the token |
| EmailService.TokenLinkRoundTrip | quiz-backend/src/main/java/com/quizapp/service/EmailService.java:35-96 | the page opened by a mail link is the base address plus the path, and its `token` parameter reads back the token |
| EmailService.ResultSubject | quiz-backend/src/main/java/com/quizapp/service/EmailService.java:159 | the result mail's subject carries the topic names after its fixed prefix |
| EmailService.StatusOf | quiz-backend/src/main/java/com/quizapp/service/EmailService.java:161-164 | the verdict is "Excellent" from 70 up, "Good" from 50 below 70, "Keep Learning" below 50: the three bands partition the percentages |
| EmailService.StatusAndColorAgree | quiz-backend/src/main/java/com/quizapp/service/EmailService.java:161-164 | the status text and its colour always come from the same band |
| EmailService.StatusMonotone | quiz-backend/src/main/java/com/quizapp/service/EmailService.java:161-164 | a higher percentage never gets a lower verdict |
| QuizService.PoolMembers | quiz-backend/src/main/java/com/quizapp/service/QuizService.java:46-52 | a question is in the drawing pool exactly when its topic is one requested and its difficulty is the requested one |
| QuizService.Pool | quiz-backend/src/main/java/com/quizapp/service/QuizService.java:46-52 | every question gathered for drawing is a stored question of a requested topic at the requested difficulty |
| QuizService.ToQuizQuestionDto | quiz-backend/src/main/java/com/quizapp/service/QuizService.java:300-311 | the quiz question carries the question's id, text, topic name and, in order, each option's id and text |
| QuizService.DtoHidesCorrectness | quiz-backend/src/main/java/com/quizapp/service/QuizService.java:300-311 | the quiz question is the same whichever options are marked correct, so it reveals nothing about the answer |
| QuizService.Dedup | quiz-backend/src/main/java/com/quizapp/service/QuizService.java:70 | the ids looked up hold the same members as those requested, each once |
| QuizService.StoredTopics | quiz-backend/src/main/java/com/quizapp/service/QuizService.java:70 | `findAllById` keeps exactly the requested ids that are stored |
| QuizService.TopicNamesOf | quiz-backend/src/main/java/com/quizapp/service/QuizService.java:70-73 | the topic names are exactly the names of the requested topics that exist |
| QuizService.QuestionDtos | quiz-backend/src/main/java/com/quizapp/service/QuizService.java:66-68 | one quiz question per drawn question, in the drawn order |
| QuizService.DrawnIsPlayable | quiz-backend/src/main/java/com/quizapp/service/QuizService.java:58-60 | any selection from the pool names stored questions whose topics are stored |
| QuizService.PrefixWithin | quiz-backend/src/main/java/com/quizapp/service/QuizService.java:59-60 | the first `n` of the shuffled pool are drawn from the pool |
| QuizService.GenerateQuiz | quiz-backend/src/main/java/com/quizapp/service/QuizService.java:44-82 | fails with "No questions found for selected topics and difficulty level" exactly when the pool is empty; otherwise stores the active quiz under the new id and returns min(requested, pool size) questions, their count, the difficulty's name, and topic names that are exactly the names of the requested topics that exist |
| QuizService.GeneratedQuestionsMatchRequest | quiz-backend/src/main/java/com/quizapp/service/QuizService.java:44-82 | every drawn question is of a requested topic and of the requested difficulty, none is drawn more often than the pool holds it, and the count is the smaller of the request and the pool |
| QuizService.GenerateKeepsConsistent | quiz-backend/src/main/java/com/quizapp/service/QuizService.java:62-64 | storing the drawn quiz keeps every active quiz made of playable questions |
| QuizService.AnswerMap | quiz-backend/src/main/java/com/quizapp/service/QuizService.java:123-128 | `Collectors.toMap` succeeds exactly when no question id repeats; the map then sends each question id to its selected option |
| QuizService.AnswerMapClash | quiz-backend/src/main/java/com/quizapp/service/QuizService.java:123-128 | when `toMap` fails, some answer repeats a question id met earlier, no id before it repeats, and the message names that key, the kept value and the incoming one |
| QuizService.ClashShift | quiz-backend/src/main/java/com/quizapp/service/QuizService.java:123-128 | a clash found in the rest of the answers is a clash one position later in the whole list |
| QuizService.OptionReviews | quiz-backend/src/main/java/com/quizapp/service/QuizService.java:319-326 | one review per option, in order, with its id, text and correctness, marked selected exactly when it is the selected option |
| QuizService.AtMostOneSelected | quiz-backend/src/main/java/com/quizapp/service/QuizService.java:319-326 | with distinct option ids at most one option is marked selected |
| QuizService.QuestionReview | quiz-backend/src/main/java/com/quizapp/service/QuizService.java:314-337 | the review carries the question, the selected and correct option ids, the verdict and the option reviews |
| QuizService.Answered | quiz-backend/src/main/java/com/quizapp/service/QuizService.java:134-139 | the questions that are scored are those of the quiz that have an answer, and only those |
| QuizService.ScoreOne | quiz-backend/src/main/java/com/quizapp/service/QuizService.java:134-155 | an unanswered question is skipped; an answered one without a correct option fails with "No correct option found for question <id>"; otherwise it is right exactly when the selected option is the first correct one |
| QuizService.Evaluate | quiz-backend/src/main/java/com/quizapp/service/QuizService.java:130-155 | the scoring loop: the first answered question without a correct option stops it with its message; otherwise the score is the number of quiz questions whose answer is the first correct option, and it never exceeds the number of reviews, which is the number of answered questions |
| QuizService.Pick | quiz-backend/src/main/java/com/quizapp/service/QuizService.java:135 | the answer looked up for a question is present exactly when the map has the question's id, and is the mapped option |
| QuizService.EvaluateFailsIff | quiz-backend/src/main/java/com/quizapp/service/QuizService.java:141-144 | scoring fails exactly when some answered question has no correct option, with the message of the first such question |
| QuizService.ReviewsAllCons | quiz-backend/src/main/java/com/quizapp/service/QuizService.java:149-154 | adding one answered question and its review in front keeps reviews and answered questions in step |
| QuizService.EvaluateReviews | quiz-backend/src/main/java/com/quizapp/service/QuizService.java:133-155 | the i-th review belongs to the i-th answered question and marks its selected and first correct option |
| QuizService.StoredAnswers | quiz-backend/src/main/java/com/quizapp/service/QuizService.java:174-192 | one saved answer per quiz question, all under the attempt, in the quiz's order; each keeps the selected option when it is a stored option and is marked correct exactly when that answer is the first correct option |
| QuizService.Percentage | quiz-backend/src/main/java/com/quizapp/service/QuizService.java:159 | the percentage lies between 0 and 100 for a score within the total, and is 0 for no right answer and 100 for all right |
| QuizService.QuestionTopics | quiz-backend/src/main/java/com/quizapp/service/QuizService.java:161 | the topics of the quiz's questions, one per question |
| QuizService.Admit | quiz-backend/src/main/java/com/quizapp/service/QuizService.java:92-128 | the checks run in order: no answers, an incomplete answer, an unknown quiz, a quiz with no questions ("No questions found for this quiz ID"), an unknown user ("User not found for email: <email>"), a repeated question id (`toMap`'s duplicate-key message naming the key and both values); the submission passes exactly when none applies, with the quiz's questions and the answer map |
| QuizService.Record | quiz-backend/src/main/java/com/quizapp/service/QuizService.java:157-232 | saves the attempt with the first question's topic and difficulty, the score and the total, appends the answers, removes the active quiz, answers with the distinct names of the questions' topics (a name is listed exactly when some quiz question is on that topic) and the first question's difficulty, and reports the mail as sent exactly when the user is verified and it was delivered |
| QuizService.NamesOfQuestionTopics | quiz-backend/src/main/java/com/quizapp/service/QuizService.java:161-162 | the names gathered through the set of the questions' topics are exactly the names of the topics some quiz question is on |
| QuizService.SubmitQuiz | quiz-backend/src/main/java/com/quizapp/service/QuizService.java:87-233 | a rejected submission fails with the admission message, and a quiz with an answered question lacking a correct option fails with "No correct option found for question <id>"; an accepted one scores as many right answers as there are questions answered with their first correct option, saves one answer row per question, stores the attempt with the first question's topic and difficulty, that score and the total, answers with that difficulty and the names of the questions' topics, removes the active quiz, reviews every answered question, and has correct plus wrong equal to the total |
| QuizService.ResubmitFails | quiz-backend/src/main/java/com/quizapp/service/QuizService.java:215 | a submission under an unused attempt id leaves the tables consistent, and the same quiz id is then refused with "Quiz not found or expired" |
| QuizService.SubmitKeepsConsistent | quiz-backend/src/main/java/com/quizapp/service/QuizService.java:87-233 | a submission keeps the store consistent |
| QuizService.RecordKeepsConsistent | quiz-backend/src/main/java/com/quizapp/service/QuizService.java:164-215 | recording an attempt keeps the store consistent |
| QuizService.AnswersOf | quiz-backend/src/main/java/com/quizapp/service/QuizService.java:345 | the answers fetched for an attempt are stored answers of that attempt |
| QuizService.RightCount | quiz-backend/src/main/java/com/quizapp/service/QuizService.java:351 | the number of answers marked correct is at most the number of answers |
| QuizService.StoredReview | quiz-backend/src/main/java/com/quizapp/service/QuizService.java:356-383 | a replayed review carries the stored question's id, text and topic name, the stored selection and verdict, the id of the first option flagged correct (none when no option is), and one option review per option, in order, marked selected exactly for the stored selection |
| QuizService.GetQuizResultByAttemptId | quiz-backend/src/main/java/com/quizapp/service/QuizService.java:340-400 | an unknown attempt and an attempt without answers fail with their own messages; otherwise the replay carries the stored score and total, the count of right answers, and no mail sent; its j-th review is the review of the attempt's j-th stored answer row |
| QuizService.AnswersOfAppend | quiz-backend/src/main/java/com/quizapp/service/QuizService.java:345 | fetching an attempt's answers from two stretches of rows is fetching from each in turn |
| QuizService.AnswersOfNone | quiz-backend/src/main/java/com/quizapp/service/QuizService.java:345 | rows of other attempts contribute nothing |
| QuizService.AnswersOfAll | quiz-backend/src/main/java/com/quizapp/service/QuizService.java:345 | rows all of the attempt are all fetched, in order |
| QuizService.EvaluateMatchesStored | quiz-backend/src/main/java/com/quizapp/service/QuizService.java:146-190 | the score computed at submission equals the number of saved answers marked correct |
| QuizService.AppendedRowsReplay | quiz-backend/src/main/java/com/quizapp/service/QuizService.java:174-192 | after the new rows are appended, fetching the attempt gives exactly them, and their right count is the submitted score |
| QuizService.RecordReplays | quiz-backend/src/main/java/com/quizapp/service/QuizService.java:340-400 | replaying a just-recorded attempt gives its score, total, right and wrong counts |
| QuizService.HistoryMatchesSubmit | quiz-backend/src/main/java/com/quizapp/service/QuizService.java:340-400 | the result later read by attempt id reports the same attempt, score, total, right and wrong answers as the submission returned |
| QuizService.EvaluateIgnoresOtherAnswers | quiz-backend/src/main/java/com/quizapp/service/QuizService.java:134-139 | answers for questions outside the quiz do not change the scoring |
| QuizService.ScoreOneIgnoresOtherAnswers | quiz-backend/src/main/java/com/quizapp/service/QuizService.java:135 | a question's scoring reads only its own answer |
| QuizService.EvaluateSucceedsOnValidCatalog | quiz-backend/src/main/java/com/quizapp/service/QuizService.java:141-144 | when every question has exactly one correct option, scoring never fails |
| QuizService.DifficultiesPartition | quiz-backend/src/main/java/com/quizapp/service/QuizService.java:241-255 | the three per-difficulty counts of a topic add up to its number of questions |
| QuizService.TopicsWithStats | quiz-backend/src/main/java/com/quizapp/service/QuizService.java:237-258 | one statistics row per topic, with its id, name and description, the three per-difficulty counts and their sum |
| QuizPlay.ParseTopics | quiz-frontend/src/pages/QuizPlay.jsx:27-29 | a missing or empty `topics` parameter gives no ids; otherwise one number per comma-separated piece, trimmed |
| QuizPlay.Start | quiz-frontend/src/pages/QuizPlay.jsx:27-40 | no request and "No topics selected!" exactly when no id parses; otherwise the body carries the ids, the difficulty and `Number(numQ)` |
| QuizPlay.NoTopicsNoRequest | quiz-frontend/src/pages/QuizPlay.jsx:31-34 | a missing or empty `topics` parameter sends nothing |
| QuizPlay.ParseTopicsOfJoin | quiz-frontend/src/pages/QuizPlay.jsx:27-29 | parsing the comma-joined ids of the chooser gives back each id, in order |
| QuizPlay.JoinIds | quiz-frontend/src/pages/UserHome.jsx:50-52 | a non-empty list of ids joins into a non-empty string that splits at its commas back into the ids' spellings, one per id, in order |
| QuizPlay.NumberOfSpelling | quiz-frontend/src/pages/QuizPlay.jsx:28 | a trimmed decimal spelling reads back as its integer |
| QuizPlay.Begin | quiz-frontend/src/pages/QuizPlay.jsx:9-15 | a loaded quiz starts at the first question with no answers |
| QuizPlay.Select | quiz-frontend/src/pages/QuizPlay.jsx:61-66 | picking an option records it for that question and leaves every other answer and the cursor alone |
| QuizPlay.Previous | quiz-frontend/src/pages/QuizPlay.jsx:182-185 | Previous moves back one question, and does nothing at the first |
| QuizPlay.PickOf | quiz-frontend/src/pages/QuizPlay.jsx:77-79 | an answer counts when present and truthy, that is non-zero |
| QuizPlay.PayloadAnswers | quiz-frontend/src/pages/QuizPlay.jsx:73-81 | one answer per quiz question, in quiz order, with the recorded option or none |
| QuizPlay.Next | quiz-frontend/src/pages/QuizPlay.jsx:68-101 | before the last question Next only advances; at the last it submits exactly when every question is answered, else it shows "Please answer all questions before submitting!" |
| QuizPlay.Progress | quiz-frontend/src/pages/QuizPlay.jsx:111 | the progress is defined when the quiz has questions, lies in (0, 100] for a valid cursor, and is 100 at the last question |
| QuizPlay.StepsKeepCursor | quiz-frontend/src/pages/QuizPlay.jsx:61-101 | selecting, Previous and Next keep the cursor on a question |
| QuizPlay.NextTimes | quiz-frontend/src/pages/QuizPlay.jsx:68-71 | pressing Next k times yields k effects |
| QuizPlay.WalkForward | quiz-frontend/src/pages/QuizPlay.jsx:69-71 | pressing Next k times before the last question moves k questions on and sends nothing |
| QuizPlay.FinishSubmitsIffAllAnswered | quiz-frontend/src/pages/QuizPlay.jsx:85-94 | at the last question the quiz is submitted exactly when every question has a truthy answer, with one answer per question |
| QuizPlay.FinishLabelMeansSubmit | quiz-frontend/src/pages/QuizPlay.jsx:206 | the button reads "Finish" exactly when pressing it submits or refuses rather than advancing |
| QuizPlay.ForwardLabel | quiz-frontend/src/pages/QuizPlay.jsx:206 | the forward button reads "Finish" or "Next", and "Finish" exactly on the last question of a quiz that reports its true length |
| UserHome.Initial | quiz-frontend/src/pages/UserHome.jsx:10-12 | the chooser opens with no topic, BEGINNER and 10 questions |
| UserHome.Without | quiz-frontend/src/pages/UserHome.jsx:34 | the filter keeps every other id and drops all occurrences of the given one |
| UserHome.Toggle | quiz-frontend/src/pages/UserHome.jsx:30-37 | a selected topic is removed and an unselected one appended, and no other topic changes membership |
| UserHome.WithoutAbsent | quiz-frontend/src/pages/UserHome.jsx:34 | filtering out an absent id changes nothing |
| UserHome.WithoutKeepsNoDuplicates | quiz-frontend/src/pages/UserHome.jsx:34 | filtering keeps a list free of repeats |
| UserHome.ToggleKeepsNoDuplicates | quiz-frontend/src/pages/UserHome.jsx:30-37 | toggling never lists a topic twice |
| UserHome.ToggleTwice | quiz-frontend/src/pages/UserHome.jsx:30-37 | selecting and then deselecting a topic restores the selection |
| UserHome.WithoutAppend | quiz-frontend/src/pages/UserHome.jsx:34-35 | removing an id just appended to a list without it gives the list back |
| UserHome.Increment | quiz-frontend/src/pages/UserHome.jsx:40 | plus adds one, capped at 50 |
| UserHome.Decrement | quiz-frontend/src/pages/UserHome.jsx:41 | minus removes one, floored at 10 |
| UserHome.CounterStaysInRange | quiz-frontend/src/pages/UserHome.jsx:12-41 | the counter stays within 10 to 50, and the buttons stop at the bounds |
| UserHome.StartQuiz | quiz-frontend/src/pages/UserHome.jsx:43-54 | with no topic it reports "Please select at least one topic"; otherwise it opens `/quiz?` with topics, difficulty and count |
| UserHome.QuizQuery | quiz-frontend/src/pages/UserHome.jsx:49-53 | the quiz address's parameters read back the joined topics, the difficulty's name and the count |
| UserHome.ThreeParametersReadBack | quiz-frontend/src/pages/UserHome.jsx:49-53 | each of the three parameters reads back its value when no value holds `&` |
| UserHome.StartReachesQuizPage | quiz-frontend/src/pages/QuizPlay.jsx:19-40 | the quiz page opened by Start asks for exactly the chosen topics in order, the difficulty and the count |
| UserHome.QueryOfThree | quiz-frontend/src/pages/UserHome.jsx:50-52 | a three-parameter query string spelt out |
| UserHome.DigitsHaveNoAmpersand | quiz-frontend/src/pages/UserHome.jsx:52 | a number's decimal spelling holds no `&` |
| UserHome.NoAmpersandInIds | quiz-frontend/src/pages/UserHome.jsx:50-51 | the comma-joined ids hold no `&` |
| Url.BreakAtPair | quiz-frontend/src/pages/QuizPlay.jsx:8 | splitting an address at `?` gives the path and the query when the path has no `?` |
| Url.QueryOfGet | quiz-frontend/src/pages/QuizPlay.jsx:19-21 | `searchParams.get(name)` on a query built from names and values gives back the first value under that name |
| Url.LookupPieces | quiz-frontend/src/pages/QuizPlay.jsx:19-21 | the lookup over `name=value` pieces finds the first piece of that name |
| Url.BreakAt | quiz-frontend/src/pages/QuizPlay.jsx:19-21 | whatever follows the break is made of characters of the input |
| Url.Lookup | quiz-frontend/src/pages/QuizPlay.jsx:19-21 | no pieces give no value, and a value found is made of characters of one piece |
| Url.QueryGet | quiz-frontend/src/pages/QuizPlay.jsx:19-21 | an empty query holds no parameter, and a value read never holds `&` |
| Text.Split | quiz-frontend/src/pages/QuizPlay.jsx:28 | `split(",")` gives at least one piece and no piece holds the separator |
| Text.JoinSplit | quiz-frontend/src/pages/QuizPlay.jsx:28 | joining the pieces of a split with the separator gives the string back |
| Text.SplitJoin | quiz-frontend/src/pages/UserHome.jsx:50-52 | splitting pieces joined by a separator that none of them holds gives the pieces back |
| Text.Trim | quiz-frontend/src/pages/ForgotPassword.jsx:24 | the trimmed string neither starts nor ends with white space |
| Text.TrimIsPiece | quiz-frontend/src/pages/ForgotPassword.jsx:24 | what `trim` keeps is a piece of the string with only white space before and after it |
| Text.TrimEmptyIffBlank | quiz-frontend/src/pages/ForgotPassword.jsx:24 | `!s.trim()` holds exactly when the string is all white space |
| Text.TrimTwice | quiz-frontend/src/pages/QuizPlay.jsx:28 | trimming a trimmed string changes nothing |
| Text.ToNumber | quiz-frontend/src/pages/QuizPlay.jsx:28 | `Number` of a blank string is 0, of a run of digits its decimal value, and a negative result comes from a leading minus sign |
| Text.NumberOfIntString | quiz-frontend/src/pages/QuizPlay.jsx:28 | `Number(String(i))` is `i` for every integer |
| QuestionForm.ResetForm | quiz-frontend/src/pages/QuestionForm.jsx:32-38 | a cleared form has no text, no topic, BEGINNER, one blank unticked option and options folded away |
| QuestionForm.EditText | quiz-frontend/src/pages/QuestionForm.jsx:79-82 | editing an option's text changes that text only |
| QuestionForm.SetCorrect | quiz-frontend/src/pages/QuestionForm.jsx:79-89 | ticking an option clears every other tick, unticking touches nothing else, and no text changes |
| QuestionForm.AddOption | quiz-frontend/src/pages/QuestionForm.jsx:91 | adding appends one blank unticked option and keeps the others |
| QuestionForm.RemoveOption | quiz-frontend/src/pages/QuestionForm.jsx:92-94 | removing drops exactly the given row when more than one row is left, and otherwise, or for an index past the end, changes nothing |
| QuestionForm.Submit | quiz-frontend/src/pages/QuestionForm.jsx:40-57 | the browser blocks the submit, and the handler never runs, exactly when the topic, the difficulty, the text or a shown option text is empty (the `required` fields); otherwise the form alerts "Please mark exactly one option as correct." exactly when the tick count is not one, and else sends the text, the chosen topic, the difficulty and the options |
| QuestionForm.AtMostOneIffCountBelowTwo | quiz-frontend/src/pages/QuestionForm.jsx:43 | "no two rows ticked" and "the count of ticked rows is at most one" agree |
| QuestionForm.NoneTicked | quiz-frontend/src/pages/QuestionForm.jsx:43 | a list with no ticked row counts zero |
| QuestionForm.SomeTicked | quiz-frontend/src/pages/QuestionForm.jsx:43 | a list with a ticked row counts at least one |
| QuestionForm.OnlyTicked | quiz-frontend/src/pages/QuestionForm.jsx:43 | a list with a single ticked row counts one |
| QuestionForm.TickMakesSubmittable | quiz-frontend/src/pages/QuestionForm.jsx:83-87 | after ticking any row exactly one row is ticked and the form submits |
| QuestionForm.ResetFormBlankOptionSent | quiz-frontend/src/pages/QuestionForm.jsx:32-38 | a cleared form cannot be submitted, but once a topic and a text are chosen and the first row ticked it sends a single option with an empty text, since folded-away option fields are not required |
| QuestionForm.EditsKeepAtMostOne | quiz-frontend/src/pages/QuestionForm.jsx:79-94 | every editing step keeps at most one row ticked |
| QuestionForm.ServerOptions | quiz-frontend/src/pages/QuestionForm.jsx:53-56 | the server reads each row's text and tick, in order |
| QuestionForm.ServerRequest | quiz-backend/src/main/java/com/quizapp/dto/admindto/QuestionRequest.java:28 | the body binds exactly when the difficulty names a level, with the payload's topic, text and options |
| QuestionForm.ServerCountsTheSameTicks | quiz-backend/src/main/java/com/quizapp/service/AdminService.java:82-88 | the server counts the same correct options the form counted |
| QuestionForm.LocalCheckMatchesServerRule | quiz-backend/src/main/java/com/quizapp/service/AdminService.java:82-88 | the form's local check lets a payload through exactly when the server's exactly-one-correct rule accepts it |
| TopicsPage.NameCompare | quiz-frontend/src/pages/TopicsPage.jsx:16 | the name comparison is -1, 0 or 1, and 0 exactly for equal names |
| TopicsPage.Compare | quiz-frontend/src/pages/TopicsPage.jsx:11-19 | with two numeric ids the sign orders by id, zero exactly for equal ids; with a NaN id it is -1, 0 or 1 and zero exactly for equal names |
| TopicsPage.NameCompareFlips | quiz-frontend/src/pages/TopicsPage.jsx:16 | swapping the names flips the comparison |
| TopicsPage.Insert | quiz-frontend/src/pages/TopicsPage.jsx:11-19 | inserting one row adds exactly that row |
| TopicsPage.SortTopics | quiz-frontend/src/pages/TopicsPage.jsx:10-20 | the sorted copy holds exactly the same rows |
| TopicsPage.CompareFallsBackToNames | quiz-frontend/src/pages/TopicsPage.jsx:11-19 | the comparator compares names when either id is not a number and ids otherwise, and is antisymmetric |
| TopicsPage.ConsSorted | quiz-frontend/src/pages/TopicsPage.jsx:18 | a numbered row in front of a sorted list of ids no smaller than its own is sorted |
| TopicsPage.SortedTail | quiz-frontend/src/pages/TopicsPage.jsx:18 | the rest of a sorted list is sorted and not before its head |
| TopicsPage.InsertKeepsSorted | quiz-frontend/src/pages/TopicsPage.jsx:18 | inserting a numbered row keeps a list sorted by id |
| TopicsPage.SortOrdersById | quiz-frontend/src/pages/TopicsPage.jsx:10-19 | when every id is a number the sorted list is in ascending id order |
| TopicsPage.SortOfSorted | quiz-frontend/src/pages/TopicsPage.jsx:10-19 | sorting a list already in id order changes nothing |
| TopicsPage.InsertInFront | quiz-frontend/src/pages/TopicsPage.jsx:11-19 | a row no later than the head goes in front |
| TopicsPage.WithoutId | quiz-frontend/src/pages/TopicsPage.jsx:40 | the filter keeps exactly the rows of other ids, each as often as before |
| TopicsPage.DeleteTopic | quiz-frontend/src/pages/TopicsPage.jsx:36-44 | after a delete the list holds exactly the rows of other ids |
| TopicsPage.WithoutIdKeepsSorted | quiz-frontend/src/pages/TopicsPage.jsx:40 | dropping rows keeps a list sorted by id |
| TopicsPage.DeleteKeepsOrder | quiz-frontend/src/pages/TopicsPage.jsx:40 | deleting from an id-ordered list keeps the other rows in their order |
| Feedback.ReplyToast | quiz-frontend/src/pages/ForgotPassword.jsx:37-41 | a reply's toast is green on success and red on failure, and shows the server's message when truthy, else the page's fallback |
| ForgotPassword.Initial | quiz-frontend/src/pages/ForgotPassword.jsx:8-11 | the page opens empty, idle, without success and without cooldown |
| ForgotPassword.Submit | quiz-frontend/src/pages/ForgotPassword.jsx:21-36 | the request is sent exactly when the e-mail is not blank and no cooldown runs; a blank e-mail and a running cooldown each show their own toast |
| ForgotPassword.Complete | quiz-frontend/src/pages/ForgotPassword.jsx:36-44 | loading ends; success marks the page and starts a 60-second cooldown; the toast follows the reply |
| ForgotPassword.Tick | quiz-frontend/src/pages/ForgotPassword.jsx:13-19 | each second a running cooldown drops by one and a stopped one stays |
| ForgotPassword.CooldownNeverNegative | quiz-frontend/src/pages/ForgotPassword.jsx:13-19 | the cooldown never goes below zero |
| ForgotPassword.TicksCountDown | quiz-frontend/src/pages/ForgotPassword.jsx:13-19 | after n seconds the cooldown is down by n, stopping at zero, and nothing else changes |
| ForgotPassword.SentLinkHidesForm | quiz-frontend/src/pages/ForgotPassword.jsx:62-120 | once a link has been sent the form is gone for good, whatever time passes and whatever reply comes later, and the countdown line shows exactly for the first 60 seconds |
| ForgotPassword.ButtonDisabled | quiz-frontend/src/pages/ForgotPassword.jsx:98 | with a non-blank address the button is disabled exactly when a request runs or a press would only show a toast |
| ForgotPassword.EnabledButtonPosts | quiz-frontend/src/pages/ForgotPassword.jsx:98 | an enabled button with an e-mail always sends the request |
| ChangePassword.Submit | quiz-frontend/src/pages/ChangePassword.jsx:16-34 | the browser blocks the submit exactly when one of the three `required` fields is empty; past that, the request is sent exactly when the passwords match and the new one has at least 6 characters, and a mismatch and a short password each show their own error |
| ChangePassword.Complete | quiz-frontend/src/pages/ChangePassword.jsx:35-41 | loading ends, the page goes to login exactly on success, and the toast follows the reply |
| ChangePassword.SubmitThenCompleteEndsLoading | quiz-frontend/src/pages/ChangePassword.jsx:29-41 | after a sent request and its reply the form is as before, not loading |
| ResetPassword.Submit | quiz-frontend/src/pages/ResetPassword.jsx:19-39 | the browser blocks the submit exactly when one of the two `required` fields is empty; past that, the request is sent exactly when the passwords match, a token is present and the password is not blank, and each failed check has its own error, in that order |
| ResetPassword.Complete | quiz-frontend/src/pages/ResetPassword.jsx:40-48 | loading ends, success is set exactly when it was or the reply succeeded, and the toast follows the reply |
| ResetPassword.NoTokenNoRequest | quiz-frontend/src/pages/ResetPassword.jsx:25-28 | without a token no request is sent |
| ResetPassword.MismatchReportedFirst | quiz-frontend/src/pages/ResetPassword.jsx:21-24 | with both fields filled, a mismatch is reported before any other problem; with one left empty the browser stops the submit and nothing is shown |
| ResetPassword.SpacesPassRequiredOnly | quiz-frontend/src/pages/ResetPassword.jsx:29-32 | a password of white space passes the browser's `required` check and meets the handler's "Please enter a valid new password." |
| VerifyEmail.Lowered | quiz-frontend/src/pages/VerifyEmail.jsx:17 | the lower-cased message is as long as the message, or empty when there is none |
| VerifyEmail.OnReply | quiz-frontend/src/pages/VerifyEmail.jsx:17-41 | the page shows success exactly when the lower-cased message contains "verified", whichever way the reply came; the texts shown follow the source's branches |
| VerifyEmail.StatusIgnoresReplyKind | quiz-frontend/src/pages/VerifyEmail.jsx:19-35 | success and failure replies with the same message give the same status |
| VerifyEmail.CaseDoesNotMatter | quiz-frontend/src/pages/VerifyEmail.jsx:17-19 | a message containing "verified" shows success in lower and in upper case |
| Navbar.FirstLetters | quiz-frontend/src/components/Navbar.jsx:48-50 | at most one letter per word |
| Navbar.Take | quiz-frontend/src/components/Navbar.jsx:51 | `slice(0, n)` keeps a prefix of length at most n |
| Navbar.Initials | quiz-frontend/src/components/Navbar.jsx:46-53 | "U" without a name; otherwise the upper-cased first letters of the space-separated words, at most two |
| Navbar.InitialsOfOneWord | quiz-frontend/src/components/Navbar.jsx:46-53 | a one-word name gives its first letter in upper case |
| Navbar.InitialsOfWords | quiz-frontend/src/components/Navbar.jsx:46-53 | a name of two or more words gives the first letters of the first two |
| Navbar.SplitHead | quiz-frontend/src/components/Navbar.jsx:48 | splitting a name at spaces yields its first word first |
| Navbar.BlankNameHasNoInitials | quiz-frontend/src/components/Navbar.jsx:46-53 | a name of spaces only is truthy yet gives empty initials, not "U" |
| Navbar.AllSpaces | quiz-frontend/src/components/Navbar.jsx:48-50 | splitting spaces yields only empty words, with no first letters |
| Navbar.ToggleTheme | quiz-frontend/src/components/Navbar.jsx:26 | dark becomes light, anything else dark |
| Navbar.ResendToast | quiz-frontend/src/components/Navbar.jsx:173-190 | the toast is green on success, and any message containing "already verified" is replaced by "✅ Your email is already verified!" |
| QuizResult.ScreenOf | quiz-frontend/src/pages/QuizResult.jsx:24-36 | the fallback screen shows exactly when there is no result |
| QuizResult.ChartData | quiz-frontend/src/pages/QuizResult.jsx:38-41 | two slices, correct and wrong answers |
| QuizResult.LabelOf | quiz-frontend/src/pages/QuizResult.jsx:154-178 | "Your Choice (Correct)" for the picked right option, "Your Choice (Wrong)" for a picked wrong one, "Correct Answer" for the unpicked right one, nothing otherwise |
| QuizResult.SendStart | quiz-frontend/src/pages/QuizResult.jsx:46-58 | the result is mailed exactly when the stored user has an e-mail, else "User email not found!" |
| QuizResult.SendToast | quiz-frontend/src/pages/QuizResult.jsx:59-63 | the toast is green on success and red on failure, with the fixed texts |
| QuizResult.SendCompleteAsWritten | quiz-frontend/src/pages/QuizResult.jsx:54-72 | the handler as written: `toast.promise` returns at once, so sending ends and sent is set whatever the request does |
| QuizResult.FailedSendLocksButton | quiz-frontend/src/pages/QuizResult.jsx:54-72 | after a failed send the written handler shows the failure toast yet leaves the button disabled for good, while the corrected one leaves it pressable |
| QuizResult.SendComplete | quiz-frontend/src/pages/QuizResult.jsx:54-72 | the corrected handler: sending ends, sent is set exactly when it was or the mail went out, and the toast says which |
| QuizResult.SendButtonLifecycle | quiz-frontend/src/pages/QuizResult.jsx:46-72 | with the corrected handler the button is disabled while sending, and stays disabled afterwards exactly when the mail went out |
| QuizResult.SentIsPermanent | quiz-frontend/src/pages/QuizResult.jsx:209-211 | once sent, the button stays disabled, with either handler |
| ProtectedRoute.Guard | quiz-frontend/src/components/ProtectedRoute.jsx:4-16 | no user goes to login, a non-admin on an admin route goes home, and the page shows exactly for a user allowed on it |
| ProtectedRoute.LoginBeforeRole | quiz-frontend/src/components/ProtectedRoute.jsx:7-9 | without a user both kinds of route send to login |
| ProtectedRoute.GuardIsMonotone | quiz-frontend/src/components/ProtectedRoute.jsx:11-15 | a user allowed on an admin route is allowed on every route |
| ClientServer.VerifiedAt | quiz-backend/src/main/java/com/quizapp/controller/AuthController.java:66 | a message containing "verified" is flagged a success by the controller |
| ClientServer.EveryVerifyOutcomeShownAsVerified | quiz-backend/src/main/java/com/quizapp/service/AuthService.java:152-173 | every message `verifyEmail` returns, the invalid-token one included, is flagged a success and shown by the page as verified |
| ClientServer.VerifiedBetween | quiz-backend/src/main/java/com/quizapp/controller/AuthController.java:66 | any message with the word "verified" inside it, such as each message of `verifyEmail`, is flagged a success |
| ClientServer.SecondVisitStillShownAsVerified | quiz-frontend/src/pages/VerifyEmail.jsx:17-21 | opening a used verification link again changes nothing and still shows the account as verified |
| ClientServer.VerifyMessageFlagged | quiz-backend/src/main/java/com/quizapp/controller/AuthController.java:66 | each message of `verifyEmail` is flagged a success by the controller |
| ClientServer.FlaggedShownAsVerified | quiz-frontend/src/pages/VerifyEmail.jsx:17-21 | a reply the controller flags a success is shown as verified with its message |
| ClientServer.ChangeReply | quiz-backend/src/main/java/com/quizapp/controller/AuthController.java:116-126 | a 200 reply with "Password changed successfully" exactly when the service succeeds, else a 400 reply with the service's reason |
| ClientServer.ChangePasswordEndToEnd | quiz-frontend/src/pages/ChangePassword.jsx:16-41 | a change the page sends reaches `changePassword` with the typed current password; the page goes to login exactly when it matches the stored hash, which is then replaced, and otherwise shows "Current password is incorrect"; the new password's length is checked by the page only |
| ClientServer.VerificationLinkVerifiesAccount | quiz-backend/src/main/java/com/quizapp/service/AuthService.java:67-94 | the link mailed at registration carries the token the page sends back, and following it verifies exactly the new account |
| ClientServer.ResetLinkResetsPassword | quiz-frontend/src/pages/ResetPassword.jsx:17-39 | the link mailed by `forgotPassword` opens the reset page, which posts that token with the typed password, and the service accepts it exactly until the grant expires |
| ClientServer.ResendForVerifiedAccount | quiz-frontend/src/components/Navbar.jsx:173-181 | for a verified account the service answers "Email already verified", and the bar shows "✅ Your email is already verified!" as a success |
| ClientServer.AdminOnlyGuardAdmitsOnlyAdmins | quiz-frontend/src/components/ProtectedRoute.jsx:11-13 | the `adminOnly` guard admits exactly the ADMIN role, and sends a freshly registered USER home |
| ClientServer.AdminPagesAsRoutedAdmitUsers | quiz-frontend/src/App.jsx:34-37 | the admin pages are routed without `adminOnly`, so a freshly registered USER is shown them |
| ClientServer.FinishedQuizAdmitted | quiz-backend/src/main/java/com/quizapp/service/QuizService.java:123-128 | the server accepts a finished quiz's payload exactly when its questions are distinct |
| ClientServer.RepeatedTopicDoublesPool | quiz-backend/src/main/java/com/quizapp/service/QuizService.java:48-52 | a topic requested twice puts each of its questions in the pool twice |
| ClientServer.PickedLabelMatchesScore | quiz-frontend/src/pages/QuizResult.jsx:154-161 | the result page labels the picked option "Your Choice (Correct)" exactly when the server scored the question right |
| ClientServer.MailVerdictAtTheEnds | quiz-backend/src/main/java/com/quizapp/service/EmailService.java:161-162 | a full score is mailed as "Excellent Work!" and a zero score as "Keep Learning!" |

## Left out

- Login, JWT creation and the Spring `AuthenticationManager` are left out. The JWT of a registration is a parameter.
- The password encoder is left out. Its hash and its `matches` verdict are parameters.
- Mail sending and the HTML bodies of the mails are left out. Only the links, the subject and the verdict are modelled. What became of each mail is a parameter (`AuthService.MailOutcome`): delivered, failed while the message was built, or failed in the send with the mail library's message.
- UUIDs, fresh ids and the clock are parameters: randomness and time are outside the model.
- `Collections.shuffle` is a parameter, required to be a permutation of the pool.
- The controllers are left out, apart from `AuthController.verifyEmail` and `AuthController.changePassword`. Their mapping of exceptions to HTTP statuses is transport.
- Quiz history (`getUserQuizHistory` and the history page) is context, not core.
- The database cascades that delete a topic's questions or a question's options are left out. The model deletes only the named record and keeps the catalogue valid.
- The order of rows returned by `findByQuizAttemptId` and `findAllById` is not promised by the source. The model uses insertion and request order.
- QuizService.Record and QuizService.SubmitQuiz: the active quiz's question list is a `@ManyToMany` list without an order column, so the order it is loaded back in is not promised. The model takes it to be the drawn order. That order decides the attempt's topic and difficulty (from the first question), and the order of the reviews and of the saved answer rows.
- QuizService.TopicNamesOf: states membership only, not order. `Set.stream()` has no order.
- QuizService.Percentage: the percentage is an exact real, not a `double`. Only its range and its end values are stated.
- EmailService.StatusOf: compares exact reals, so rounding of the `double` percentage at the band edges is not modelled.
- `Text.ToLower` and `Text.ToUpper` convert ASCII letters only. JavaScript's and Java's full Unicode case mappings are not modelled.
- Strings are sequences of characters, not UTF-16 code units.
- `Text.ToNumber` accepts an optional sign and decimal digits. Fractions, exponents and hexadecimal read as NaN.
- `URLSearchParams.get` is modelled without percent-decoding and without `+` as a space.
- UserHome.Toggle: the id is taken as given. `topic.id || topic.topicId` and falsy ids are not modelled.
- TopicsPage.NameCompare: compares character codes, not locale collation.
- TopicsPage.SortTopics: the JavaScript engine's sort algorithm is not specified. With NaN ids the comparator is not a consistent order, so the model fixes a stable insertion sort. Only permutation is stated for all inputs. Order is stated when every id is a number.
- Toast rendering, animations, colour classes and the 3-second redirect after a reset are presentation.
- The once-per-second timer of the forgotten-password page is modelled as discrete ticks.
- QuestionForm: the effect that loads an edited question into the form (QuestionForm.jsx lines 12-29) is not modelled. The browser's `required` check is modelled as "the field is not empty"; its other constraint validation is not.
- The password pages' `required` inputs (ChangePassword.jsx lines 68, 94 and 113; ResetPassword.jsx lines 97 and 122) are modelled as "the field is not empty", as on the question form.
- ForgotPassword.Submit: the browser's `required` and `type="email"` checks on the address field (ForgotPassword.jsx lines 81-87) are not modelled. Only the handler's own blank check is, so a malformed address reaches the request in the model.
- AdminService.GetQuestionsByTopic: the repository's row order is a parameter (the listing), and `QuestionResponseDTO` is the stored question record itself, since the conversion copies its fields.
- The page fetches (topics list, question list) and the `window.confirm` dialogue are I/O.

## Findings

| source | as written | input that shows it | evidently intended | confidence | as-written member | corrected member |
|---|---|---|---|---|---|---|
| quiz-frontend/src/pages/QuizResult.jsx:54-67 | `await toast.promise(api.post(...), {...})` and then `setSent(true)`; sonner's `toast.promise` returns at once and does not reject, so `sent` becomes true whatever the request does | a POST to `/api/quiz/send-quiz-result` that fails: the error toast shows and the button stays disabled as "sent" | set `sent` only after the mail went out, as the comment on line 66 says, so a failed send can be retried | medium, not executed | QuizResult.SendCompleteAsWritten, QuizResult.FailedSendLocksButton | QuizResult.SendComplete, QuizResult.SendButtonLifecycle |

=== FILE: admin_service.dfy ===
/** The admin console's catalogue rules (`AdminService`): topics with unique names,
    questions with exactly one correct option, and the in-place rewrite of a
    question's option list. Each operation either fails with the exception's message
    and leaves the catalogue as it was, or returns the new catalogue. Fresh database
    identities are parameters. */
module AdminService {
  import opened Wrappers
  import opened Catalog
  import Text

  datatype TopicRequest = TopicRequest(name: string, description: Option<string>)

  datatype OptionRequest = OptionRequest(text: string, isCorrect: bool)

  datatype QuestionRequest = QuestionRequest(topicId: int, text: string, difficulty: Difficulty, options: seq<OptionRequest>)

  /** Bean validation's `@NotBlank` fails: every character is at most U+0020, the
      characters Java's `trim` strips. Other white space, such as U+00A0, counts as
      content here, unlike in JavaScript's `trim`. */
  predicate JavaBlank(s: string) {
    forall i :: 0 <= i < |s| ==> s[i] <= ' '
  }

  /** The bean-validation constraints on a topic request: a non-blank name of 2 to 100 characters. */
  predicate ValidTopicRequest(req: TopicRequest) {
    2 <= |req.name| <= 100 && !JavaBlank(req.name)
  }

  /** The bean-validation constraints on a question request: non-blank question text
      and between two and six options. */
  predicate ValidQuestionRequest(req: QuestionRequest) {
    !JavaBlank(req.text) && 2 <= |req.options| <= 6
  }

  /** A name of no-break spaces passes `@NotBlank`, though the pages' JavaScript `trim`
      would call it blank; an all-ASCII blank name does not pass. */
  lemma NoBreakSpaceNameIsValid(description: Option<string>)
    ensures ValidTopicRequest(TopicRequest("\U{A0}\U{A0}", description))
    ensures Text.IsBlank("\U{A0}\U{A0}")
    ensures !ValidTopicRequest(TopicRequest("  ", description))
  {
    var nbsp := "\U{A0}\U{A0}";
    assert !(nbsp[0] <= ' ');
    assert "  "[0] == ' ';
  }

  /** Some topic already carries `name` (`findByName(name).isPresent()`). */
  predicate NameTaken(topics: map<int, Topic>, name: string) {
    exists id :: id in topics && topics[id].name == name
  }

  /** A topic other than `self` already carries `name`. */
  predicate NameTakenByOther(topics: map<int, Topic>, name: string, self: int) {
    exists id :: id in topics && id != self && topics[id].name == name
  }

  /** How many options of a request are flagged correct. */
  function RequestedCorrect(opts: seq<OptionRequest>): nat
    decreases |opts|
  {
    if |opts| == 0 then 0
    else (if opts[0].isCorrect then 1 else 0) + RequestedCorrect(opts[1..])
  }

  /** Identities not used by any option of the catalogue and not repeated. */
  predicate FreshOptionIds(db: Db, ids: seq<int>) {
    && (forall i, j :: 0 <= i < j < |ids| ==> ids[i] != ids[j])
    && (forall i, q :: 0 <= i < |ids| && q in db.questions ==> ids[i] !in OptionIds(db.questions[q].options))
  }

  // ---------------------------------------------------------------------------
  // Topics
  // ---------------------------------------------------------------------------

  /** `createTopic`: refuses a name that is already used, otherwise stores a new topic
      under the fresh identity. */
  function CreateTopic(db: Db, req: TopicRequest, newId: int): (r: Result<(Db, Topic)>)
    requires ValidTopicRequest(req)
    requires newId !in db.topics
    ensures r.Err? <==> NameTaken(db.topics, req.name)
    ensures r.Err? ==> r.error == "Topic already exists with name: " + req.name
    ensures r.Ok? ==> r.value.0.topics.Keys == db.topics.Keys + {newId} && r.value.0.questions == db.questions
    ensures r.Ok? ==> r.value.1 == Topic(newId, req.name, req.description) && r.value.0.topics[newId] == r.value.1
    ensures r.Ok? ==> forall other :: other in db.topics ==> r.value.0.topics[other] == db.topics[other]
  {
    if NameTaken(db.topics, req.name) then
      Err("Topic already exists with name: " + req.name)
    else
      var t := Topic(newId, req.name, req.description);
      Ok((db.(topics := db.topics[newId := t]), t))
  }

  /** `getTopicById`. */
  function GetTopicById(db: Db, id: int): (r: Result<Topic>)
    ensures r.Ok? <==> id in db.topics
    ensures r.Ok? ==> r.value == db.topics[id]
    ensures r.Err? ==> r.error == "Topic not found with id: " + Text.IntToString(id)
  {
    if id in db.topics then Ok(db.topics[id])
    else Err("Topic not found with id: " + Text.IntToString(id))
  }

  /** `updateTopic`: the topic must exist, and its new name may be its own but no
      other topic's. */
  function UpdateTopic(db: Db, id: int, req: TopicRequest): (r: Result<(Db, Topic)>)
    requires ValidTopicRequest(req)
    ensures r.Ok? <==> id in db.topics && !NameTakenByOther(db.topics, req.name, id)
    ensures id !in db.topics ==> r == Err("Topic not found with id: " + Text.IntToString(id))
    ensures id in db.topics && NameTakenByOther(db.topics, req.name, id) ==>
              r == Err("Topic already exists with name: " + req.name)
    ensures r.Ok? ==> r.value.0.topics.Keys == db.topics.Keys && r.value.0.questions == db.questions
    ensures r.Ok? ==> var t := r.value.1;
              && t == r.value.0.topics[id] && t.id == db.topics[id].id
              && t.name == req.name && t.description == req.description
    ensures r.Ok? ==> forall other :: other in db.topics && other != id ==> r.value.0.topics[other] == db.topics[other]
  {
    var topic :- GetTopicById(db, id);
    if NameTakenByOther(db.topics, req.name, id) then
      Err("Topic already exists with name: " + req.name)
    else
      var t := topic.(name := req.name, description := req.description);
      Ok((db.(topics := db.topics[id := t]), t))
  }

  /** `deleteTopic`. The cascade to the topic's questions is not modelled. */
  function DeleteTopic(db: Db, id: int): (r: Result<Db>)
    ensures r.Ok? <==> id in db.topics
    ensures r.Err? ==> r.error == "Topic not found with id: " + Text.IntToString(id)
    ensures r.Ok? ==> r.value.topics.Keys == db.topics.Keys - {id} && r.value.questions == db.questions
    ensures r.Ok? ==> forall other :: other in r.value.topics ==> r.value.topics[other] == db.topics[other]
  {
    var _ :- GetTopicById(db, id);
    Ok(db.(topics := db.topics - {id}))
  }

  // ---------------------------------------------------------------------------
  // Questions
  // ---------------------------------------------------------------------------

  /** Options ticked like the requests, position by position, carry the requests'
      count of correct entries. */
  lemma {:induction false} SameTicks(opts: seq<AnswerOption>, reqs: seq<OptionRequest>)
    requires |opts| == |reqs|
    requires forall i :: 0 <= i < |reqs| ==> opts[i].isCorrect == reqs[i].isCorrect
    ensures CountCorrect(opts) == RequestedCorrect(reqs)
    decreases |reqs|
  {
    if |reqs| > 0 {
      SameTicks(opts[1..], reqs[1..]);
    }
  }

  /** The options created for a new question, in request order, each with its own new
      identity; they hold as many correct entries as the request did. */
  function NewOptions(reqs: seq<OptionRequest>, ids: seq<int>): (opts: seq<AnswerOption>)
    requires |ids| == |reqs|
    ensures |opts| == |reqs| && CountCorrect(opts) == RequestedCorrect(reqs)
    ensures forall i :: 0 <= i < |opts| ==> opts[i] == AnswerOption(ids[i], reqs[i].text, reqs[i].isCorrect)
  {
    var opts := seq(|reqs|, i requires 0 <= i < |reqs| => AnswerOption(ids[i], reqs[i].text, reqs[i].isCorrect));
    SameTicks(opts, reqs);
    opts
  }

  /** `createQuestion`: the topic must exist and exactly one requested option must be
      correct, checked in that order; then the question and its options are stored. */
  function CreateQuestion(db: Db, req: QuestionRequest, newId: int, optionIds: seq<int>): (r: Result<(Db, Question)>)
    requires ValidQuestionRequest(req)
    requires newId !in db.questions && |optionIds| == |req.options|
    ensures r.Ok? <==> req.topicId in db.topics && RequestedCorrect(req.options) == 1
    ensures req.topicId !in db.topics ==> r == Err("Topic not found")
    ensures req.topicId in db.topics && RequestedCorrect(req.options) != 1 ==>
              r == Err("Exactly one option must be marked as correct")
    ensures r.Ok? ==> r.value.0.questions.Keys == db.questions.Keys + {newId} && r.value.0.topics == db.topics
    ensures r.Ok? ==> forall other :: other in db.questions ==> r.value.0.questions[other] == db.questions[other]
    ensures r.Ok? ==> var q := r.value.1;
              && q == r.value.0.questions[newId]
              && q.id == newId && q.topicId == req.topicId && q.text == req.text && q.difficulty == req.difficulty
              && |q.options| == |req.options|
              && forall i :: 0 <= i < |q.options| ==>
                   q.options[i] == AnswerOption(optionIds[i], req.options[i].text, req.options[i].isCorrect)
  {
    if req.topicId !in db.topics then Err("Topic not found")
    else if RequestedCorrect(req.options) != 1 then Err("Exactly one option must be marked as correct")
    else
      var q := Question(newId, req.topicId, req.text, req.difficulty, NewOptions(req.options, optionIds));
      Ok((db.(questions := db.questions[newId := q]), q))
  }

  /** `getQuestionById`. */
  function GetQuestionById(db: Db, id: int): (r: Result<Question>)
    ensures r.Ok? <==> id in db.questions
    ensures r.Ok? ==> r.value == db.questions[id]
    ensures r.Err? ==> r.error == "Question not found with id: " + Text.IntToString(id)
  {
    if id in db.questions then Ok(db.questions[id])
    else Err("Question not found with id: " + Text.IntToString(id))
  }

  /** `listing` enumerates the questions of `topicId`, each once: the order in which the
      topic's question collection hands them out, which the source leaves to the
      persistence layer. */
  predicate ListsTopic(db: Db, topicId: int, listing: seq<int>) {
    && (forall i, j :: 0 <= i < j < |listing| ==> listing[i] != listing[j])
    && (forall i :: 0 <= i < |listing| ==> listing[i] in OfTopic(db, topicId))
    && (forall id :: id in OfTopic(db, topicId) ==> id in listing)
  }

  /** `getQuestionsByTopic`: the topic's stored questions, with their options, in the
      collection's order. */
  function GetQuestionsByTopic(db: Db, topicId: int, listing: seq<int>): (r: Result<seq<Question>>)
    requires ListsTopic(db, topicId, listing)
    ensures r.Ok? <==> topicId in db.topics
    ensures r.Ok? ==> |r.value| == |listing| && forall i :: 0 <= i < |listing| ==> r.value[i] == db.questions[listing[i]]
    ensures r.Ok? ==> forall id :: id in db.questions && db.questions[id].topicId == topicId ==> db.questions[id] in r.value
    ensures r.Ok? ==> forall k :: 0 <= k < |r.value| ==> r.value[k].topicId == topicId
    ensures r.Err? ==> r.error == "Topic not found with id: " + Text.IntToString(topicId)
  {
    var _ :- GetTopicById(db, topicId);
    assert forall i :: 0 <= i < |listing| ==> listing[i] in OfTopic(db, topicId);
    var qs := seq(|listing|, i requires 0 <= i < |listing| => db.questions[listing[i]]);
    assert forall id :: id in OfTopic(db, topicId) ==> db.questions[id] in qs by {
      forall id | id in OfTopic(db, topicId) ensures db.questions[id] in qs {
        var i :| 0 <= i < |listing| && listing[i] == id;
        assert qs[i] == db.questions[id];
      }
    }
    Ok(qs)
  }

  /** The option list after an update: as long as the request, position i keeps the
      identity of the old option i when there was one (otherwise a fresh identity),
      and takes request i's text and correctness. The old options past the request's
      length are gone, and the list holds as many correct entries as the request. */
  function Resized(existing: seq<AnswerOption>, reqs: seq<OptionRequest>, freshIds: seq<int>): (opts: seq<AnswerOption>)
    requires |freshIds| == |reqs|
    ensures |opts| == |reqs| && CountCorrect(opts) == RequestedCorrect(reqs)
    ensures forall i :: 0 <= i < |opts| ==> opts[i].text == reqs[i].text && opts[i].isCorrect == reqs[i].isCorrect
    ensures forall i :: 0 <= i < |opts| && i < |existing| ==> opts[i].id == existing[i].id
    ensures forall i :: |existing| <= i < |opts| ==> opts[i].id == freshIds[i]
  {
    var opts := seq(|reqs|, i requires 0 <= i < |reqs| =>
      AnswerOption(if i < |existing| then existing[i].id else freshIds[i], reqs[i].text, reqs[i].isCorrect));
    SameTicks(opts, reqs);
    opts
  }

  /** The loops of `updateQuestion` that grow the option list with new rows, cut it
      back from the end, and then overwrite text and correctness index by index. */
  method ApplyOptionEdits(existing: seq<AnswerOption>, reqs: seq<OptionRequest>, freshIds: seq<int>)
    returns (opts: seq<AnswerOption>)
    requires |freshIds| == |reqs|
    ensures opts == Resized(existing, reqs, freshIds)
  {
    opts := existing;
    while |opts| < |reqs|
      invariant |existing| <= |opts| <= |reqs| || opts == existing
      invariant forall i :: 0 <= i < |opts| ==>
                  opts[i] == if i < |existing| then existing[i] else AnswerOption(freshIds[i], "", false)
      decreases |reqs| - |opts|
    {
      opts := opts + [AnswerOption(freshIds[|opts|], "", false)];
    }
    while |opts| > |reqs|
      invariant |reqs| <= |opts|
      invariant forall i :: 0 <= i < |opts| ==>
                  opts[i] == if i < |existing| then existing[i] else AnswerOption(freshIds[i], "", false)
      decreases |opts|
    {
      opts := opts[..|opts| - 1];
    }
    var i := 0;
    while i < |reqs|
      invariant 0 <= i <= |reqs| == |opts|
      invariant forall j :: 0 <= j < i ==> opts[j] == Resized(existing, reqs, freshIds)[j]
      invariant forall j :: i <= j < |opts| ==>
                  opts[j].id == if j < |existing| then existing[j].id else freshIds[j]
    {
      opts := opts[i := opts[i].(text := reqs[i].text, isCorrect := reqs[i].isCorrect)];
      i := i + 1;
    }
  }

  /** `updateQuestion`: the question, then the topic, then the one-correct rule are
      checked before anything changes; the option rows are then resized and rewritten
      in place. */
  function UpdateQuestion(db: Db, id: int, req: QuestionRequest, freshIds: seq<int>): (r: Result<(Db, Question)>)
    requires ValidQuestionRequest(req)
    requires |freshIds| == |req.options|
    ensures r.Ok? <==> id in db.questions && req.topicId in db.topics && RequestedCorrect(req.options) == 1
    ensures id !in db.questions ==> r == Err("Question not found")
    ensures id in db.questions && req.topicId !in db.topics ==> r == Err("Topic not found")
    ensures id in db.questions && req.topicId in db.topics && RequestedCorrect(req.options) != 1 ==>
              r == Err("Exactly one option must be marked as correct")
    ensures r.Ok? ==> r.value.0.questions.Keys == db.questions.Keys && r.value.0.topics == db.topics
    ensures r.Ok? ==> forall other :: other in db.questions && other != id ==> r.value.0.questions[other] == db.questions[other]
    ensures r.Ok? ==> var q := r.value.1;
              && q == r.value.0.questions[id]
              && q.id == db.questions[id].id && q.topicId == req.topicId && q.text == req.text
              && q.difficulty == req.difficulty
              && |q.options| == |req.options|
              && (forall i :: 0 <= i < |q.options| ==>
                    q.options[i].text == req.options[i].text && q.options[i].isCorrect == req.options[i].isCorrect)
              && (forall i :: 0 <= i < |q.options| && i < |db.questions[id].options| ==>
                    q.options[i].id == db.questions[id].options[i].id)
              && (forall i :: |db.questions[id].options| <= i < |q.options| ==> q.options[i].id == freshIds[i])
  {
    if id !in db.questions then Err("Question not found")
    else if req.topicId !in db.topics then Err("Topic not found")
    else if RequestedCorrect(req.options) != 1 then Err("Exactly one option must be marked as correct")
    else
      var before := db.questions[id];
      var q := before.(topicId := req.topicId, text := req.text, difficulty := req.difficulty,
                    options := Resized(before.options, req.options, freshIds));
      Ok((db.(questions := db.questions[id := q]), q))
  }

  /** `deleteQuestion`. */
  function DeleteQuestion(db: Db, id: int): (r: Result<Db>)
    ensures r.Ok? <==> id in db.questions
    ensures r.Err? ==> r.error == "Question not found"
    ensures r.Ok? ==> r.value.questions.Keys == db.questions.Keys - {id} && r.value.topics == db.topics
    ensures r.Ok? ==> forall other :: other in r.value.questions ==> r.value.questions[other] == db.questions[other]
  {
    if id !in db.questions then Err("Question not found")
    else Ok(db.(questions := db.questions - {id}))
  }

  // ---------------------------------------------------------------------------
  // Writes read back
  // ---------------------------------------------------------------------------

  /** A created topic is then found under its new identity with the requested name and
      description, and every other lookup answers as before. */
  lemma CreateTopicThenGet(db: Db, req: TopicRequest, newId: int, id: int)
    requires ValidTopicRequest(req) && newId !in db.topics
    ensures CreateTopic(db, req, newId).Ok? ==>
              var db' := CreateTopic(db, req, newId).value.0;
              && GetTopicById(db', newId) == Ok(Topic(newId, req.name, req.description))
              && (id != newId ==> GetTopicById(db', id) == GetTopicById(db, id))
  {
  }

  /** An updated topic is then found with the new name and description and its old
      identity, and every other lookup answers as before. */
  lemma UpdateTopicThenGet(db: Db, id: int, req: TopicRequest, other: int)
    requires ValidTopicRequest(req)
    ensures UpdateTopic(db, id, req).Ok? ==>
              var db' := UpdateTopic(db, id, req).value.0;
              && GetTopicById(db', id) == Ok(db.topics[id].(name := req.name, description := req.description))
              && (other != id ==> GetTopicById(db', other) == GetTopicById(db, other))
  {
  }

  /** A deleted topic is then not found, and every other lookup answers as before. */
  lemma DeleteTopicThenGet(db: Db, id: int, other: int)
    ensures DeleteTopic(db, id).Ok? ==>
              var db' := DeleteTopic(db, id).value;
              && GetTopicById(db', id) == Err("Topic not found with id: " + Text.IntToString(id))
              && (other != id ==> GetTopicById(db', other) == GetTopicById(db, other))
  {
  }

  /** A created question is then found under its new identity, and every other lookup
      answers as before. */
  lemma CreateQuestionThenGet(db: Db, req: QuestionRequest, newId: int, optionIds: seq<int>, id: int)
    requires ValidQuestionRequest(req)
    requires newId !in db.questions && |optionIds| == |req.options|
    ensures CreateQuestion(db, req, newId, optionIds).Ok? ==>
              var (db', q) := CreateQuestion(db, req, newId, optionIds).value;
              && GetQuestionById(db', newId) == Ok(q)
              && (id != newId ==> GetQuestionById(db', id) == GetQuestionById(db, id))
  {
  }

  /** An updated question is then found with the returned content, the rows past the old
      option count carry the fresh identities, and every other lookup answers as before. */
  lemma UpdateQuestionThenGet(db: Db, id: int, req: QuestionRequest, freshIds: seq<int>, other: int)
    requires ValidQuestionRequest(req)
    requires |freshIds| == |req.options|
    ensures UpdateQuestion(db, id, req, freshIds).Ok? ==>
              var (db', q) := UpdateQuestion(db, id, req, freshIds).value;
              && GetQuestionById(db', id) == Ok(q)
              && q.options == Resized(db.questions[id].options, req.options, freshIds)
              && (other != id ==> GetQuestionById(db', other) == GetQuestionById(db, other))
  {
  }

  /** A deleted question is then not found, and every other lookup answers as before. */
  lemma DeleteQuestionThenGet(db: Db, id: int, other: int)
    ensures DeleteQuestion(db, id).Ok? ==>
              var db' := DeleteQuestion(db, id).value;
              && GetQuestionById(db', id) == Err("Question not found with id: " + Text.IntToString(id))
              && (other != id ==> GetQuestionById(db', other) == GetQuestionById(db, other))
  {
  }

  /** Creating a question files exactly that question under its topic and no other. */
  lemma CreateQuestionFiled(db: Db, req: QuestionRequest, newId: int, optionIds: seq<int>, t: int)
    requires ValidQuestionRequest(req)
    requires newId !in db.questions && |optionIds| == |req.options|
    ensures CreateQuestion(db, req, newId, optionIds).Ok? ==>
              OfTopic(CreateQuestion(db, req, newId, optionIds).value.0, t)
                == if t == req.topicId then OfTopic(db, t) + {newId} else OfTopic(db, t)
  {
  }

  /** Deleting a question takes exactly that question out of its topic's listing. */
  lemma DeleteQuestionUnfiled(db: Db, id: int, t: int)
    ensures DeleteQuestion(db, id).Ok? ==> OfTopic(DeleteQuestion(db, id).value, t) == OfTopic(db, t) - {id}
  {
  }

  /** After a question is created, its topic's listing holds the rows it held before
      and the new question, and nothing else. */
  lemma CreateQuestionListed(db: Db, req: QuestionRequest, newId: int, optionIds: seq<int>,
                             before: seq<int>, after: seq<int>)
    requires ValidQuestionRequest(req)
    requires newId !in db.questions && |optionIds| == |req.options|
    requires CreateQuestion(db, req, newId, optionIds).Ok?
    requires ListsTopic(db, req.topicId, before)
    requires ListsTopic(CreateQuestion(db, req, newId, optionIds).value.0, req.topicId, after)
    ensures var (db', q) := CreateQuestion(db, req, newId, optionIds).value;
            var listed := GetQuestionsByTopic(db, req.topicId, before);
            var listed' := GetQuestionsByTopic(db', req.topicId, after);
            listed.Ok? && listed'.Ok? && forall x :: x in listed'.value <==> x in listed.value || x == q
  {
    var (db', q) := CreateQuestion(db, req, newId, optionIds).value;
    var listed := GetQuestionsByTopic(db, req.topicId, before).value;
    var listed' := GetQuestionsByTopic(db', req.topicId, after).value;
    CreateQuestionFiled(db, req, newId, optionIds, req.topicId);
    forall x | x in listed'
      ensures x in listed || x == q
    {
      var i :| 0 <= i < |listed'| && listed'[i] == x;
      var id := after[i];
      if id != newId {
        assert id in OfTopic(db, req.topicId);
        assert x == db.questions[id];
      }
    }
    forall x | x in listed || x == q
      ensures x in listed'
    {
      if x != q {
        var i :| 0 <= i < |listed| && listed[i] == x;
        var id := before[i];
        assert id in OfTopic(db', req.topicId);
        assert db'.questions[id] == x;
      } else {
        assert newId in OfTopic(db', req.topicId);
      }
    }
  }

  // ---------------------------------------------------------------------------
  // The catalogue invariant
  // ---------------------------------------------------------------------------

  /** A new topic keeps the catalogue valid: its name was free. */
  lemma CreateTopicKeepsValid(db: Db, req: TopicRequest, newId: int)
    requires Valid(db) && ValidTopicRequest(req) && newId !in db.topics
    ensures CreateTopic(db, req, newId).Ok? ==> Valid(CreateTopic(db, req, newId).value.0)
  {
  }

  /** Renaming a topic keeps the names unique. */
  lemma UpdateTopicKeepsValid(db: Db, id: int, req: TopicRequest)
    requires Valid(db) && ValidTopicRequest(req)
    ensures UpdateTopic(db, id, req).Ok? ==> Valid(UpdateTopic(db, id, req).value.0)
  {
  }

  /** A topic may always keep its own name. */
  lemma UpdateTopicOwnName(db: Db, id: int, description: Option<string>)
    requires Valid(db) && id in db.topics && ValidTopicRequest(TopicRequest(db.topics[id].name, description))
    ensures UpdateTopic(db, id, TopicRequest(db.topics[id].name, description)).Ok?
  {
  }

  /** A created question is well formed, so the catalogue stays valid. */
  lemma CreateQuestionKeepsValid(db: Db, req: QuestionRequest, newId: int, optionIds: seq<int>)
    requires Valid(db) && ValidQuestionRequest(req)
    requires newId !in db.questions && |optionIds| == |req.options| && FreshOptionIds(db, optionIds)
    ensures CreateQuestion(db, req, newId, optionIds).Ok? ==> Valid(CreateQuestion(db, req, newId, optionIds).value.0)
  {
  }

  /** An updated question is well formed, so the catalogue stays valid; the fresh
      identities used for new rows must not clash with the kept ones. */
  lemma UpdateQuestionKeepsValid(db: Db, id: int, req: QuestionRequest, freshIds: seq<int>)
    requires Valid(db) && ValidQuestionRequest(req)
    requires |freshIds| == |req.options| && FreshOptionIds(db, freshIds)
    ensures UpdateQuestion(db, id, req, freshIds).Ok? ==> Valid(UpdateQuestion(db, id, req, freshIds).value.0)
  {
    var r := UpdateQuestion(db, id, req, freshIds);
    if r.Ok? {
      var existing := db.questions[id].options;
      var opts := Resized(existing, req.options, freshIds);
      forall i, j | 0 <= i < j < |opts|
        ensures opts[i].id != opts[j].id
      {
        if j < |existing| {
        } else if i < |existing| {
          assert existing[i].id in OptionIds(existing);
        }
      }
    }
  }

  /** Deleting a topic or a question keeps the catalogue valid. */
  lemma DeletesKeepValid(db: Db, id: int)
    requires Valid(db)
    ensures DeleteTopic(db, id).Ok? ==> Valid(DeleteTopic(db, id).value)
    ensures DeleteQuestion(db, id).Ok? ==> Valid(DeleteQuestion(db, id).value)
  {
  }
}

=== FILE: auth_service.dfy ===
/** The account lifecycle of `AuthService`: registration, e-mail verification and its
    resend, the forgotten-password reset token with its expiry, and the password change.
    The user table is the list of rows in insertion order, and every `findBy…` returns
    the first matching row. The password encoder's output, fresh UUID tokens, the JWT,
    the clock (in seconds) and what became of each mail are parameters. */
module AuthService {
  import opened Wrappers

  datatype Role = User | Admin {

    /** The enum constant's name, as it is stored and sent to the client. */
    function Name(): string {
      match this
      case User => "USER"
      case Admin => "ADMIN"
    }
  }

  /** What handing a mail to the mail sender came to: delivered; a `MessagingException`
      while the message was being built, which `EmailService` wraps in its own text; or
      an unchecked `MailException` from the send itself, which reaches the caller with
      the mail library's message. */
  datatype MailOutcome = Delivered | BuildFailed | SendFailed(reason: string)

  /** A password reset token with the instant it stops being accepted; the two columns
      are always written and cleared together. */
  datatype ResetGrant = ResetGrant(token: string, expiry: int)

  /** A row of the `users` table; `password` holds the encoder's output. */
  datatype Account = Account(
    fullName: string,
    email: string,
    password: string,
    verified: bool,
    verifyToken: Option<string>,
    reset: Option<ResetGrant>,
    role: Role)

  datatype RegisterRequest = RegisterRequest(fullName: string, email: string, password: string)

  /** What login and registration return: the JWT and the user's public details. */
  datatype AuthResponse = AuthResponse(token: string, email: string, fullName: string, role: string, isEmailVerified: bool)

  /** Reset grants live for 60 minutes. */
  const ResetLifetime: int := 60 * 60

  // ---------------------------------------------------------------------------
  // Lookups
  // ---------------------------------------------------------------------------

  /** The position of the first row satisfying `p`, if any. */
  function FirstWhere(users: seq<Account>, p: Account -> bool): (r: Option<nat>)
    ensures r.Some? ==> r.value < |users| && p(users[r.value])
    ensures r.Some? ==> forall j :: 0 <= j < r.value ==> !p(users[j])
    ensures r.None? <==> forall j :: 0 <= j < |users| ==> !p(users[j])
    decreases |users|
  {
    if |users| == 0 then None
    else if p(users[0]) then Some(0)
    else match FirstWhere(users[1..], p)
      case None => None
      case Some(i) => Some(i + 1)
  }

  /** `findByEmail`. */
  function FindByEmail(users: seq<Account>, email: string): Option<nat> {
    FirstWhere(users, (a: Account) => a.email == email)
  }

  /** `findByEmailVerificationToken`: a row with no token never matches. */
  function FindByVerifyToken(users: seq<Account>, token: string): Option<nat> {
    FirstWhere(users, (a: Account) => a.verifyToken == Some(token))
  }

  /** `findByPasswordResetToken`. */
  function FindByResetToken(users: seq<Account>, token: string): Option<nat> {
    FirstWhere(users, (a: Account) => a.reset.Some? && a.reset.value.token == token)
  }

  /** `existsByEmail`. */
  predicate EmailTaken(users: seq<Account>, email: string) {
    exists j :: 0 <= j < |users| && users[j].email == email
  }

  /** Some row holds `token` as its verification or its reset token. */
  predicate TokenInUse(users: seq<Account>, token: string) {
    exists j :: 0 <= j < |users| &&
      (users[j].verifyToken == Some(token) || (users[j].reset.Some? && users[j].reset.value.token == token))
  }

  /** The table invariant the service keeps: e-mails are unique (the unique column),
      no two rows share a verification or a reset token, and a verified account holds
      no verification token. */
  predicate Wf(users: seq<Account>) {
    && (forall i, j :: 0 <= i < j < |users| ==> users[i].email != users[j].email)
    && (forall i, j :: 0 <= i < j < |users| && users[i].verifyToken.Some? ==> users[i].verifyToken != users[j].verifyToken)
    && (forall i, j :: 0 <= i < j < |users| && users[i].reset.Some? && users[j].reset.Some? ==>
          users[i].reset.value.token != users[j].reset.value.token)
    && (forall i :: 0 <= i < |users| && users[i].verified ==> users[i].verifyToken.None?)
  }

  // ---------------------------------------------------------------------------
  // Registration
  // ---------------------------------------------------------------------------

  /** `register`: rejects a taken e-mail, otherwise appends an unverified USER holding
      the fresh verification token. A failed verification mail is only logged. */
  function Register(users: seq<Account>, req: RegisterRequest, hashed: string, verificationToken: string, jwt: string)
    : (r: Result<(seq<Account>, AuthResponse)>)
    ensures EmailTaken(users, req.email) <==> r == Err("Email already exists!")
    ensures r.Ok? ==> var (users', resp) := r.value;
              && users' == users + [Account(req.fullName, req.email, hashed, false, Some(verificationToken), None, User)]
              && resp == AuthResponse(jwt, req.email, req.fullName, "USER", false)
  {
    if EmailTaken(users, req.email) then Err("Email already exists!")
    else
      var account := Account(req.fullName, req.email, hashed, false, Some(verificationToken), None, User);
      Ok((users + [account], AuthResponse(jwt, account.email, account.fullName, account.role.Name(), account.verified)))
  }

  /** `registerAdmin`: rejects a taken e-mail, otherwise appends a verified ADMIN with no token. */
  function RegisterAdmin(users: seq<Account>, req: RegisterRequest, hashed: string, jwt: string)
    : (r: Result<(seq<Account>, AuthResponse)>)
    ensures EmailTaken(users, req.email) <==> r == Err("Email already exists!")
    ensures r.Ok? ==> var (users', resp) := r.value;
              && users' == users + [Account(req.fullName, req.email, hashed, true, None, None, Admin)]
              && resp == AuthResponse(jwt, req.email, req.fullName, "ADMIN", true)
  {
    if EmailTaken(users, req.email) then Err("Email already exists!")
    else
      var account := Account(req.fullName, req.email, hashed, true, None, None, Admin);
      Ok((users + [account], AuthResponse(jwt, account.email, account.fullName, account.role.Name(), account.verified)))
  }

  // ---------------------------------------------------------------------------
  // E-mail verification
  // ---------------------------------------------------------------------------

  /** `verifyEmail`: an unknown token, an already verified holder, or the holder is
      marked verified and its token cleared. Never fails. */
  function VerifyEmail(users: seq<Account>, token: string): (r: (seq<Account>, string))
    ensures FindByVerifyToken(users, token).None? ==>
              r == (users, "Email already verified or invalid token")
    ensures FindByVerifyToken(users, token).Some? && users[FindByVerifyToken(users, token).value].verified ==>
              r == (users, "Email already verified")
    ensures FindByVerifyToken(users, token).Some? && !users[FindByVerifyToken(users, token).value].verified ==>
              var i := FindByVerifyToken(users, token).value;
              && r.1 == "Email verified successfully"
              && r.0 == users[i := users[i].(verified := true, verifyToken := None)]
  {
    match FindByVerifyToken(users, token)
    case None => (users, "Email already verified or invalid token")
    case Some(i) =>
      if users[i].verified then (users, "Email already verified")
      else (users[i := users[i].(verified := true, verifyToken := None)], "Email verified successfully")
  }

  /** `resendVerificationEmail`: an unknown e-mail fails and a verified account is left
      alone; otherwise the token is replaced and saved before the mail goes out, so a
      mail failure reports an error over the already replaced token. Only a failure
      while building the message carries `EmailService`'s own text: a failed send is
      caught by nobody, so its own message is the reply. */
  function ResendVerificationEmail(users: seq<Account>, email: string, freshToken: string, mail: MailOutcome)
    : (r: (seq<Account>, Result<string>))
    ensures FindByEmail(users, email).None? ==> r == (users, Err("User not found"))
    ensures FindByEmail(users, email).Some? && users[FindByEmail(users, email).value].verified ==>
              r == (users, Ok("Email already verified"))
    ensures FindByEmail(users, email).Some? && !users[FindByEmail(users, email).value].verified ==>
              var i := FindByEmail(users, email).value;
              && r.0 == users[i := users[i].(verifyToken := Some(freshToken))]
              && (mail.Delivered? <==> r.1.Ok?)
              && r.1 == match mail
                        case Delivered => Ok("Verification email sent successfully!")
                        case BuildFailed => Err("Failed to send verification email")
                        case SendFailed(reason) => Err(reason)
  {
    match FindByEmail(users, email)
    case None => (users, Err("User not found"))
    case Some(i) =>
      if users[i].verified then (users, Ok("Email already verified"))
      else
        var users' := users[i := users[i].(verifyToken := Some(freshToken))];
        var reply := match mail
          case Delivered => Ok("Verification email sent successfully!")
          case BuildFailed => Err("Failed to send verification email")
          case SendFailed(reason) => Err(reason);
        (users', reply)
  }

  // ---------------------------------------------------------------------------
  // Passwords
  // ---------------------------------------------------------------------------

  /** `forgotPassword`: an unknown e-mail fails; otherwise a fresh reset token expiring
      an hour from `now` is saved before the mail goes out, so a mail failure reports
      an error over the already saved grant. */
  function ForgotPassword(users: seq<Account>, email: string, freshToken: string, now: int, mail: MailOutcome)
    : (r: (seq<Account>, Result<()>))
    ensures FindByEmail(users, email).None? ==> r == (users, Err("User not found with this email"))
    ensures FindByEmail(users, email).Some? ==>
              var i := FindByEmail(users, email).value;
              && r.0 == users[i := users[i].(reset := Some(ResetGrant(freshToken, now + 3600)))]
              && r.1 == (if mail.Delivered? then Ok(()) else Err("Failed to send password reset email"))
  {
    match FindByEmail(users, email)
    case None => (users, Err("User not found with this email"))
    case Some(i) =>
      var users' := users[i := users[i].(reset := Some(ResetGrant(freshToken, now + ResetLifetime)))];
      (users', if mail.Delivered? then Ok(()) else Err("Failed to send password reset email"))
  }

  /** `resetPassword`: an unknown token fails, a grant whose expiry lies strictly before
      `now` fails, otherwise the password is replaced and the grant cleared. */
  function ResetPassword(users: seq<Account>, token: string, now: int, hashed: string): (r: Result<seq<Account>>)
    ensures FindByResetToken(users, token).None? ==> r == Err("Invalid or expired reset token")
    ensures FindByResetToken(users, token).Some? ==>
              var i := FindByResetToken(users, token).value;
              && (users[i].reset.value.expiry < now ==> r == Err("Reset token has expired. Please request a new one"))
              && (users[i].reset.value.expiry >= now ==> r == Ok(users[i := users[i].(password := hashed, reset := None)]))
  {
    match FindByResetToken(users, token)
    case None => Err("Invalid or expired reset token")
    case Some(i) =>
      if users[i].reset.value.expiry < now then Err("Reset token has expired. Please request a new one")
      else Ok(users[i := users[i].(password := hashed, reset := None)])
  }

  /** `changePassword` for the authenticated e-mail (absent when nobody is logged in):
      the current password must match the stored hash under `matches`, the encoder's
      check; on success only that row's password changes. */
  function ChangePassword(users: seq<Account>, principal: Option<string>, current: string, hashed: string,
                          matches: (string, string) -> bool): (r: Result<seq<Account>>)
    ensures principal.None? || principal == Some("") ==> r == Err("You must be logged in to change password")
    ensures principal.Some? && principal.value != "" && FindByEmail(users, principal.value).None? ==>
              r == Err("User not found")
    ensures principal.Some? && principal.value != "" && FindByEmail(users, principal.value).Some? ==>
              var i := FindByEmail(users, principal.value).value;
              && (!matches(current, users[i].password) ==> r == Err("Current password is incorrect"))
              && (matches(current, users[i].password) ==> r == Ok(users[i := users[i].(password := hashed)]))
  {
    if principal.None? || principal.value == "" then Err("You must be logged in to change password")
    else match FindByEmail(users, principal.value)
      case None => Err("User not found")
      case Some(i) =>
        if !matches(current, users[i].password) then Err("Current password is incorrect")
        else Ok(users[i := users[i].(password := hashed)])
  }

  // ---------------------------------------------------------------------------
  // Properties
  // ---------------------------------------------------------------------------

  /** Under the invariant, the first row with a given e-mail is the only one. */
  lemma FindByEmailUnique(users: seq<Account>, email: string)
    requires Wf(users)
    ensures FindByEmail(users, email).Some? <==> EmailTaken(users, email)
    ensures forall j :: 0 <= j < |users| && users[j].email == email ==> FindByEmail(users, email) == Some(j)
  {
    var p := (a: Account) => a.email == email;
    assert forall j :: 0 <= j < |users| ==> (p(users[j]) <==> users[j].email == email);
  }

  /** Under the invariant, "Email already verified" is never the answer of `verifyEmail`:
      a verified account holds no token, so a token only ever finds an unverified one. */
  lemma VerifiedHolderUnreachable(users: seq<Account>, token: string)
    requires Wf(users)
    ensures VerifyEmail(users, token).1 != "Email already verified"
  {
    var f := FindByVerifyToken(users, token);
    if f.Some? {
      assert users[f.value].verifyToken == Some(token);
    }
  }

  /** A token that has verified an account is spent: presenting it again finds nobody. */
  lemma VerifyTwice(users: seq<Account>, token: string)
    requires Wf(users)
    ensures var (users', _) := VerifyEmail(users, token);
            VerifyEmail(users', token) == (users', "Email already verified or invalid token")
  {
    var p := (a: Account) => a.verifyToken == Some(token);
    var f := FindByVerifyToken(users, token);
    if f.Some? && !users[f.value].verified {
      var i := f.value;
      var users' := VerifyEmail(users, token).0;
      forall j | 0 <= j < |users'|
        ensures !p(users'[j])
      {
        if j != i {
          assert users'[j] == users[j];
          if j < i {
            assert !p(users[j]);
          } else {
            assert users[i].verifyToken.Some?;
          }
        }
      }
    }
  }

  /** A verified account stays verified under every step of the lifecycle. */
  lemma VerificationIsPermanent(users: seq<Account>, token: string, email: string, freshToken: string, k: nat,
                                mail: MailOutcome)
    requires k < |users| && users[k].verified
    ensures var users' := VerifyEmail(users, token).0; k < |users'| && users'[k].verified
    ensures var users' := ResendVerificationEmail(users, email, freshToken, mail).0; k < |users'| && users'[k].verified
  {
  }

  /** The password steps do not touch the verified flag either. */
  lemma PasswordStepsKeepVerified(users: seq<Account>, token: string, email: string, freshToken: string, now: int,
                                  hashed: string, mail: MailOutcome, k: nat)
    requires k < |users| && users[k].verified
    ensures var users' := ForgotPassword(users, email, freshToken, now, mail).0; k < |users'| && users'[k].verified
    ensures var r := ResetPassword(users, token, now, hashed); r.Ok? ==> k < |r.value| && r.value[k].verified
  {
  }

  /** A reset grant is accepted up to and including its expiry instant and never after. */
  lemma ForgotThenReset(users: seq<Account>, email: string, freshToken: string, now: int, later: int,
                        hashed: string, mail: MailOutcome)
    requires Wf(users) && !TokenInUse(users, freshToken) && EmailTaken(users, email)
    ensures var (users', _) := ForgotPassword(users, email, freshToken, now, mail);
            ResetPassword(users', freshToken, later, hashed).Ok? <==> later <= now + ResetLifetime
  {
    FindByEmailUnique(users, email);
    var i := FindByEmail(users, email).value;
    var users' := ForgotPassword(users, email, freshToken, now, mail).0;
    var p := (a: Account) => a.reset.Some? && a.reset.value.token == freshToken;
    forall j | 0 <= j < i
      ensures !p(users'[j])
    {
      assert users'[j] == users[j];
      assert !(users[j].reset.Some? && users[j].reset.value.token == freshToken);
    }
    assert p(users'[i]);
    assert FindByResetToken(users', freshToken) == Some(i);
  }

  /** A reset token works once: after a successful reset it no longer finds an account. */
  lemma ResetOnce(users: seq<Account>, token: string, now: int, hashed: string, later: int, hashed2: string)
    requires Wf(users) && ResetPassword(users, token, now, hashed).Ok?
    ensures ResetPassword(ResetPassword(users, token, now, hashed).value, token, later, hashed2)
            == Err("Invalid or expired reset token")
  {
    var p := (a: Account) => a.reset.Some? && a.reset.value.token == token;
    var i := FindByResetToken(users, token).value;
    var users' := ResetPassword(users, token, now, hashed).value;
    forall j | 0 <= j < |users'|
      ensures !p(users'[j])
    {
      if j != i {
        assert users'[j] == users[j];
        if j < i {
          assert !p(users[j]);
        } else {
          assert users[i].reset.Some?;
        }
      }
    }
  }

  /** A failed reset changes nothing; a successful one changes only the holder's
      password and grant. */
  lemma ResetTouchesOnlyHolder(users: seq<Account>, token: string, now: int, hashed: string, j: nat)
    requires j < |users| && ResetPassword(users, token, now, hashed).Ok?
    requires !(users[j].reset.Some? && users[j].reset.value.token == token)
    ensures ResetPassword(users, token, now, hashed).value[j] == users[j]
  {
  }

  /** Registering keeps the invariant when the new verification token is fresh. */
  lemma RegisterKeepsWf(users: seq<Account>, req: RegisterRequest, hashed: string, verificationToken: string, jwt: string)
    requires Wf(users) && !TokenInUse(users, verificationToken)
    ensures Register(users, req, hashed, verificationToken, jwt).Ok? ==>
              Wf(Register(users, req, hashed, verificationToken, jwt).value.0)
  {
    var r := Register(users, req, hashed, verificationToken, jwt);
    if r.Ok? {
      var users' := r.value.0;
      forall i | 0 <= i < |users|
        ensures users'[i].email != req.email && users'[i].verifyToken != Some(verificationToken)
      {
        assert users'[i] == users[i];
      }
    }
  }

  /** Registering an administrator keeps the invariant. */
  lemma RegisterAdminKeepsWf(users: seq<Account>, req: RegisterRequest, hashed: string, jwt: string)
    requires Wf(users)
    ensures RegisterAdmin(users, req, hashed, jwt).Ok? ==> Wf(RegisterAdmin(users, req, hashed, jwt).value.0)
  {
    var r := RegisterAdmin(users, req, hashed, jwt);
    if r.Ok? {
      var users' := r.value.0;
      forall i | 0 <= i < |users|
        ensures users'[i].email != req.email
      {
        assert users'[i] == users[i];
      }
    }
  }

  /** Replacing one row keeps the invariant when the new row keeps its e-mail, brings
      no verification or reset token another row holds, and holds no verification
      token once verified. */
  lemma ReplaceKeepsWf(users: seq<Account>, k: nat, a: Account)
    requires Wf(users) && k < |users|
    requires a.email == users[k].email
    requires a.verifyToken.Some? ==>
               forall j :: 0 <= j < |users| && j != k ==> users[j].verifyToken != a.verifyToken
    requires a.reset.Some? ==>
               forall j :: 0 <= j < |users| && j != k && users[j].reset.Some? ==> users[j].reset.value.token != a.reset.value.token
    requires a.verified ==> a.verifyToken.None?
    ensures Wf(users[k := a])
  {
    var u := users[k := a];
    forall i, j | 0 <= i < j < |u|
      ensures u[i].email != u[j].email
      ensures u[i].verifyToken.Some? ==> u[i].verifyToken != u[j].verifyToken
      ensures u[i].reset.Some? && u[j].reset.Some? ==> u[i].reset.value.token != u[j].reset.value.token
    {
      if i == k {
        assert u[j] == users[j];
      } else if j == k {
        assert u[i] == users[i];
      } else {
        assert u[i] == users[i] && u[j] == users[j];
      }
    }
    forall i | 0 <= i < |u| && u[i].verified
      ensures u[i].verifyToken.None?
    {
      if i != k {
        assert u[i] == users[i];
      }
    }
  }

  /** Verification keeps the invariant. */
  lemma VerifyKeepsWf(users: seq<Account>, token: string)
    requires Wf(users)
    ensures Wf(VerifyEmail(users, token).0)
  {
    var f := FindByVerifyToken(users, token);
    if f.Some? && !users[f.value].verified {
      ReplaceKeepsWf(users, f.value, users[f.value].(verified := true, verifyToken := None));
    }
  }

  /** Resending keeps the invariant when the new token is fresh. */
  lemma ResendKeepsWf(users: seq<Account>, email: string, freshToken: string, mail: MailOutcome)
    requires Wf(users) && !TokenInUse(users, freshToken)
    ensures Wf(ResendVerificationEmail(users, email, freshToken, mail).0)
  {
    var f := FindByEmail(users, email);
    if f.Some? && !users[f.value].verified {
      ReplaceKeepsWf(users, f.value, users[f.value].(verifyToken := Some(freshToken)));
    }
  }

  /** A reset request keeps the invariant when the new token is fresh. */
  lemma ForgotKeepsWf(users: seq<Account>, email: string, freshToken: string, now: int, mail: MailOutcome)
    requires Wf(users) && !TokenInUse(users, freshToken)
    ensures Wf(ForgotPassword(users, email, freshToken, now, mail).0)
  {
    var f := FindByEmail(users, email);
    if f.Some? {
      ReplaceKeepsWf(users, f.value, users[f.value].(reset := Some(ResetGrant(freshToken, now + ResetLifetime))));
    }
  }

  /** A password reset keeps the invariant. */
  lemma ResetKeepsWf(users: seq<Account>, token: string, now: int, hashed: string)
    requires Wf(users)
    ensures ResetPassword(users, token, now, hashed).Ok? ==> Wf(ResetPassword(users, token, now, hashed).value)
  {
    var f := FindByResetToken(users, token);
    if f.Some? {
      ReplaceKeepsWf(users, f.value, users[f.value].(password := hashed, reset := None));
    }
  }

  /** A password change keeps the invariant. */
  lemma ChangeKeepsWf(users: seq<Account>, principal: Option<string>, current: string, hashed: string,
                      matches: (string, string) -> bool)
    requires Wf(users)
    ensures ChangePassword(users, principal, current, hashed, matches).Ok? ==>
              Wf(ChangePassword(users, principal, current, hashed, matches).value)
  {
    if principal.Some? && principal.value != "" {
      var f := FindByEmail(users, principal.value);
      if f.Some? {
        ReplaceKeepsWf(users, f.value, users[f.value].(password := hashed));
      }
    }
  }

}

=== FILE: catalog.dfy ===
/** The quiz catalogue entities (topics, questions and their options) and the facts
    about options that both the admin console and the quiz engine rely on. */
module Catalog {
  import opened Wrappers

  datatype Difficulty = Beginner | Moderate | Expert {

    /** The enum constant's name, as it travels in JSON bodies and query strings. */
    function Name(): string {
      match this
      case Beginner => "BEGINNER"
      case Moderate => "MODERATE"
      case Expert => "EXPERT"
    }
  }

  /** Reading an enum constant by its exact name, as the JSON binding does. */
  function ParseDifficulty(name: string): (r: Option<Difficulty>)
    ensures r.Some? ==> r.value.Name() == name
    ensures forall d: Difficulty :: d.Name() == name ==> r == Some(d)
  {
    if name == "BEGINNER" then Some(Beginner)
    else if name == "MODERATE" then Some(Moderate)
    else if name == "EXPERT" then Some(Expert)
    else None
  }

  datatype Topic = Topic(id: int, name: string, description: Option<string>)

  datatype AnswerOption = AnswerOption(id: int, text: string, isCorrect: bool)

  datatype Question = Question(id: int, topicId: int, text: string, difficulty: Difficulty, options: seq<AnswerOption>)

  /** The topic and question tables, keyed by identity; each question row owns its options. */
  datatype Db = Db(topics: map<int, Topic>, questions: map<int, Question>)

  /** How many options are flagged correct (`filter(isCorrect).count()`). */
  function CountCorrect(opts: seq<AnswerOption>): nat
    decreases |opts|
  {
    if |opts| == 0 then 0
    else (if opts[0].isCorrect then 1 else 0) + CountCorrect(opts[1..])
  }

  /** The position of the first option flagged correct (`filter(isCorrect).findFirst()`). */
  function FirstCorrectIndex(opts: seq<AnswerOption>): (r: Option<nat>)
    ensures r.Some? ==> r.value < |opts| && opts[r.value].isCorrect
    ensures r.Some? ==> forall j :: 0 <= j < r.value ==> !opts[j].isCorrect
    ensures r.None? <==> forall j :: 0 <= j < |opts| ==> !opts[j].isCorrect
    decreases |opts|
  {
    if |opts| == 0 then None
    else if opts[0].isCorrect then Some(0)
    else match FirstCorrectIndex(opts[1..])
      case None => None
      case Some(i) => Some(i + 1)
  }

  /** The first option flagged correct, if any. */
  function FirstCorrect(opts: seq<AnswerOption>): Option<AnswerOption> {
    match FirstCorrectIndex(opts)
    case None => None
    case Some(i) => Some(opts[i])
  }

  /** The count of correct options is zero exactly when no option is flagged. */
  lemma {:induction false} CountCorrectZero(opts: seq<AnswerOption>)
    ensures CountCorrect(opts) == 0 <==> forall j :: 0 <= j < |opts| ==> !opts[j].isCorrect
    decreases |opts|
  {
    if |opts| > 0 {
      CountCorrectZero(opts[1..]);
      assert forall j :: 1 <= j < |opts| ==> opts[1..][j - 1] == opts[j];
    }
  }

  /** With exactly one correct option, the first correct one is the only correct one. */
  lemma {:induction false} SingleCorrectIsFirst(opts: seq<AnswerOption>)
    requires CountCorrect(opts) == 1
    ensures FirstCorrectIndex(opts).Some?
    ensures forall j :: 0 <= j < |opts| && opts[j].isCorrect ==> j == FirstCorrectIndex(opts).value
    decreases |opts|
  {
    if opts[0].isCorrect {
      CountCorrectZero(opts[1..]);
      assert forall j :: 1 <= j < |opts| ==> opts[1..][j - 1] == opts[j];
    } else {
      SingleCorrectIsFirst(opts[1..]);
      assert forall j :: 1 <= j < |opts| ==> opts[1..][j - 1] == opts[j];
    }
  }

  /** No two options of a question share an identity. */
  predicate DistinctOptionIds(opts: seq<AnswerOption>) {
    forall i, j :: 0 <= i < j < |opts| ==> opts[i].id != opts[j].id
  }

  /** The identities used by a list of options. */
  function OptionIds(opts: seq<AnswerOption>): set<int> {
    set i | 0 <= i < |opts| :: opts[i].id
  }

  /** A stored question as the admin console lets it be: between two and six options
      with distinct identities, exactly one of them correct. */
  predicate WellFormedQuestion(q: Question) {
    && 2 <= |q.options| <= 6
    && CountCorrect(q.options) == 1
    && DistinctOptionIds(q.options)
  }

  /** The questions filed under a topic, at any difficulty. */
  function OfTopic(db: Db, topicId: int): set<int> {
    set id | id in db.questions && db.questions[id].topicId == topicId
  }

  /** No two topics share a name (the unique column on `topics.name`). */
  predicate UniqueTopicNames(topics: map<int, Topic>) {
    forall a, b :: a in topics && b in topics && a != b ==> topics[a].name != topics[b].name
  }

  /** The catalogue invariant kept by the admin operations. */
  predicate Valid(db: Db) {
    && (forall id :: id in db.topics ==> db.topics[id].id == id)
    && (forall id :: id in db.questions ==> db.questions[id].id == id)
    && UniqueTopicNames(db.topics)
    && (forall id :: id in db.questions ==> WellFormedQuestion(db.questions[id]))
  }
}

=== FILE: change_password.dfy ===
/** The change-password page (`ChangePassword.jsx`): the browser's `required` check,
    the two local checks in their order, the body of the request, and loading ending whatever the reply. */
module ChangePassword {
  import opened Wrappers
  import opened Feedback

  const MinLength: int := 6

  datatype Form = Form(currentPassword: string, newPassword: string, confirmPassword: string, loading: bool)

  /** The request body. */
  datatype ChangeBody = ChangeBody(currentPassword: string, newPassword: string)

  datatype Effect = Show(toast: Toast) | Post(body: ChangeBody)

  /** The browser's `required` check on the three inputs: a form with an empty field is
      not submitted, so the handler never runs. */
  predicate RequiredFilled(f: Form) {
    f.currentPassword != "" && f.newPassword != "" && f.confirmPassword != ""
  }

  /** `handleSubmit` up to the request, behind the browser's check (`None` when the
      browser blocks the submit): a confirmation that differs is refused first, then a
      new password shorter than six characters; otherwise the page starts loading and
      posts the current and the new password. */
  function Submit(f: Form): (r: Option<(Form, Effect)>)
    ensures r.None? <==> !RequiredFilled(f)
    ensures r.Some? ==> (r.value.1.Post? <==> f.newPassword == f.confirmPassword && |f.newPassword| >= MinLength)
    ensures r.Some? && r.value.1.Post? ==>
              r.value.0 == f.(loading := true) && r.value.1.body == ChangeBody(f.currentPassword, f.newPassword)
    ensures r.Some? && r.value.1.Show? ==> r.value.0 == f && r.value.1.toast.tone == Error
    ensures r.Some? && f.newPassword != f.confirmPassword ==> r.value.1 == Show(Toast(Error, "New passwords do not match"))
    ensures r.Some? && f.newPassword == f.confirmPassword && |f.newPassword| < MinLength ==>
              r.value.1 == Show(Toast(Error, "Password must be at least 6 characters long"))
  {
    if !RequiredFilled(f) then None
    else if f.newPassword != f.confirmPassword then Some((f, Show(Toast(Error, "New passwords do not match"))))
    else if |f.newPassword| < MinLength then Some((f, Show(Toast(Error, "Password must be at least 6 characters long"))))
    else Some((f.(loading := true), Post(ChangeBody(f.currentPassword, f.newPassword))))
  }

  /** Where the page goes once the reply is in: to the login page after a success. */
  datatype Next = Stay | ToLogin

  /** The `try`/`finally` after the request: loading ends in every case, and only a
      success leaves for the login page. */
  function Complete(f: Form, reply: Reply): (r: (Form, Toast, Next))
    ensures r.0 == f.(loading := false)
    ensures r.2 == ToLogin <==> reply.Succeeded?
    ensures r.1 == ReplyToast(reply, "Password changed successfully ðŸŽ‰", "Failed to change password")
  {
    var toast := ReplyToast(reply, "Password changed successfully ðŸŽ‰", "Failed to change password");
    (f.(loading := false), toast, if reply.Succeeded? then ToLogin else Stay)
  }

  /** Whatever the reply, a submitted form does not stay loading, and it keeps what the
      user typed. */
  lemma SubmitThenCompleteEndsLoading(f: Form, reply: Reply)
    requires Submit(f).Some? && Submit(f).value.1.Post?
    ensures Complete(Submit(f).value.0, reply).0 == f.(loading := false)
  {
  }
}

=== FILE: client_server.dfy ===
/** Facts that need both tiers: what the pages make of the services' replies, and what
    the services make of the pages' requests. Each lemma composes a client-side model
    with a server-side one. */
module ClientServer {
  import opened Wrappers
  import opened Catalog
  import opened Wire
  import Text
  import Feedback
  import Url
  import AuthService
  import EmailService
  import QuizService
  import QuizPlay
  import QuizResult
  import VerifyEmail
  import ResetPassword
  import ChangePassword
  import Navbar
  import ProtectedRoute

  // ---------------------------------------------------------------------------
  // E-mail verification
  // ---------------------------------------------------------------------------

  /** The `success` flag `AuthController.verifyEmail` puts in its reply. */
  predicate ControllerSuccess(message: string) {
    Text.Contains(Text.ToLower(message), "verified")
  }

  /** A message holding "verified" at offset `i` still holds it after lower-casing. */
  lemma VerifiedAt(message: string, i: nat)
    requires i + 8 <= |message| && message[i..i + 8] == "verified"
    ensures ControllerSuccess(message)
  {
    Text.ContainsAt(message, "verified", i);
    VerifyEmail.WordIsLowerCase();
    Text.ContainsAfterLower(message, "verified");
  }

  /** Every message `verifyEmail` can return holds the word "verified", the invalid-token
      message included, so the controller flags every outcome as a success and the page
      shows every outcome, an unknown or already used link included, as verified with the
      server's message. */
  lemma EveryVerifyOutcomeShownAsVerified(users: seq<AuthService.Account>, token: string)
    ensures var message := AuthService.VerifyEmail(users, token).1;
            && ControllerSuccess(message)
            && VerifyEmail.OnReply(Feedback.Succeeded(Some(message))) == VerifyEmail.View(VerifyEmail.Verified, message)
  {
    var message := AuthService.VerifyEmail(users, token).1;
    VerifyMessageFlagged(message);
    FlaggedShownAsVerified(message);
  }

  /** Each of the three messages of `verifyEmail` is flagged a success. */
  lemma VerifyMessageFlagged(message: string)
    requires message == "Email verified successfully" || message == "Email already verified"
             || message == "Email already verified or invalid token"
    ensures ControllerSuccess(message)
  {
    if message == "Email verified successfully" {
      assert message == "Email " + "verified" + " successfully";
      VerifiedBetween("Email ", " successfully");
    } else if message == "Email already verified" {
      assert message == "Email already " + "verified" + "";
      VerifiedBetween("Email already ", "");
    } else {
      assert message == "Email already " + "verified" + " or invalid token";
      VerifiedBetween("Email already ", " or invalid token");
    }
  }

  /** A reply the controller flags a success is shown as verified with its message. */
  lemma FlaggedShownAsVerified(message: string)
    requires ControllerSuccess(message)
    ensures VerifyEmail.OnReply(Feedback.Succeeded(Some(message))) == VerifyEmail.View(VerifyEmail.Verified, message)
  {
    assert VerifyEmail.Lowered(Some(message)) == Text.ToLower(message);
  }

  /** A message made of any text, the word "verified" and any text is flagged a success. */
  lemma VerifiedBetween(before: string, after: string)
    ensures ControllerSuccess(before + "verified" + after)
  {
    var message := before + "verified" + after;
    assert message[|before|..|before| + 8] == "verified";
    VerifiedAt(message, |before|);
  }

  /** A second visit of the same verification link reaches the invalid-token branch on
      the server and is still shown as verified. */
  lemma SecondVisitStillShownAsVerified(users: seq<AuthService.Account>, token: string)
    requires AuthService.Wf(users)
    ensures var (users', _) := AuthService.VerifyEmail(users, token);
            && AuthService.VerifyEmail(users', token).1 == "Email already verified or invalid token"
            && VerifyEmail.OnReply(Feedback.Succeeded(Some(AuthService.VerifyEmail(users', token).1))).status == VerifyEmail.Verified
  {
    AuthService.VerifyTwice(users, token);
    EveryVerifyOutcomeShownAsVerified(AuthService.VerifyEmail(users, token).0, token);
  }

  /** The verification link of the mail opens the verification page with its token, so
      the page asks the server, and a freshly registered account is verified by it. */
  lemma VerificationLinkVerifiesAccount(users: seq<AuthService.Account>, req: AuthService.RegisterRequest,
                                         hashed: string, token: string, jwt: string, baseUrl: string)
    requires AuthService.Wf(users) && !AuthService.EmailTaken(users, req.email)
    requires !AuthService.TokenInUse(users, token)
    requires token != "" && '?' !in baseUrl && '&' !in token
    ensures var link := EmailService.VerificationLink(baseUrl, token);
            var tokenParam := Url.QueryGet(EmailService.QueryOfLink(link), "token");
            && EmailService.PageOfLink(link) == baseUrl + EmailService.VerifyPath
            && tokenParam == Some(token)
            && VerifyEmail.Requests(tokenParam)
            && var users' := AuthService.Register(users, req, hashed, token, jwt).value.0;
            && AuthService.VerifyEmail(users', token).1 == "Email verified successfully"
  {
    EmailService.TokenLinkRoundTrip(baseUrl, EmailService.VerifyPath, token);
    var users' := AuthService.Register(users, req, hashed, token, jwt).value.0;
    AuthService.RegisterKeepsWf(users, req, hashed, token, jwt);
    var n := |users|;
    assert users'[n].verifyToken == Some(token);
    var f := AuthService.FindByVerifyToken(users', token);
    assert f.Some?;
    assert f.value == n;
  }

  // ---------------------------------------------------------------------------
  // Password reset
  // ---------------------------------------------------------------------------

  /** The reset link of the mail opens the reset page with its token; a filled-in form
      there posts exactly that token and the typed password, and the server accepts it
      exactly while the grant has not expired. */
  lemma ResetLinkResetsPassword(users: seq<AuthService.Account>, email: string, token: string, now: int,
                                later: int, baseUrl: string, password: string, hashed: string, mail: AuthService.MailOutcome)
    requires AuthService.Wf(users) && AuthService.EmailTaken(users, email) && !AuthService.TokenInUse(users, token)
    requires token != "" && '?' !in baseUrl && '&' !in token
    requires !Text.IsBlank(password)
    ensures var link := EmailService.ResetLink(baseUrl, token);
            var page := ResetPassword.Page(password, password, false, false,
                                           Url.QueryGet(EmailService.QueryOfLink(link), "token"));
            && EmailService.PageOfLink(link) == baseUrl + EmailService.ResetPath
            && ResetPassword.Submit(page) == Some((page.(loading := true), ResetPassword.Post(ResetPassword.ResetBody(token, password))))
            && var users' := AuthService.ForgotPassword(users, email, token, now, mail).0;
            && (AuthService.ResetPassword(users', token, later, hashed).Ok? <==> later <= now + AuthService.ResetLifetime)
  {
    EmailService.TokenLinkRoundTrip(baseUrl, EmailService.ResetPath, token);
    AuthService.ForgotThenReset(users, email, token, now, later, hashed, mail);
  }

  // ---------------------------------------------------------------------------
  // Resending the verification mail
  // ---------------------------------------------------------------------------

  /** Asking for a new verification mail for a verified account returns "Email already
      verified", which the navigation bar replaces by its own fixed text. */
  lemma ResendForVerifiedAccount(users: seq<AuthService.Account>, email: string, freshToken: string, mail: AuthService.MailOutcome)
    requires AuthService.FindByEmail(users, email).Some?
    requires users[AuthService.FindByEmail(users, email).value].verified
    ensures var reply := AuthService.ResendVerificationEmail(users, email, freshToken, mail).1;
            && reply == Ok("Email already verified")
            && Navbar.ResendToast(Feedback.Succeeded(Some(reply.value))) == Feedback.Toast(Feedback.Success, Navbar.AlreadyVerifiedText)
  {
    var before, words := "Email ", "already verified";
    assert before + words == "Email already verified";
    assert (before + words)[|before|..|before| + |words|] == words;
    Text.ContainsAt(before + words, words, |before|);
    assert Feedback.ReplyToast(Feedback.Succeeded(Some("Email already verified")), "Verification email sent successfully!",
                               "❌ Failed to resend verification email.").text == "Email already verified";
  }

  // ---------------------------------------------------------------------------
  // Changing the password
  // ---------------------------------------------------------------------------

  /** `AuthController.changePassword`: a 200 reply with "Password changed successfully",
      or a 400 reply whose message is the service's reason. */
  function ChangeReply(result: Result<seq<AuthService.Account>>): (reply: Feedback.Reply)
    ensures reply.Succeeded? <==> result.Ok?
    ensures result.Ok? ==> reply.message == Some("Password changed successfully")
    ensures result.Err? ==> reply.message == Some(result.error)
  {
    if result.Ok? then Feedback.Succeeded(Some("Password changed successfully"))
    else Feedback.Failed(Some(result.error))
  }

  /** A change the page lets through carries the typed current password to
      `changePassword` for the logged-in account. The page then goes to the login page,
      with the server's success text, exactly when that password matches the stored
      hash, and the account's hash is then the new one; otherwise it stays and shows
      "Current password is incorrect". Loading ends either way. The six-character rule
      is the page's alone: the service never looks at the new password's length. */
  lemma ChangePasswordEndToEnd(users: seq<AuthService.Account>, email: string, f: ChangePassword.Form,
                               hashed: string, matches: (string, string) -> bool)
    requires email != "" && AuthService.FindByEmail(users, email).Some?
    requires ChangePassword.Submit(f).Some? && ChangePassword.Submit(f).value.1.Post?
    ensures var i := AuthService.FindByEmail(users, email).value;
            var body := ChangePassword.Submit(f).value.1.body;
            var result := AuthService.ChangePassword(users, Some(email), body.currentPassword, hashed, matches);
            var after := ChangePassword.Complete(ChangePassword.Submit(f).value.0, ChangeReply(result));
            && |f.newPassword| >= ChangePassword.MinLength
            && !after.0.loading
            && (after.2 == ChangePassword.ToLogin <==> matches(f.currentPassword, users[i].password))
            && (after.2 == ChangePassword.ToLogin ==>
                  && result == Ok(users[i := users[i].(password := hashed)])
                  && after.1 == Feedback.Toast(Feedback.Success, "Password changed successfully"))
            && (after.2 == ChangePassword.Stay ==>
                  after.1 == Feedback.Toast(Feedback.Error, "Current password is incorrect"))
  {
  }

  // ---------------------------------------------------------------------------
  // Roles
  // ---------------------------------------------------------------------------

  /** A session whose role is the name of a stored role passes an admin-only guard
      exactly for the ADMIN role; a freshly registered user is sent home from such a page. */
  lemma AdminOnlyGuardAdmitsOnlyAdmins(role: AuthService.Role, users: seq<AuthService.Account>,
                                req: AuthService.RegisterRequest, hashed: string, token: string, jwt: string)
    ensures ProtectedRoute.Guard(Some(ProtectedRoute.SessionUser(role.Name())), true) == ProtectedRoute.Children
            <==> role == AuthService.Admin
    ensures var r := AuthService.Register(users, req, hashed, token, jwt);
            r.Ok? ==> ProtectedRoute.Guard(Some(ProtectedRoute.SessionUser(r.value.1.role)), true) == ProtectedRoute.Redirect("/")
  {
  }

  /** The admin pages are routed through the guard without `adminOnly`, so a freshly
      registered USER is shown them like any logged-in account; only the server's own
      checks keep such a user from the admin operations. */
  lemma AdminPagesAsRoutedAdmitUsers(users: seq<AuthService.Account>, req: AuthService.RegisterRequest,
                                     hashed: string, token: string, jwt: string)
    ensures var r := AuthService.Register(users, req, hashed, token, jwt);
            r.Ok? ==> && r.value.1.role == AuthService.Role.User.Name()
                      && ProtectedRoute.Guard(Some(ProtectedRoute.SessionUser(r.value.1.role)), false) == ProtectedRoute.Children
  {
  }

  // ---------------------------------------------------------------------------
  // Playing and scoring a quiz
  // ---------------------------------------------------------------------------

  /** No two questions of the quiz carry the same identity. */
  predicate DistinctQuestions(questions: seq<QuizQuestionDto>) {
    forall i, j :: 0 <= i < j < |questions| ==> questions[i].questionId != questions[j].questionId
  }

  /** The payload the quiz page submits passes every check `submitQuiz` makes before
      scoring exactly when the quiz has no repeated question: its answers are all complete
      and the quiz and the user are known, so only `toMap`'s duplicate-key failure
      remains, and it strikes exactly on a repeated question. */
  lemma FinishedQuizAdmitted(s: QuizService.QuizDb, session: QuizPlay.Session, email: string)
    requires QuizPlay.Next(session).1.Submit? && |session.quiz.questions| > 0
    requires session.quiz.quizId in s.active && |s.active[session.quiz.quizId]| > 0 && email in s.users
    ensures QuizService.Admit(s, QuizPlay.Next(session).1.payload, email).Ok? <==> DistinctQuestions(session.quiz.questions)
  {
    var payload := QuizPlay.Next(session).1.payload;
    var answers := payload.answers.value;
    var qs := session.quiz.questions;
    assert QuizPlay.AllAnswered(session);
    assert QuizService.AllComplete(answers) by {
      forall i | 0 <= i < |answers|
        ensures QuizService.Complete(answers[i])
      {
        assert QuizPlay.PickOf(session.answers, qs[i].questionId).Some?;
      }
    }
    assert QuizService.DistinctQuestionIds(answers) <==> DistinctQuestions(qs) by {
      assert forall i :: 0 <= i < |qs| ==> answers[i].questionId == Some(qs[i].questionId);
    }
  }

  /** A topic listed twice puts each of its matching questions into the pool twice. */
  lemma RepeatedTopicDoublesPool(db: Db, topicId: int, d: Difficulty, q: int)
    requires q in QuizService.Matching(db, topicId, d)
    ensures QuizService.Pool(db, [topicId, topicId], d)[q] == 2
  {
    var m := multiset(QuizService.Matching(db, topicId, d));
    assert [topicId, topicId][1..] == [topicId];
    assert [topicId][1..] == [];
    assert QuizService.Pool(db, [topicId], d) == m + QuizService.Pool(db, [], d);
    assert m[q] == 1;
  }

  /** The picked option is labelled "Your Choice (Correct)" exactly when the server scored
      the question right, for a question with one correct option and distinct option
      identities, as the admin console keeps them. */
  lemma PickedLabelMatchesScore(db: Db, qid: int, m: map<int, int>, review: QuestionReviewDto)
    requires qid in db.questions && WellFormedQuestion(db.questions[qid])
    requires QuizService.ReviewsAnswer(db, qid, m, review)
    ensures (exists i :: 0 <= i < |review.options| && QuizResult.LabelOf(review.options[i]) == Some(QuizResult.ChoiceCorrect))
            <==> review.isCorrect
  {
    var q := db.questions[qid];
    var sel := m[q.id];
    SingleCorrectIsFirst(q.options);
    var k := FirstCorrectIndex(q.options).value;
    if review.isCorrect {
      assert QuizResult.LabelOf(review.options[k]) == Some(QuizResult.ChoiceCorrect);
    }
    if exists i :: 0 <= i < |review.options| && QuizResult.LabelOf(review.options[i]) == Some(QuizResult.ChoiceCorrect) {
      var i :| 0 <= i < |review.options| && QuizResult.LabelOf(review.options[i]) == Some(QuizResult.ChoiceCorrect);
      assert q.options[i].isCorrect && Some(sel) == Some(q.options[i].id);
      assert i == k;
    }
  }

  /** The result mail's verdict for a scored quiz: all right is "Excellent Work!", none
      right is "Keep Learning!". */
  lemma MailVerdictAtTheEnds(total: int)
    requires total > 0
    ensures EmailService.StatusOf(QuizService.Percentage(total, total)) == EmailService.Excellent
    ensures EmailService.StatusOf(QuizService.Percentage(0, total)) == EmailService.KeepLearning
  {
  }
}

=== FILE: email_service.dfy ===
/** The parts of `EmailService` that decide content: the verification and reset links,
    the result mail's subject, and the status line with its colour. Building the HTML
    and handing the mail to the mail server are not modelled. */
module EmailService {
  import opened Wrappers
  import Url
  import Text

  /** The page path a verification link opens. */
  const VerifyPath: string := "/verify-email"

  /** The page path a reset link opens. */
  const ResetPath: string := "/reset-password"

  /** `baseUrl + path + "?token=" + token`. */
  function TokenLink(baseUrl: string, path: string, token: string): (r: string)
    ensures |r| == |baseUrl| + |path| + 7 + |token|
    ensures r[..|baseUrl|] == baseUrl && r[|r| - |token|..] == token
  {
    baseUrl + path + "?token=" + token
  }

  /** The link in the verification mail. */
  function VerificationLink(baseUrl: string, token: string): (r: string)
    ensures r == baseUrl + "/verify-email?token=" + token
  {
    TokenLink(baseUrl, VerifyPath, token)
  }

  /** The link in the password reset mail. */
  function ResetLink(baseUrl: string, token: string): (r: string)
    ensures r == baseUrl + "/reset-password?token=" + token
  {
    TokenLink(baseUrl, ResetPath, token)
  }

  /** The page the browser opens when following a link: the part before the first `?`
      is the address, and the rest is the query the page reads its parameters from. */
  function QueryOfLink(link: string): string {
    Url.BreakAt(link, '?').1
  }

  /** The page a link leads to. */
  function PageOfLink(link: string): string {
    Url.BreakAt(link, '?').0
  }

  /** A token link leads to `baseUrl + path`, and the page reads back exactly the token
      from the `token` parameter, as long as neither the base address nor the path holds
      a `?` and the token holds no `&` (a UUID holds neither). */
  lemma TokenLinkRoundTrip(baseUrl: string, path: string, token: string)
    requires '?' !in baseUrl && '?' !in path && '&' !in token
    ensures PageOfLink(TokenLink(baseUrl, path, token)) == baseUrl + path
    ensures Url.QueryGet(QueryOfLink(TokenLink(baseUrl, path, token)), "token") == Some(token)
  {
    var link := TokenLink(baseUrl, path, token);
    var query := "token=" + token;
    assert link == (baseUrl + path) + ['?'] + query;
    Url.BreakAtPair(baseUrl + path, query, '?');
    assert '&' !in query by {
      assert forall k :: 0 <= k < |query| ==> query[k] == '=' || query[k] in "token" || query[k] in token;
    }
    Text.SplitNoSeparator(query, '&');
    assert query == "token" + ['='] + token;
    Url.BreakAtPair("token", token, '=');
  }

  /** The subject of the result mail. */
  function ResultSubject(topicName: string): (r: string)
    ensures |r| == |"Your Quiz Results - "| + |topicName|
    ensures r[..|"Your Quiz Results - "|] == "Your Quiz Results - " && r[|"Your Quiz Results - "|..] == topicName
  {
    "Your Quiz Results - " + topicName
  }

  /** The three verdicts of the result mail, from best to worst. */
  datatype Status = Excellent | Good | KeepLearning {

    function Text(): string {
      match this
      case Excellent => "Excellent Work!"
      case Good => "Good Job!"
      case KeepLearning => "Keep Learning!"
    }

    /** The colour the verdict is printed in. */
    function Color(): string {
      match this
      case Excellent => "#10B981"
      case Good => "#F59E0B"
      case KeepLearning => "#EF4444"
    }

    /** 2 for the best verdict, 0 for the worst. */
    function Rank(): nat {
      match this
      case Excellent => 2
      case Good => 1
      case KeepLearning => 0
    }
  }

  /** The verdict for a percentage: at least 70, at least 50, or below. */
  function StatusOf(percentage: real): (s: Status)
    ensures s == Excellent <==> percentage >= 70.0
    ensures s == Good <==> 50.0 <= percentage < 70.0
    ensures s == KeepLearning <==> percentage < 50.0
  {
    if percentage >= 70.0 then Excellent
    else if percentage >= 50.0 then Good
    else KeepLearning
  }

  /** The status text, chosen by its own conditional chain. */
  function StatusText(percentage: real): string {
    if percentage >= 70.0 then "Excellent Work!"
    else if percentage >= 50.0 then "Good Job!"
    else "Keep Learning!"
  }

  /** The status colour, chosen by a second conditional chain on the same thresholds. */
  function StatusColor(percentage: real): string {
    if percentage >= 70.0 then "#10B981"
    else if percentage >= 50.0 then "#F59E0B"
    else "#EF4444"
  }

  /** The two chains always pick the text and the colour of the same verdict, so the
      colour always agrees with the status. */
  lemma StatusAndColorAgree(percentage: real)
    ensures StatusText(percentage) == StatusOf(percentage).Text()
    ensures StatusColor(percentage) == StatusOf(percentage).Color()
  {
  }

  /** A better percentage never earns a worse verdict. */
  lemma StatusMonotone(p: real, q: real)
    requires p <= q
    ensures StatusOf(p).Rank() <= StatusOf(q).Rank()
  {
  }
}

=== FILE: feedback.dfy ===
/** What the pages get back from a request and what they show: the server's reply,
    read only for its `message` field, and the toast notifications. */
module Feedback {
  import opened Wrappers

  /** The reply to a request: a 2xx response, or a failed one (an error status, or no
      response at all), each with the `message` field of its body if it has one. */
  datatype Reply = Succeeded(message: Option<string>) | Failed(message: Option<string>)

  datatype Tone = Success | Warning | Error

  /** A toast notification. */
  datatype Toast = Toast(tone: Tone, text: string)

  /** The toast for a reply: the server's message when it is a non-empty string, the
      page's own text otherwise (`res.data.message || ...`, `err.response?.data?.message || ...`). */
  function ReplyToast(reply: Reply, successText: string, failureText: string): (t: Toast)
    ensures t.tone == (if reply.Succeeded? then Success else Error)
    ensures Truthy(reply.message) ==> t.text == reply.message.value
    ensures !Truthy(reply.message) ==> t.text == (if reply.Succeeded? then successText else failureText)
  {
    if reply.Succeeded? then Toast(Success, OrElse(reply.message, successText))
    else Toast(Error, OrElse(reply.message, failureText))
  }
}

=== FILE: forgot_password.dfy ===
/** The forgot-password page (`ForgotPassword.jsx`): two guards before the request, a
    60-second cooldown after a sent link, counted down one tick per second, the button
    that stays disabled while a request runs or the cooldown lasts, and the success
    panel that replaces the form once a link has been sent. */
module ForgotPassword {
  import opened Wrappers
  import opened Feedback
  import Text

  /** Seconds to wait after a link has been sent. */
  const CooldownSeconds: int := 60

  datatype Page = Page(email: string, loading: bool, success: bool, cooldown: int)

  /** What pressing the button does: a toast and nothing else, or the request. */
  datatype Effect = Show(toast: Toast) | Post(email: string)

  function Initial(): (p: Page)
    ensures p.email == "" && !p.loading && !p.success && p.cooldown == 0
  {
    Page("", false, false, 0)
  }

  /** `handleSubmit` up to the request: a blank address and a running cooldown are
      refused with a toast and no change; otherwise the page starts loading and posts
      the address as typed. */
  function Submit(p: Page): (r: (Page, Effect))
    ensures r.1.Post? <==> !Text.IsBlank(p.email) && p.cooldown <= 0
    ensures r.1.Post? ==> r.0 == p.(loading := true) && r.1.email == p.email
    ensures Text.IsBlank(p.email) ==> r == (p, Show(Toast(Error, "Please enter a valid email address")))
    ensures !Text.IsBlank(p.email) && p.cooldown > 0 ==>
              r == (p, Show(Toast(Warning, "Please wait " + Text.IntToString(p.cooldown) + " seconds before trying again.")))
  {
    Text.TrimEmptyIffBlank(p.email);
    if Text.Trim(p.email) == "" then (p, Show(Toast(Error, "Please enter a valid email address")))
    else if p.cooldown > 0 then
      (p, Show(Toast(Warning, "Please wait " + Text.IntToString(p.cooldown) + " seconds before trying again.")))
    else (p.(loading := true), Post(p.email))
  }

  /** The rest of `handleSubmit` once the reply is in: a sent link marks success and
      starts the cooldown; either way loading ends. */
  function Complete(p: Page, reply: Reply): (r: (Page, Toast))
    ensures !r.0.loading && r.0.email == p.email
    ensures reply.Succeeded? ==> r.0.success && r.0.cooldown == CooldownSeconds
    ensures reply.Failed? ==> r.0 == p.(loading := false)
    ensures r.1 == ReplyToast(reply, "Password reset link sent to your email \U{1F389}", "Failed to send reset email. Try again.")
  {
    var toast := ReplyToast(reply, "Password reset link sent to your email \U{1F389}", "Failed to send reset email. Try again.");
    if reply.Succeeded? then (p.(success := true, cooldown := CooldownSeconds, loading := false), toast)
    else (p.(loading := false), toast)
  }

  /** One second of the interval timer, which only runs while the cooldown is positive. */
  function Tick(p: Page): (r: Page)
    ensures p.cooldown > 0 ==> r == p.(cooldown := p.cooldown - 1)
    ensures p.cooldown <= 0 ==> r == p
  {
    if p.cooldown > 0 then p.(cooldown := p.cooldown - 1) else p
  }

  /** `n` seconds of the timer. */
  function Ticks(p: Page, n: nat): Page
    decreases n
  {
    if n == 0 then p else Ticks(Tick(p), n - 1)
  }

  /** `disabled={loading || cooldown > 0}`: the button refuses a press exactly when the
      handler would not post a non-blank address. */
  function ButtonDisabled(p: Page): (b: bool)
    ensures !Text.IsBlank(p.email) ==> (b <==> p.loading || Submit(p).1.Show?)
  {
    p.loading || p.cooldown > 0
  }

  /** No step of the page takes the cooldown below zero. */
  lemma CooldownNeverNegative(p: Page, reply: Reply)
    requires p.cooldown >= 0
    ensures Tick(p).cooldown >= 0
    ensures Submit(p).0.cooldown >= 0
    ensures Complete(p, reply).0.cooldown >= 0
  {
  }

  /** After `n` seconds the cooldown has gone down by `n`, but not below zero, and
      nothing else on the page has changed. */
  lemma {:induction false} TicksCountDown(p: Page, n: nat)
    requires p.cooldown >= 0
    ensures Ticks(p, n).cooldown == if p.cooldown >= n then p.cooldown - n else 0
    ensures Ticks(p, n) == p.(cooldown := Ticks(p, n).cooldown)
    decreases n
  {
    if n > 0 {
      TicksCountDown(Tick(p), n - 1);
    }
  }

  /** The address field and the button are on the page (`success ? ... : <form fields>`);
      after a sent link the success panel takes their place. */
  predicate FormShown(p: Page) {
    !p.success
  }

  /** The success panel's line "You can request a new link in {cooldown}s". */
  predicate CountdownShown(p: Page) {
    p.success && p.cooldown > 0
  }

  /** Once a link has been sent, the address field and the button are gone for good:
      no number of seconds, and no further reply, brings them back, so the page cannot
      send a second request. The panel counts down for 60 seconds and then drops the
      countdown line, although nothing on the page lets the user ask again. */
  lemma SentLinkHidesForm(p: Page, reply: Reply, n: nat, later: Reply)
    requires reply.Succeeded?
    ensures var q := Ticks(Complete(p, reply).0, n);
            && !FormShown(q) && !FormShown(Complete(q, later).0)
            && (CountdownShown(q) <==> n < CooldownSeconds)
  {
    TicksCountDown(Complete(p, reply).0, n);
  }

  /** An enabled button with a non-blank address always sends the request. */
  lemma EnabledButtonPosts(p: Page)
    requires !ButtonDisabled(p) && !Text.IsBlank(p.email)
    ensures Submit(p).1 == Post(p.email)
  {
  }
}

=== FILE: navbar.dfy ===
/** The navigation bar (`Navbar.jsx`): the avatar's initials, the theme switch, and the
    toast shown after asking for a new verification mail. */
module Navbar {
  import opened Wrappers
  import opened Feedback
  import Text

  /** `n[0]` for every piece of a split, joined: an empty piece (two spaces in a row, or
      a space at either end) has no first character and adds nothing. */
  function FirstLetters(words: seq<string>): (r: string)
    ensures |r| <= |words|
    decreases |words|
  {
    if |words| == 0 then ""
    else (if words[0] == "" then "" else [words[0][0]]) + FirstLetters(words[1..])
  }

  /** The first `n` characters (`slice(0, n)`). */
  function Take(s: string, n: nat): (r: string)
    ensures |r| == if |s| < n then |s| else n
    ensures r <= s
  {
    if |s| < n then s else s[..n]
  }

  /** The avatar text: "U" without a name, otherwise the first letters of the first two
      space-separated words, upper-cased. */
  function Initials(fullName: Option<string>): (r: string)
    ensures !Truthy(fullName) ==> r == "U"
    ensures |r| <= 2
    ensures Truthy(fullName) ==> r == Text.ToUpper(Take(FirstLetters(Text.Split(fullName.value, ' ')), 2))
  {
    if Truthy(fullName) then Text.ToUpper(Take(FirstLetters(Text.Split(fullName.value, ' ')), 2)) else "U"
  }

  /** A one-word name gives its first letter, upper-cased. */
  lemma InitialsOfOneWord(w: string)
    requires w != "" && ' ' !in w
    ensures Initials(Some(w)) == [Text.UpperChar(w[0])]
  {
    Text.SplitNoSeparator(w, ' ');
    assert FirstLetters([w]) == [w[0]] + FirstLetters([]);
  }

  /** A name "first last ..." gives the upper-cased first letters of its first two words,
      however many words follow. */
  lemma InitialsOfWords(first: string, second: string, rest: string)
    requires first != "" && ' ' !in first
    requires second != "" && ' ' !in second
    ensures Initials(Some(first + " " + second + rest)) == [Text.UpperChar(first[0]), Text.UpperChar(second[0])]
  {
    var name := first + " " + second + rest;
    assert name == first + [' '] + (second + rest);
    Text.SplitAfterPiece(first, second + rest, ' ');
    var tail := Text.Split(second + rest, ' ');
    assert tail[0][0] == second[0] by {
      SplitHead(second, rest);
    }
    var words := [first] + tail;
    assert words[1..] == tail;
    assert FirstLetters(words) == [first[0]] + FirstLetters(tail);
    assert FirstLetters(tail) == [tail[0][0]] + FirstLetters(tail[1..]);
    assert Take(FirstLetters(words), 2) == [first[0], second[0]];
  }

  /** The first piece of a split of a string that starts with a non-separator starts
      with that character. */
  lemma {:induction false} SplitHead(w: string, rest: string)
    requires w != "" && ' ' !in w
    ensures var parts := Text.Split(w + rest, ' ');
            parts[0] != "" && parts[0][0] == w[0]
  {
    var s := w + rest;
    assert s[0] == w[0];
  }

  /** A name made of spaces only is truthy, so it does not fall back to "U": every piece
      is empty and the initials are the empty string. */
  lemma BlankNameHasNoInitials(n: nat)
    requires n > 0
    ensures Initials(Some(seq(n, _ => ' '))) == ""
  {
    AllSpaces(seq(n, _ => ' '));
  }

  /** Every piece of a string of spaces is empty. */
  lemma {:induction false} AllSpaces(s: string)
    requires forall i :: 0 <= i < |s| ==> s[i] == ' '
    ensures FirstLetters(Text.Split(s, ' ')) == ""
    decreases |s|
  {
    if |s| > 0 {
      AllSpaces(s[1..]);
      assert Text.Split(s, ' ') == [""] + Text.Split(s[1..], ' ');
      assert ([""] + Text.Split(s[1..], ' '))[1..] == Text.Split(s[1..], ' ');
    }
  }

  /** `toggleTheme`: "dark" becomes "light" and anything else becomes "dark". */
  function ToggleTheme(theme: string): (r: string)
    ensures r == "light" <==> theme == "dark"
    ensures r == "dark" || r == "light"
  {
    if theme == "dark" then "light" else "dark"
  }

  const AlreadyVerifiedText: string := "✅ Your email is already verified!"

  /** The toast after "Verify Email": the message of the reply (or the page's own text
      when there is none), except that any message containing "already verified" is
      replaced by one fixed text, on the success and the failure path alike. */
  function ResendToast(reply: Reply): (t: Toast)
    ensures t.tone == (if reply.Succeeded? then Success else Error)
    ensures var msg := ReplyToast(reply, "Verification email sent successfully!", "❌ Failed to resend verification email.").text;
            && (Text.Contains(msg, "already verified") ==> t.text == AlreadyVerifiedText)
            && (!Text.Contains(msg, "already verified") ==> t.text == msg)
  {
    var base := ReplyToast(reply, "Verification email sent successfully!", "❌ Failed to resend verification email.");
    Toast(base.tone, if Text.Contains(base.text, "already verified") then AlreadyVerifiedText else base.text)
  }
}

=== FILE: protected_route.dfy ===
/** The route guard (`ProtectedRoute.jsx`): who may see a protected page. */
module ProtectedRoute {
  import opened Wrappers

  /** The logged-in user as the guard sees it: only the role matters. */
  datatype SessionUser = SessionUser(role: string)

  datatype Decision = Redirect(to: string) | Children

  /** No user goes to the login page; on an admin-only page a role other than "ADMIN"
      goes to the home page; everyone else sees the page. */
  function Guard(user: Option<SessionUser>, adminOnly: bool): (d: Decision)
    ensures user.None? ==> d == Redirect("/login")
    ensures user.Some? && adminOnly && user.value.role != "ADMIN" ==> d == Redirect("/")
    ensures d == Children <==> user.Some? && (!adminOnly || user.value.role == "ADMIN")
  {
    if user.None? then Redirect("/login")
    else if adminOnly && user.value.role != "ADMIN" then Redirect("/")
    else Children
  }

  /** The presence check comes first: without a user the page kind does not matter. */
  lemma LoginBeforeRole(adminOnly: bool)
    ensures Guard(None, adminOnly) == Guard(None, !adminOnly) == Redirect("/login")
  {
  }

  /** Every logged-in user passes the guard of a page that is not admin-only, and a
      user who passes an admin-only page passes every page. */
  lemma GuardIsMonotone(user: Option<SessionUser>)
    ensures user.Some? ==> Guard(user, false) == Children
    ensures Guard(user, true) == Children ==> Guard(user, false) == Children
  {
  }
}

=== FILE: question_form.dfy ===
/** The admin question editor (`QuestionForm.jsx`): the option list with its
    one-correct-at-a-time check boxes, adding and removing options, clearing the form,
    and the local check and payload of the submit button. */
module QuestionForm {
  import opened Wrappers
  import opened Catalog
  import AdminService

  /** One row of the option editor. */
  datatype OptionDraft = OptionDraft(optionText: string, isCorrect: bool)

  /** The topic drop-down: nothing chosen yet (the empty string), or the number of
      the chosen entry (`Number(e.target.value)`). */
  datatype TopicChoice = Unset | Chosen(id: int)

  datatype Form = Form(
    questionText: string,
    topic: TopicChoice,
    difficultyLevel: string,
    options: seq<OptionDraft>,
    showOptions: bool)

  /** The body sent to the question endpoints. */
  datatype QuestionPayload = QuestionPayload(
    questionText: string,
    topicId: int,
    difficultyLevel: string,
    options: seq<OptionDraft>)

  /** A fresh option row: no text, not correct. */
  const Blank: OptionDraft := OptionDraft("", false)

  const ExactlyOneMessage: string := "Please mark exactly one option as correct."

  /** `resetForm`: empty text, no topic, BEGINNER, a single blank option, options folded away. */
  function ResetForm(): (f: Form)
    ensures f.questionText == "" && f.topic == Unset && f.difficultyLevel == "BEGINNER"
    ensures |f.options| == 1 && f.options[0].optionText == "" && !f.options[0].isCorrect
    ensures !f.showOptions
  {
    Form("", Unset, "BEGINNER", [Blank], false)
  }

  /** How many rows are ticked (`options.filter(opt => opt.isCorrect).length`). */
  function CorrectCount(opts: seq<OptionDraft>): nat
    decreases |opts|
  {
    if |opts| == 0 then 0
    else (if opts[0].isCorrect then 1 else 0) + CorrectCount(opts[1..])
  }

  /** No two rows are ticked. */
  predicate AtMostOneCorrect(opts: seq<OptionDraft>) {
    forall i, j :: 0 <= i < j < |opts| && opts[i].isCorrect ==> !opts[j].isCorrect
  }

  /** `handleOptionChange(index, "optionText", value)`: only that row's text changes. */
  function EditText(opts: seq<OptionDraft>, index: nat, text: string): (r: seq<OptionDraft>)
    requires index < |opts|
    ensures |r| == |opts|
    ensures r[index].optionText == text && r[index].isCorrect == opts[index].isCorrect
    ensures forall j :: 0 <= j < |r| && j != index ==> r[j] == opts[j]
  {
    opts[index := opts[index].(optionText := text)]
  }

  /** `handleOptionChange(index, "isCorrect", value)`: the row takes the new tick, and a
      tick clears every other row's; an untick touches nothing else. Texts never change. */
  function SetCorrect(opts: seq<OptionDraft>, index: nat, value: bool): (r: seq<OptionDraft>)
    requires index < |opts|
    ensures |r| == |opts|
    ensures forall j :: 0 <= j < |r| ==> r[j].optionText == opts[j].optionText
    ensures r[index].isCorrect == value
    ensures value ==> forall j :: 0 <= j < |r| && j != index ==> !r[j].isCorrect
    ensures !value ==> forall j :: 0 <= j < |r| && j != index ==> r[j] == opts[j]
  {
    seq(|opts|, j requires 0 <= j < |opts| =>
      if j == index then opts[j].(isCorrect := value)
      else if value then opts[j].(isCorrect := false)
      else opts[j])
  }

  /** `addOption`: one blank row at the end. */
  function AddOption(opts: seq<OptionDraft>): (r: seq<OptionDraft>)
    ensures |r| == |opts| + 1 && r[..|opts|] == opts
    ensures r[|opts|].optionText == "" && !r[|opts|].isCorrect
  {
    opts + [Blank]
  }

  /** `removeOption`: drops the row at `index` when more than one row is left; the last
      row, and an index past the end, leave the list as it is. */
  function RemoveOption(opts: seq<OptionDraft>, index: int): (r: seq<OptionDraft>)
    ensures |opts| <= 1 || !(0 <= index < |opts|) ==> r == opts
    ensures |opts| > 1 && 0 <= index < |opts| ==>
              |r| == |opts| - 1
              && (forall j :: 0 <= j < index ==> r[j] == opts[j])
              && (forall j :: index <= j < |r| ==> r[j] == opts[j + 1])
  {
    if |opts| > 1 && 0 <= index < |opts| then opts[..index] + opts[index + 1..] else opts
  }

  /** The browser's check of the `required` fields before the form's submit handler
      runs: a topic is chosen, the difficulty and the question text are not empty, and,
      while the option rows are on the page, no option text is empty. Option rows folded
      away by "Hide Options" are not part of the form and are not checked. */
  predicate RequiredFilled(f: Form) {
    && f.topic.Chosen?
    && f.difficultyLevel != ""
    && f.questionText != ""
    && (f.showOptions ==> forall i :: 0 <= i < |f.options| ==> f.options[i].optionText != "")
  }

  /** Pressing the submit button. `None`: the browser blocks the submit over an empty
      required field, so the handler does not run and nothing is alerted or sent.
      Otherwise `handleSubmit` runs: unless exactly one row is ticked it alerts and
      sends nothing; else it sends the text, the chosen topic, the difficulty and the
      rows in order. */
  function Submit(f: Form): (r: Option<Result<QuestionPayload>>)
    ensures r.None? <==> !RequiredFilled(f)
    ensures r.Some? ==> (r.value.Err? <==> CorrectCount(f.options) != 1)
    ensures r.Some? && r.value.Err? ==> r.value.error == ExactlyOneMessage
    ensures r.Some? && r.value.Ok? ==>
              && r.value.value.questionText == f.questionText
              && r.value.value.difficultyLevel == f.difficultyLevel
              && r.value.value.options == f.options
              && r.value.value.topicId == f.topic.id
  {
    if !RequiredFilled(f) then None
    else if CorrectCount(f.options) != 1 then Some(Err(ExactlyOneMessage))
    else Some(Ok(QuestionPayload(f.questionText, f.topic.id, f.difficultyLevel, f.options)))
  }

  // ---------------------------------------------------------------------------
  // Properties
  // ---------------------------------------------------------------------------

  /** Counting and pairwise exclusion agree: no two ticked rows means at most one tick. */
  lemma {:induction false} AtMostOneIffCountBelowTwo(opts: seq<OptionDraft>)
    ensures AtMostOneCorrect(opts) <==> CorrectCount(opts) <= 1
    decreases |opts|
  {
    if |opts| > 0 {
      var rest := opts[1..];
      AtMostOneIffCountBelowTwo(rest);
      assert forall j :: 0 <= j < |rest| ==> rest[j] == opts[j + 1];
      if AtMostOneCorrect(opts) {
        assert AtMostOneCorrect(rest);
        if opts[0].isCorrect {
          assert forall j :: 0 <= j < |rest| ==> !rest[j].isCorrect;
          NoneTicked(rest);
        }
      } else {
        var i, j :| 0 <= i < j < |opts| && opts[i].isCorrect && opts[j].isCorrect;
        if i == 0 {
          assert rest[j - 1].isCorrect;
          SomeTicked(rest, j - 1);
        } else {
          assert !AtMostOneCorrect(rest) by {
            assert rest[i - 1].isCorrect && rest[j - 1].isCorrect;
          }
        }
      }
    }
  }

  /** A list with no ticked row counts zero. */
  lemma {:induction false} NoneTicked(opts: seq<OptionDraft>)
    requires forall j :: 0 <= j < |opts| ==> !opts[j].isCorrect
    ensures CorrectCount(opts) == 0
    decreases |opts|
  {
    if |opts| > 0 {
      NoneTicked(opts[1..]);
    }
  }

  /** A list with a ticked row counts at least one. */
  lemma {:induction false} SomeTicked(opts: seq<OptionDraft>, k: nat)
    requires k < |opts| && opts[k].isCorrect
    ensures CorrectCount(opts) >= 1
    decreases |opts|
  {
    if k > 0 {
      SomeTicked(opts[1..], k - 1);
    }
  }

  /** A list whose only ticked row is `k` counts exactly one. */
  lemma {:induction false} OnlyTicked(opts: seq<OptionDraft>, k: nat)
    requires k < |opts| && opts[k].isCorrect
    requires forall j :: 0 <= j < |opts| && j != k ==> !opts[j].isCorrect
    ensures CorrectCount(opts) == 1
    decreases |opts|
  {
    if k == 0 {
      NoneTicked(opts[1..]);
    } else {
      OnlyTicked(opts[1..], k - 1);
    }
  }

  /** Ticking a row leaves exactly that row ticked, so a form whose required fields
      are filled can then be sent. */
  lemma TickMakesSubmittable(f: Form, index: nat)
    requires index < |f.options|
    ensures CorrectCount(SetCorrect(f.options, index, true)) == 1
    ensures RequiredFilled(f) ==>
              (Submit(f.(options := SetCorrect(f.options, index, true))) ==
               Some(Ok(QuestionPayload(f.questionText, f.topic.id, f.difficultyLevel, SetCorrect(f.options, index, true)))))
  {
    OnlyTicked(SetCorrect(f.options, index, true), index);
  }

  /** Every editing step keeps "at most one row ticked": ticking clears the others, and
      unticking, editing text, adding a blank row and removing a row add no tick. */
  lemma EditsKeepAtMostOne(opts: seq<OptionDraft>, index: nat, text: string, value: bool, gone: int)
    requires AtMostOneCorrect(opts)
    requires index < |opts|
    ensures AtMostOneCorrect(EditText(opts, index, text))
    ensures AtMostOneCorrect(SetCorrect(opts, index, value))
    ensures AtMostOneCorrect(AddOption(opts))
    ensures AtMostOneCorrect(RemoveOption(opts, gone))
  {
    var r := RemoveOption(opts, gone);
    if |opts| > 1 && 0 <= gone < |opts| {
      forall i, j | 0 <= i < j < |r| && r[i].isCorrect
        ensures !r[j].isCorrect
      {
        var i' := if i < gone then i else i + 1;
        var j' := if j < gone then j else j + 1;
        assert r[i] == opts[i'] && r[j] == opts[j'];
      }
    }
  }

  /** A reset form is never sent as it stands: without a topic the browser blocks it.
      Once a topic and a text are filled in, its single blank row, folded away, is not
      checked by the browser, and ticking it sends an option with an empty text. */
  lemma ResetFormBlankOptionSent(id: int, text: string)
    requires text != ""
    ensures Submit(ResetForm()).None?
    ensures var f := ResetForm().(topic := Chosen(id), questionText := text);
            var sent := Submit(f.(options := SetCorrect(f.options, 0, true)));
            sent.Some? && sent.value.Ok? && sent.value.value.options == [OptionDraft("", true)]
  {
    var f := ResetForm().(topic := Chosen(id), questionText := text);
    TickMakesSubmittable(f, 0);
    assert SetCorrect(f.options, 0, true) == [OptionDraft("", true)];
  }

  // ---------------------------------------------------------------------------
  // Agreement with the server
  // ---------------------------------------------------------------------------

  /** The option list as the server reads it. */
  function ServerOptions(opts: seq<OptionDraft>): (r: seq<AdminService.OptionRequest>)
    ensures |r| == |opts|
    ensures forall i :: 0 <= i < |opts| ==> r[i].text == opts[i].optionText && r[i].isCorrect == opts[i].isCorrect
  {
    seq(|opts|, i requires 0 <= i < |opts| => AdminService.OptionRequest(opts[i].optionText, opts[i].isCorrect))
  }

  /** The request the server binds from a payload: the difficulty name must be one of
      the enumeration's, or the body is refused before the service is reached. */
  function ServerRequest(p: QuestionPayload): (r: Option<AdminService.QuestionRequest>)
    ensures r.Some? <==> ParseDifficulty(p.difficultyLevel).Some?
    ensures r.Some? ==> && r.value.topicId == p.topicId && r.value.text == p.questionText
                        && r.value.options == ServerOptions(p.options)
                        && r.value.difficulty.Name() == p.difficultyLevel
  {
    match ParseDifficulty(p.difficultyLevel)
    case None => None
    case Some(d) => Some(AdminService.QuestionRequest(p.topicId, p.questionText, d, ServerOptions(p.options)))
  }

  /** The server counts the ticks the form counted. */
  lemma {:induction false} ServerCountsTheSameTicks(opts: seq<OptionDraft>)
    ensures AdminService.RequestedCorrect(ServerOptions(opts)) == CorrectCount(opts)
    decreases |opts|
  {
    if |opts| > 0 {
      ServerCountsTheSameTicks(opts[1..]);
      assert ServerOptions(opts)[1..] == ServerOptions(opts[1..]);
    }
  }

  /** The form's local check is the server's rule: once the browser lets the form
      through, a payload the handler sends has exactly one correct option as the server
      counts them, and a form it alerts on would have been refused by the server for the
      same reason. */
  lemma LocalCheckMatchesServerRule(f: Form)
    requires RequiredFilled(f)
    ensures Submit(f).value.Ok? <==> AdminService.RequestedCorrect(ServerOptions(f.options)) == 1
  {
    ServerCountsTheSameTicks(f.options);
  }
}

=== FILE: quiz_play.dfy ===
/** The quiz page (`QuizPlay.jsx`): reading the topic list from the address, asking
    for a quiz, and the play session over the fixed question list — a cursor, the
    picked option per question, and the Finish step that builds the submission. */
module QuizPlay {
  import opened Wrappers
  import opened Wire
  import Text

  // ---------------------------------------------------------------------------
  // Starting a quiz
  // ---------------------------------------------------------------------------

  /** `topicsParam ? topicsParam.split(",").map(id => Number(id.trim())) : []`. */
  function ParseTopics(param: Option<string>): (r: seq<Text.JsNumber>)
    ensures !Truthy(param) ==> r == []
    ensures Truthy(param) ==>
              var pieces := Text.Split(param.value, ',');
              |r| == |pieces| && forall i :: 0 <= i < |r| ==> r[i] == Text.ToNumber(Text.Trim(pieces[i]))
  {
    if !Truthy(param) then []
    else
      var pieces := Text.Split(param.value, ',');
      seq(|pieces|, i requires 0 <= i < |pieces| => Text.ToNumber(Text.Trim(pieces[i])))
  }

  /** `Number(x)` on a query parameter: a missing one is `Number(null)`, that is 0. */
  function NumberOfParam(param: Option<string>): Text.JsNumber {
    match param
    case None => Text.Num(0)
    case Some(s) => Text.ToNumber(s)
  }

  /** The body of the generate request the page sends. */
  datatype GenerateBody = GenerateBody(topicIds: seq<Text.JsNumber>, difficultyLevel: Option<string>, numberOfQuestions: Text.JsNumber)

  /** What the page does on load: with no topic it shows an error and asks for nothing;
      otherwise it asks for a quiz on the parsed topics, in the order given. */
  function Start(topics: Option<string>, difficulty: Option<string>, numQ: Option<string>): (r: Result<GenerateBody>)
    ensures r.Err? <==> |ParseTopics(topics)| == 0
    ensures r.Err? ==> r.error == "No topics selected!"
    ensures r.Ok? ==> r.value.topicIds == ParseTopics(topics) && r.value.difficultyLevel == difficulty
                      && r.value.numberOfQuestions == NumberOfParam(numQ)
  {
    var topicIds := ParseTopics(topics);
    if |topicIds| == 0 then Err("No topics selected!")
    else Ok(GenerateBody(topicIds, difficulty, NumberOfParam(numQ)))
  }

  /** A missing or empty topics parameter never leads to a request. */
  lemma NoTopicsNoRequest(difficulty: Option<string>, numQ: Option<string>)
    ensures Start(None, difficulty, numQ) == Err("No topics selected!")
    ensures Start(Some(""), difficulty, numQ) == Err("No topics selected!")
  {
  }

  /** The decimal spellings of integers joined by commas (`selectedTopics.join(",")`).
      A non-empty list gives a non-empty string that splits at its commas back into
      the spellings, one per identity, in order. */
  function JoinIds(ids: seq<int>): (r: string)
    ensures |ids| > 0 ==> r != ""
    ensures |ids| > 0 ==> |Text.Split(r, ',')| == |ids|
    ensures |ids| > 0 ==> forall i :: 0 <= i < |ids| ==> Text.Split(r, ',')[i] == Text.IntToString(ids[i])
  {
    var pieces := seq(|ids|, i requires 0 <= i < |ids| => Text.IntToString(ids[i]));
    if |ids| == 0 then Text.Join(pieces, ",")
    else
      NoCommaInSpellings(ids);
      Text.SplitJoin(pieces, ',');
      JoinNonEmpty(pieces, ",");
      Text.Join(pieces, ",")
  }

  /** An integer's decimal spelling holds no comma. */
  lemma NoCommaInSpellings(ids: seq<int>)
    ensures forall k :: 0 <= k < |ids| ==> ',' !in Text.IntToString(ids[k])
  {
    forall k | 0 <= k < |ids|
      ensures ',' !in Text.IntToString(ids[k])
    {
      var p := Text.IntToString(ids[k]);
      assert forall j :: 0 <= j < |p| ==> Text.IsDigit(p[j]) || p[j] == '-' by {
        if !Text.AllDigits(p) {
          assert forall j :: 1 <= j < |p| ==> p[1..][j - 1] == p[j];
        }
      }
    }
  }

  /** Reading back a comma-joined list of integer identities gives the same numbers in
      the same order. */
  lemma ParseTopicsOfJoin(ids: seq<int>)
    requires |ids| > 0
    ensures |ParseTopics(Some(JoinIds(ids)))| == |ids|
    ensures forall i :: 0 <= i < |ids| ==> ParseTopics(Some(JoinIds(ids)))[i] == Text.Num(ids[i])
  {
    var joined := JoinIds(ids);
    var pieces := Text.Split(joined, ',');
    var parsed := ParseTopics(Some(joined));
    assert Truthy(Some(joined));
    forall i | 0 <= i < |ids|
      ensures parsed[i] == Text.Num(ids[i])
    {
      assert pieces[i] == Text.IntToString(ids[i]);
      NumberOfSpelling(ids[i]);
    }
  }

  /** A trimmed decimal spelling reads back as its integer. */
  lemma NumberOfSpelling(i: int)
    ensures Text.ToNumber(Text.Trim(Text.IntToString(i))) == Text.Num(i)
  {
    Text.TrimNoEdgeSpace(Text.IntToString(i));
    Text.NumberOfIntString(i);
  }

  /** A join whose first piece is non-empty is non-empty. */
  lemma JoinNonEmpty(parts: seq<string>, sep: string)
    requires |parts| > 0 && |parts[0]| > 0
    ensures Text.Join(parts, sep) != ""
  {
  }

  // ---------------------------------------------------------------------------
  // The play session
  // ---------------------------------------------------------------------------

  /** The page state once the quiz has loaded: the quiz, the cursor, and the picked
      option per question identity. */
  datatype Session = Session(quiz: QuizResponse, current: int, answers: map<int, int>)

  /** The state right after loading. */
  function Begin(quiz: QuizResponse): (s: Session)
    ensures s.quiz == quiz && s.current == 0 && s.answers == map[]
  {
    Session(quiz, 0, map[])
  }

  /** The cursor stays on a question (for a quiz with at least one question). */
  predicate CursorValid(s: Session) {
    0 <= s.current && (|s.quiz.questions| > 0 ==> s.current < |s.quiz.questions|)
  }

  /** `handleAnswer`: records the pick for that question only. */
  function Select(s: Session, questionId: int, optionId: int): (s': Session)
    ensures s'.quiz == s.quiz && s'.current == s.current
    ensures questionId in s'.answers && s'.answers[questionId] == optionId
    ensures forall q :: q != questionId ==> (q in s'.answers <==> q in s.answers)
    ensures forall q :: q != questionId && q in s.answers ==> s'.answers[q] == s.answers[q]
  {
    s.(answers := s.answers[questionId := optionId])
  }

  /** The Previous button: does nothing on the first question, otherwise steps back. */
  function Previous(s: Session): (s': Session)
    ensures s'.quiz == s.quiz && s'.answers == s.answers
    ensures s.current <= 0 ==> s' == s
    ensures s.current > 0 ==> s'.current == s.current - 1
  {
    if s.current > 0 then s.(current := s.current - 1) else s
  }

  /** The pick sent for a question: a falsy (0 or missing) pick is sent as null. */
  function PickOf(answers: map<int, int>, questionId: int): (r: Option<int>)
    ensures r.Some? <==> questionId in answers && answers[questionId] != 0
    ensures r.Some? ==> r.value == answers[questionId]
  {
    if questionId in answers && answers[questionId] != 0 then Some(answers[questionId]) else None
  }

  /** The answers of the submission: one per question, in question order. */
  function PayloadAnswers(questions: seq<QuizQuestionDto>, answers: map<int, int>): (r: seq<UserAnswerDto>)
    ensures |r| == |questions|
    ensures forall i :: 0 <= i < |r| ==>
              r[i].questionId == Some(questions[i].questionId) && r[i].selectedOptionId == PickOf(answers, questions[i].questionId)
  {
    seq(|questions|, i requires 0 <= i < |questions| =>
      UserAnswerDto(Some(questions[i].questionId), PickOf(answers, questions[i].questionId)))
  }

  /** Every question has a truthy pick. */
  predicate AllAnswered(s: Session) {
    forall i :: 0 <= i < |s.quiz.questions| ==> PickOf(s.answers, s.quiz.questions[i].questionId).Some?
  }

  /** What the Next/Finish button does besides moving the cursor. */
  datatype Effect = Nothing | Toast(message: string) | Submit(payload: QuizSubmissionRequest)

  /** `handleNext`: before the last question it steps forward; on the last it builds the
      payload and either refuses with a message, leaving the page as it was, or submits. */
  function Next(s: Session): (r: (Session, Effect))
    ensures s.current < |s.quiz.questions| - 1 ==> r == (s.(current := s.current + 1), Nothing)
    ensures s.current >= |s.quiz.questions| - 1 ==> r.0 == s && r.1 != Nothing
    ensures r.1.Toast? <==> s.current >= |s.quiz.questions| - 1 && !AllAnswered(s)
    ensures r.1.Toast? ==> r.1.message == "Please answer all questions before submitting!"
    ensures r.1.Submit? ==> r.1.payload == QuizSubmissionRequest(s.quiz.quizId, Some(PayloadAnswers(s.quiz.questions, s.answers)))
  {
    if s.current < |s.quiz.questions| - 1 then (s.(current := s.current + 1), Nothing)
    else
      var payload := PayloadAnswers(s.quiz.questions, s.answers);
      if exists i :: 0 <= i < |payload| && payload[i].selectedOptionId.None? then
        (s, Toast("Please answer all questions before submitting!"))
      else (s, Submit(QuizSubmissionRequest(s.quiz.quizId, Some(payload))))
  }

  /** The label of the forward button: "Finish" on the last question of a quiz that
      reports its true length, "Next" before it. */
  function ForwardLabel(s: Session): (r: string)
    ensures r == "Finish" || r == "Next"
    ensures CursorValid(s) && s.quiz.totalQuestions == |s.quiz.questions| ==>
              (r == "Finish" <==> s.current == |s.quiz.questions| - 1)
  {
    if s.current + 1 == s.quiz.totalQuestions then "Finish" else "Next"
  }

  /** The progress bar's percentage, `(current + 1) / totalQuestions * 100`; a quiz with
      no questions has no finite progress. */
  function Progress(s: Session): (p: Option<real>)
    ensures s.quiz.totalQuestions == 0 <==> p.None?
    ensures p.Some? && 0 <= s.current < s.quiz.totalQuestions ==> 0.0 < p.value <= 100.0
    ensures p.Some? && s.current + 1 == s.quiz.totalQuestions ==> p.value == 100.0
  {
    if s.quiz.totalQuestions == 0 then None
    else Some((s.current + 1) as real / s.quiz.totalQuestions as real * 100.0)
  }

  // ---------------------------------------------------------------------------
  // Properties
  // ---------------------------------------------------------------------------

  /** Every step of the session keeps the cursor on a question. */
  lemma StepsKeepCursor(s: Session, questionId: int, optionId: int)
    requires CursorValid(s)
    ensures CursorValid(Select(s, questionId, optionId))
    ensures CursorValid(Previous(s))
    ensures CursorValid(Next(s).0)
  {
  }

  /** Pressing Next `k` times. */
  function NextTimes(s: Session, k: nat): (r: (Session, seq<Effect>))
    ensures |r.1| == k
    decreases k
  {
    if k == 0 then (s, [])
    else
      var (s1, e) := Next(s);
      var (s2, es) := NextTimes(s1, k - 1);
      (s2, [e] + es)
  }

  /** From the first question, `k` presses of Next (up to the last question) walk the
      cursor to question `k`, change nothing else and send nothing. */
  lemma {:induction false} WalkForward(s: Session, k: nat)
    requires 0 <= s.current && s.current + k <= |s.quiz.questions| - 1
    ensures NextTimes(s, k).0 == s.(current := s.current + k)
    ensures forall i :: 0 <= i < k ==> NextTimes(s, k).1[i] == Nothing
    decreases k
  {
    if k > 0 {
      var s1 := Next(s).0;
      assert s1 == s.(current := s.current + 1);
      WalkForward(s1, k - 1);
      var rest := NextTimes(s1, k - 1).1;
      assert NextTimes(s, k).1 == [Nothing] + rest;
      forall i | 0 <= i < k
        ensures NextTimes(s, k).1[i] == Nothing
      {
        if i > 0 {
          assert NextTimes(s, k).1[i] == rest[i - 1];
        }
      }
    }
  }

  /** On the last question the page submits exactly when every question has a pick, and
      the submission carries every question once, in order, with its pick. */
  lemma FinishSubmitsIffAllAnswered(s: Session)
    requires |s.quiz.questions| > 0 && s.current == |s.quiz.questions| - 1
    ensures Next(s).1.Submit? <==> AllAnswered(s)
    ensures Next(s).1.Submit? ==>
              var answers := Next(s).1.payload.answers.value;
              && |answers| == |s.quiz.questions|
              && forall i :: 0 <= i < |answers| ==>
                   answers[i].questionId == Some(s.quiz.questions[i].questionId)
                   && answers[i].selectedOptionId == Some(s.answers[s.quiz.questions[i].questionId])
  {
  }

  /** When the quiz reports its true length, the button reads "Finish" exactly where
      pressing it builds the submission instead of stepping forward. */
  lemma FinishLabelMeansSubmit(s: Session)
    requires CursorValid(s) && s.quiz.totalQuestions == |s.quiz.questions|
    ensures ForwardLabel(s) == "Finish" <==> (|s.quiz.questions| > 0 && Next(s).1 != Nothing)
  {
  }
}

=== FILE: quiz_result.dfy ===
/** The result page (`QuizResult.jsx`): the fallback without a result, the two slices
    of the chart, the label of each reviewed option, and the button that mails the
    result, which cannot be pressed while a mail is going out or after one went out.
    The send handler is given twice: as written, where a failed send also locks the
    button, and as intended, where only a successful one does. */
module QuizResult {
  import opened Wrappers
  import opened Feedback
  import opened Wire

  /** The page is either the fallback ("No result data found.") or the result. */
  datatype Screen = Fallback | Content(result: QuizResultResponse)

  /** `if (!result) return ...`: the fallback exactly when navigation brought no result. */
  function ScreenOf(state: Option<QuizResultResponse>): (s: Screen)
    ensures s.Fallback? <==> state.None?
    ensures s.Content? ==> s.result == state.value
  {
    if state.None? then Fallback else Content(state.value)
  }

  /** One slice of the pie chart. */
  datatype Slice = Slice(name: string, value: int)

  /** The chart's two slices, correct first. */
  function ChartData(r: QuizResultResponse): (d: seq<Slice>)
    ensures |d| == 2
    ensures d[0] == Slice("Correct", r.correctAnswers) && d[1] == Slice("Wrong", r.wrongAnswers)
  {
    [Slice("Correct", r.correctAnswers), Slice("Wrong", r.wrongAnswers)]
  }

  /** The label printed after a reviewed option. */
  datatype Label = ChoiceCorrect | ChoiceWrong | CorrectAnswer {
    function Text(): string {
      match this
      case ChoiceCorrect => "✅ Your Choice (Correct)"
      case ChoiceWrong => "❌ Your Choice (Wrong)"
      case CorrectAnswer => "✅ Correct Answer"
    }
  }

  /** The decision table of the review: a picked option says whether the pick was right,
      an unpicked correct option is pointed out, and any other option has no label. */
  function LabelOf(opt: OptionReviewDto): (l: Option<Label>)
    ensures l == Some(ChoiceCorrect) <==> opt.wasSelected && opt.isCorrect
    ensures l == Some(ChoiceWrong) <==> opt.wasSelected && !opt.isCorrect
    ensures l == Some(CorrectAnswer) <==> !opt.wasSelected && opt.isCorrect
    ensures l == None <==> !opt.wasSelected && !opt.isCorrect
  {
    if opt.wasSelected && opt.isCorrect then Some(ChoiceCorrect)
    else if opt.wasSelected && !opt.isCorrect then Some(ChoiceWrong)
    else if opt.isCorrect then Some(CorrectAnswer)
    else None
  }

  /** The state behind the send button, on a page that shows a result. */
  datatype Page = Page(result: QuizResultResponse, userEmail: Option<string>, sending: bool, sent: bool)

  datatype Effect = Show(toast: Toast) | Post(email: string, result: QuizResultResponse)

  /** `disabled={sending || sent}`. */
  predicate SendDisabled(p: Page) {
    p.sending || p.sent
  }

  /** `handleSendEmail` up to the request: without the user's e-mail address it only
      shows an error; otherwise it starts sending and posts the result to that address. */
  function SendStart(p: Page): (r: (Page, Effect))
    ensures r.1.Post? <==> Truthy(p.userEmail)
    ensures !Truthy(p.userEmail) ==> r == (p, Show(Toast(Error, "User email not found!")))
    ensures r.1.Post? ==> r.0 == p.(sending := true) && r.1 == Post(p.userEmail.value, p.result)
  {
    if !Truthy(p.userEmail) then (p, Show(Toast(Error, "User email not found!")))
    else (p.(sending := true), Post(p.userEmail.value, p.result))
  }

  /** The toast `toast.promise` shows once the request settles. */
  function SendToast(succeeded: bool): (t: Toast)
    ensures t.tone == (if succeeded then Success else Error)
  {
    if succeeded then Toast(Success, "✅ Quiz results sent successfully!")
    else Toast(Error, "❌ Failed to send quiz results.")
  }

  /** The rest of `handleSendEmail` as written. `toast.promise` hands back the toast's
      identity, not the request's promise, so the `await` does not wait for the request:
      `sent` is set and `sending` cleared whatever the request does, and only the toast
      follows the request's outcome. */
  function SendCompleteAsWritten(p: Page, succeeded: bool): (r: (Page, Toast))
    ensures r.0.sent && !r.0.sending
    ensures r.0.result == p.result && r.0.userEmail == p.userEmail
    ensures r.1 == SendToast(succeeded)
  {
    (p.(sending := false, sent := true), SendToast(succeeded))
  }

  /** As written, a failed send still locks the button: the error toast shows, yet the
      button stays disabled for good, where the intended handler lets the user retry. */
  lemma FailedSendLocksButton(p: Page)
    requires !SendDisabled(p) && Truthy(p.userEmail)
    ensures SendCompleteAsWritten(SendStart(p).0, false).1.tone == Error
    ensures SendDisabled(SendCompleteAsWritten(SendStart(p).0, false).0)
    ensures !SendDisabled(SendComplete(SendStart(p).0, false).0)
  {
  }

  /** The rest of `handleSendEmail` as its comment intends ("update state after
      success"): `sent` is set only when the request succeeded, and sending ends in every
      case. */
  function SendComplete(p: Page, succeeded: bool): (r: (Page, Toast))
    ensures !r.0.sending
    ensures r.0.sent <==> p.sent || succeeded
    ensures r.0 == p.(sending := false, sent := r.0.sent)
    ensures r.1 == SendToast(succeeded)
  {
    if succeeded then (p.(sending := false, sent := true), SendToast(true))
    else (p.(sending := false), SendToast(false))
  }

  /** With the intended handler, after a successful send the button stays disabled, and
      after a failed one it can be pressed again; while the request runs it is disabled. */
  lemma SendButtonLifecycle(p: Page, succeeded: bool)
    requires !SendDisabled(p) && Truthy(p.userEmail)
    ensures SendDisabled(SendStart(p).0)
    ensures SendDisabled(SendComplete(SendStart(p).0, succeeded).0) <==> succeeded
  {
  }

  /** Once sent, always sent: no further step clears the flag. */
  lemma SentIsPermanent(p: Page, succeeded: bool)
    requires p.sent
    ensures SendStart(p).0.sent && SendComplete(p, succeeded).0.sent && SendCompleteAsWritten(p, succeeded).0.sent
    ensures SendDisabled(SendStart(p).0) && SendDisabled(SendComplete(p, succeeded).0)
  {
  }
}

=== FILE: quiz_service.dfy ===
/** The quiz engine (`QuizService`): pooling and drawing questions into an active quiz,
    scoring a submission against the first option flagged correct, storing the attempt
    and its answers, replaying a stored attempt, and the per-topic counts. The shuffle,
    the quiz UUID, the attempt identity and whether the result mail was delivered are
    parameters. */
module QuizService {
  import opened Wrappers
  import opened Catalog
  import opened Wire
  import Text

  /** The body of `POST /quiz/generate` after binding. */
  datatype GenerationRequest = GenerationRequest(topicIds: seq<int>, difficulty: Difficulty, numberOfQuestions: int)

  /** The bean-validation constraints: at least one topic and at least two questions. */
  predicate ValidGenerationRequest(req: GenerationRequest) {
    |req.topicIds| > 0 && req.numberOfQuestions >= 2
  }

  /** A stored attempt: whose it is, the topic and difficulty of its first question, the score. */
  datatype Attempt = Attempt(userEmail: string, topicId: int, difficulty: Difficulty, score: nat, totalQuestions: nat)

  /** A stored answer row: the question, the picked option when it exists, and whether it was right. */
  datatype UserAnswer = UserAnswer(attemptId: int, questionId: int, selectedOptionId: Option<int>, isCorrect: bool)

  /** The tables the quiz engine reads and writes. An active quiz is the ordered list of
      its question identities; a user is known by email with a nullable verified flag. */
  datatype QuizDb = QuizDb(
    catalog: Db,
    active: map<string, seq<int>>,
    attempts: map<int, Attempt>,
    answers: seq<UserAnswer>,
    users: map<string, Option<bool>>)

  /** Every question row carries its key and names a stored topic. */
  predicate Linked(db: Db) {
    forall id :: id in db.questions ==> db.questions[id].id == id && db.questions[id].topicId in db.topics
  }

  /** Referential integrity of the quiz tables: the catalogue is linked, active quizzes
      name stored questions of stored topics, answers name stored questions, and
      attempts name a stored topic and hold at least one question. */
  predicate Consistent(s: QuizDb) {
    && Linked(s.catalog)
    && (forall k :: k in s.active ==> Playable(s.catalog, s.active[k]))
    && (forall a :: a in s.attempts ==> s.attempts[a].topicId in s.catalog.topics && s.attempts[a].totalQuestions > 0)
    && (forall j :: 0 <= j < |s.answers| ==>
          s.answers[j].attemptId in s.attempts && s.answers[j].questionId in s.catalog.questions)
  }

  // ---------------------------------------------------------------------------
  // Generation
  // ---------------------------------------------------------------------------

  /** The questions of one topic at one difficulty (`findByTopicIdAndDifficultyLevel`). */
  function Matching(db: Db, topicId: int, d: Difficulty): set<int> {
    set id | id in db.questions && db.questions[id].topicId == topicId && db.questions[id].difficulty == d
  }

  /** Everything `generateQuiz` gathers before shuffling: the matching questions of each
      requested topic in turn, so a topic listed twice contributes its questions twice. */
  function Pool(db: Db, topicIds: seq<int>, d: Difficulty): (r: multiset<int>)
    ensures forall id :: id in r ==>
              id in db.questions && db.questions[id].topicId in topicIds && db.questions[id].difficulty == d
    decreases |topicIds|
  {
    if |topicIds| == 0 then multiset{}
    else multiset(Matching(db, topicIds[0], d)) + Pool(db, topicIds[1..], d)
  }

  /** The pool holds exactly the stored questions of a requested topic at the requested difficulty. */
  lemma {:induction false} PoolMembers(db: Db, topicIds: seq<int>, d: Difficulty, id: int)
    ensures id in Pool(db, topicIds, d) <==>
              id in db.questions && db.questions[id].topicId in topicIds && db.questions[id].difficulty == d
    decreases |topicIds|
  {
    if |topicIds| > 0 {
      PoolMembers(db, topicIds[1..], d, id);
      assert topicIds == [topicIds[0]] + topicIds[1..];
    }
  }

  /** The name of a question's topic. */
  function TopicName(db: Db, q: Question): string
    requires q.topicId in db.topics
  {
    db.topics[q.topicId].name
  }

  /** `convertToQuizQuestionDto`: the question as the player receives it. */
  function ToQuizQuestionDto(db: Db, q: Question): (r: QuizQuestionDto)
    requires q.topicId in db.topics
    ensures r.questionId == q.id && r.questionText == q.text && r.topicName == db.topics[q.topicId].name
    ensures |r.options| == |q.options|
    ensures forall i :: 0 <= i < |q.options| ==>
              r.options[i].optionId == q.options[i].id && r.options[i].optionText == q.options[i].text
  {
    QuizQuestionDto(q.id, q.text, TopicName(db, q),
      seq(|q.options|, i requires 0 <= i < |q.options| => QuizOptionDto(q.options[i].id, q.options[i].text)))
  }

  /** The player cannot tell which option is correct: two questions that differ only in
      their correctness flags are sent identically. */
  lemma DtoHidesCorrectness(db: Db, q: Question, flags: seq<bool>)
    requires q.topicId in db.topics && |flags| == |q.options|
    ensures var relabelled := q.(options := seq(|q.options|, i requires 0 <= i < |q.options| => q.options[i].(isCorrect := flags[i])));
            ToQuizQuestionDto(db, relabelled) == ToQuizQuestionDto(db, q)
  {
  }

  /** The identities that occur in `s`, each once, in order of first occurrence. */
  function Dedup(s: seq<int>): (r: seq<int>)
    ensures forall x :: x in r <==> x in s
    ensures forall i, j :: 0 <= i < j < |r| ==> r[i] != r[j]
    decreases |s|
  {
    if |s| == 0 then []
    else
      var front := s[..|s| - 1];
      var r := Dedup(front);
      assert s == front + [s[|s| - 1]];
      if s[|s| - 1] in r then r else r + [s[|s| - 1]]
  }

  /** The stored topics among `ids`, in order. */
  function StoredTopics(db: Db, ids: seq<int>): (r: seq<int>)
    ensures forall x :: x in r <==> x in ids && x in db.topics
    decreases |ids|
  {
    if |ids| == 0 then []
    else (if ids[0] in db.topics then [ids[0]] else []) + StoredTopics(db, ids[1..])
  }

  /** The names of the distinct stored topics among `ids`. */
  function TopicNamesOf(db: Db, ids: seq<int>): (r: seq<string>)
    ensures forall t :: t in ids && t in db.topics ==> db.topics[t].name in r
    ensures forall j :: 0 <= j < |r| ==> exists t :: t in ids && t in db.topics && db.topics[t].name == r[j]
  {
    var keep := Dedup(StoredTopics(db, ids));
    var r := seq(|keep|, i requires 0 <= i < |keep| => db.topics[keep[i]].name);
    forall t | t in ids && t in db.topics
      ensures db.topics[t].name in r
    {
      var i :| 0 <= i < |keep| && keep[i] == t;
      assert r[i] == db.topics[t].name;
    }
    forall j | 0 <= j < |r|
      ensures exists t :: t in ids && t in db.topics && db.topics[t].name == r[j]
    {
      assert keep[j] in keep;
      assert keep[j] in ids && keep[j] in db.topics && db.topics[keep[j]].name == r[j];
    }
    r
  }

  function Min(a: int, b: int): int {
    if a <= b then a else b
  }

  /** Every question of a list is stored and its topic too. */
  predicate Playable(db: Db, qids: seq<int>) {
    forall i :: 0 <= i < |qids| ==> qids[i] in db.questions && db.questions[qids[i]].topicId in db.topics
  }

  /** The player's view of each listed question, in order. */
  function QuestionDtos(db: Db, qids: seq<int>): (r: seq<QuizQuestionDto>)
    requires Playable(db, qids)
    ensures |r| == |qids|
    ensures forall i :: 0 <= i < |qids| ==> r[i] == ToQuizQuestionDto(db, db.questions[qids[i]])
  {
    seq(|qids|, i requires 0 <= i < |qids| => ToQuizQuestionDto(db, db.questions[qids[i]]))
  }

  /** A list drawn from the pool is playable when every stored question has a stored topic. */
  lemma DrawnIsPlayable(db: Db, topicIds: seq<int>, d: Difficulty, drawn: seq<int>)
    requires forall id :: id in db.questions ==> db.questions[id].topicId in db.topics
    requires multiset(drawn) <= Pool(db, topicIds, d)
    ensures Playable(db, drawn)
  {
    forall i | 0 <= i < |drawn|
      ensures drawn[i] in db.questions && db.questions[drawn[i]].topicId in db.topics
    {
      var id := drawn[i];
      assert id in multiset(drawn);
      assert id in Pool(db, topicIds, d);
      assert id in db.questions;
      assert db.questions[id].topicId in db.topics;
    }
  }

  /** A prefix of a list takes no element more often than the list holds it. */
  lemma PrefixWithin(xs: seq<int>, n: nat)
    requires n <= |xs|
    ensures multiset(xs[..n]) <= multiset(xs)
  {
    assert xs == xs[..n] + xs[n..];
    assert multiset(xs) == multiset(xs[..n]) + multiset(xs[n..]);
  }

  /** `generateQuiz`: pools the matching questions, fails when there are none, and
      otherwise stores the first `min(requested, pool size)` of the shuffled pool as a
      new active quiz and returns them without their correctness flags. */
  function GenerateQuiz(s: QuizDb, req: GenerationRequest, shuffled: seq<int>, quizId: string): (r: Result<(QuizDb, QuizResponse)>)
    requires Linked(s.catalog) && ValidGenerationRequest(req)
    requires multiset(shuffled) == Pool(s.catalog, req.topicIds, req.difficulty)
    requires quizId !in s.active
    ensures r.Err? <==> |Pool(s.catalog, req.topicIds, req.difficulty)| == 0
    ensures r.Err? ==> r.error == "No questions found for selected topics and difficulty level"
    ensures r.Ok? ==> var (s', resp) := r.value;
              && s'.catalog == s.catalog && s'.attempts == s.attempts && s'.answers == s.answers && s'.users == s.users
              && quizId in s'.active && s'.active == s.active[quizId := s'.active[quizId]]
              && var drawn := s'.active[quizId];
              && |drawn| == Min(req.numberOfQuestions, |Pool(s.catalog, req.topicIds, req.difficulty)|)
              && multiset(drawn) <= Pool(s.catalog, req.topicIds, req.difficulty)
              && resp.quizId == quizId && resp.difficultyLevel == req.difficulty.Name()
              && resp.totalQuestions == |resp.questions| == |drawn|
              && (forall t :: t in req.topicIds && t in s.catalog.topics ==> s.catalog.topics[t].name in resp.topicNames)
              && (forall j :: 0 <= j < |resp.topicNames| ==>
                    exists t :: t in req.topicIds && t in s.catalog.topics && s.catalog.topics[t].name == resp.topicNames[j])
  {
    assert |multiset(shuffled)| == |shuffled|;
    if |shuffled| == 0 then
      Err("No questions found for selected topics and difficulty level")
    else
      var n := Min(req.numberOfQuestions, |shuffled|);
      var drawn := shuffled[..n];
      PrefixWithin(shuffled, n);
      DrawnIsPlayable(s.catalog, req.topicIds, req.difficulty, drawn);
      var dtos := QuestionDtos(s.catalog, drawn);
      var resp := QuizResponse(quizId, dtos, |dtos|, TopicNamesOf(s.catalog, req.topicIds), req.difficulty.Name());
      Ok((s.(active := s.active[quizId := drawn]), resp))
  }

  /** Every drawn question is a stored question of a requested topic at the requested
      difficulty, and the player receives them in the drawn order, as `QuizQuestionDto`s. */
  lemma GeneratedQuestionsMatchRequest(s: QuizDb, req: GenerationRequest, shuffled: seq<int>, quizId: string)
    requires Linked(s.catalog) && ValidGenerationRequest(req)
    requires multiset(shuffled) == Pool(s.catalog, req.topicIds, req.difficulty)
    requires quizId !in s.active
    requires GenerateQuiz(s, req, shuffled, quizId).Ok?
    ensures var (s', resp) := GenerateQuiz(s, req, shuffled, quizId).value;
            var drawn := s'.active[quizId];
            && 0 < |drawn| <= req.numberOfQuestions
            && Playable(s.catalog, drawn)
            && resp.questions == QuestionDtos(s.catalog, drawn)
            && forall i :: 0 <= i < |drawn| ==>
                 && drawn[i] in s.catalog.questions
                 && s.catalog.questions[drawn[i]].difficulty == req.difficulty
                 && s.catalog.questions[drawn[i]].topicId in req.topicIds
                 && resp.questions[i].questionId == drawn[i]
  {
    var (s', resp) := GenerateQuiz(s, req, shuffled, quizId).value;
    var drawn := s'.active[quizId];
    DrawnIsPlayable(s.catalog, req.topicIds, req.difficulty, drawn);
    assert resp.questions == QuestionDtos(s.catalog, drawn);
    forall i | 0 <= i < |drawn|
      ensures && drawn[i] in s.catalog.questions
              && s.catalog.questions[drawn[i]].difficulty == req.difficulty
              && s.catalog.questions[drawn[i]].topicId in req.topicIds
              && resp.questions[i].questionId == drawn[i]
    {
      var id := drawn[i];
      assert id in multiset(drawn);
      assert id in Pool(s.catalog, req.topicIds, req.difficulty);
      assert resp.questions[i] == ToQuizQuestionDto(s.catalog, s.catalog.questions[id]);
    }
  }

  /** Generation keeps the quiz tables consistent. */
  lemma GenerateKeepsConsistent(s: QuizDb, req: GenerationRequest, shuffled: seq<int>, quizId: string)
    requires Consistent(s) && ValidGenerationRequest(req)
    requires multiset(shuffled) == Pool(s.catalog, req.topicIds, req.difficulty)
    requires quizId !in s.active
    ensures GenerateQuiz(s, req, shuffled, quizId).Ok? ==> Consistent(GenerateQuiz(s, req, shuffled, quizId).value.0)
  {
    var r := GenerateQuiz(s, req, shuffled, quizId);
    if r.Ok? {
      var s' := r.value.0;
      DrawnIsPlayable(s.catalog, req.topicIds, req.difficulty, s'.active[quizId]);
      forall k | k in s'.active
        ensures Playable(s'.catalog, s'.active[k])
      {
        if k != quizId {
          assert k in s.active;
        }
      }
    }
  }

  // ---------------------------------------------------------------------------
  // Submission
  // ---------------------------------------------------------------------------

  /** Both identities of the answer are present. */
  predicate Complete(a: UserAnswerDto) {
    a.questionId.Some? && a.selectedOptionId.Some?
  }

  predicate AllComplete(answers: seq<UserAnswerDto>) {
    forall i :: 0 <= i < |answers| ==> Complete(answers[i])
  }

  /** No two answers name the same question. */
  predicate DistinctQuestionIds(answers: seq<UserAnswerDto>) {
    forall i, j :: 0 <= i < j < |answers| ==> answers[i].questionId != answers[j].questionId
  }

  /** The message of the `IllegalStateException` thrown by `Collectors.toMap` on a repeated key. */
  function DuplicateKeyMessage(key: int, kept: int, incoming: int): string {
    "Duplicate key " + Text.IntToString(key) + " (attempted merging values "
      + Text.IntToString(kept) + " and " + Text.IntToString(incoming) + ")"
  }

  /** `Collectors.toMap(questionId, selectedOptionId)` over the answers in order,
      starting from `acc`: fails on the first question identity seen twice. */
  function AnswerMap(answers: seq<UserAnswerDto>, acc: map<int, int>): (r: Result<map<int, int>>)
    requires AllComplete(answers)
    ensures r.Ok? <==> DistinctQuestionIds(answers) && forall i :: 0 <= i < |answers| ==> answers[i].questionId.value !in acc
    ensures r.Ok? ==> r.value.Keys == acc.Keys + set i | 0 <= i < |answers| :: answers[i].questionId.value
    ensures r.Ok? ==> forall i :: 0 <= i < |answers| ==> r.value[answers[i].questionId.value] == answers[i].selectedOptionId.value
    ensures r.Ok? ==> forall k :: k in acc ==> r.value[k] == acc[k]
    decreases |answers|
  {
    if |answers| == 0 then Ok(acc)
    else
      var key := answers[0].questionId.value;
      var value := answers[0].selectedOptionId.value;
      if key in acc then Err(DuplicateKeyMessage(key, acc[key], value))
      else
        var r := AnswerMap(answers[1..], acc[key := value]);
        assert forall i :: 1 <= i < |answers| ==> answers[1..][i - 1] == answers[i];
        assert r.Ok? ==> ((set i | 0 <= i < |answers| :: answers[i].questionId.value)
                          == {key} + set i | 0 <= i < |answers[1..]| :: answers[1..][i].questionId.value);
        r
  }

  /** Position `j` is where `Collectors.toMap` over the answers, started from `acc`,
      first meets a key it already holds, and `msg` is the exception's message: no key
      before `j` was in `acc` or repeated, and the key at `j` clashes either with `acc`
      or with an earlier answer, whose value is reported as the kept one. */
  predicate ClashAt(answers: seq<UserAnswerDto>, acc: map<int, int>, j: int, msg: string)
    requires AllComplete(answers)
  {
    && 0 <= j < |answers|
    && (forall k :: 0 <= k < j ==> answers[k].questionId.value !in acc)
    && (forall a, b :: 0 <= a < b < j ==> answers[a].questionId != answers[b].questionId)
    && var key := answers[j].questionId.value;
    && var incoming := answers[j].selectedOptionId.value;
    || (key in acc && msg == DuplicateKeyMessage(key, acc[key], incoming))
    || (exists i :: 0 <= i < j && answers[i].questionId.value == key
                   && msg == DuplicateKeyMessage(key, answers[i].selectedOptionId.value, incoming))
  }

  /** A failed `toMap` reports the first clash, naming the key and both values. */
  lemma {:induction false} AnswerMapClash(answers: seq<UserAnswerDto>, acc: map<int, int>)
    requires AllComplete(answers)
    ensures AnswerMap(answers, acc).Err? ==> exists j :: ClashAt(answers, acc, j, AnswerMap(answers, acc).error)
    decreases |answers|
  {
    var r := AnswerMap(answers, acc);
    if |answers| > 0 && r.Err? {
      var key := answers[0].questionId.value;
      if key in acc {
        assert ClashAt(answers, acc, 0, r.error);
      } else {
        var acc' := acc[key := answers[0].selectedOptionId.value];
        assert r == AnswerMap(answers[1..], acc');
        AnswerMapClash(answers[1..], acc');
        var j' :| ClashAt(answers[1..], acc', j', r.error);
        ClashShift(answers, acc, j', r.error);
      }
    }
  }

  /** A clash of the answers after the first, counted from `acc` extended by the first
      answer, is a clash of all the answers one position later. */
  lemma ClashShift(answers: seq<UserAnswerDto>, acc: map<int, int>, j': int, msg: string)
    requires AllComplete(answers) && 0 < |answers| && answers[0].questionId.value !in acc
    requires ClashAt(answers[1..], acc[answers[0].questionId.value := answers[0].selectedOptionId.value], j', msg)
    ensures ClashAt(answers, acc, j' + 1, msg)
  {
    var rest := answers[1..];
    var key := answers[0].questionId.value;
    var acc' := acc[key := answers[0].selectedOptionId.value];
    var j := j' + 1;
    assert forall k :: 1 <= k < |answers| ==> answers[k] == rest[k - 1];
    var key' := rest[j'].questionId.value;
    var incoming := rest[j'].selectedOptionId.value;
    if key' in acc' && msg == DuplicateKeyMessage(key', acc'[key'], incoming) {
      if key' == key {
        assert answers[0].questionId.value == answers[j].questionId.value;
      } else {
        assert key' in acc && acc'[key'] == acc[key'];
      }
    } else {
      var i' :| 0 <= i' < j' && rest[i'].questionId.value == key'
                && msg == DuplicateKeyMessage(key', rest[i'].selectedOptionId.value, incoming);
      assert answers[i' + 1] == rest[i'];
    }
  }

  /** The answer counts as right when the question has a correct option and it is the
      one picked (`correctOption != null && correctOption.getId().equals(selected)`). */
  predicate IsRightAnswer(q: Question, selected: Option<int>) {
    FirstCorrect(q.options).Some? && selected == Some(FirstCorrect(q.options).value.id)
  }

  /** The option picked for a question, if the submission answered it (`userAnswerMap.get`). */
  function Pick(q: Question, m: map<int, int>): (r: Option<int>)
    ensures r.Some? <==> q.id in m
    ensures r.Some? ==> r.value == m[q.id]
  {
    if q.id in m then Some(m[q.id]) else None
  }

  /** The reference score: how many questions of the quiz were answered with their first
      correct option. */
  function RightPicks(db: Db, qids: seq<int>, m: map<int, int>): nat
    requires Playable(db, qids)
    decreases |qids|
  {
    if |qids| == 0 then 0
    else
      var q := db.questions[qids[0]];
      (if IsRightAnswer(q, Pick(q, m)) then 1 else 0) + RightPicks(db, qids[1..], m)
  }

  /** The review of each option: its identity, text and flag, and whether it is the picked one. */
  function OptionReviews(opts: seq<AnswerOption>, selected: Option<int>): (r: seq<OptionReviewDto>)
    ensures |r| == |opts|
    ensures forall i :: 0 <= i < |opts| ==>
              r[i].optionId == opts[i].id && r[i].optionText == opts[i].text && r[i].isCorrect == opts[i].isCorrect
    ensures forall i :: 0 <= i < |opts| ==> (r[i].wasSelected <==> selected == Some(opts[i].id))
  {
    seq(|opts|, i requires 0 <= i < |opts| =>
      OptionReviewDto(opts[i].id, opts[i].text, opts[i].isCorrect, selected == Some(opts[i].id)))
  }

  /** With distinct option identities, at most one option is marked as the picked one. */
  lemma AtMostOneSelected(opts: seq<AnswerOption>, selected: Option<int>)
    requires DistinctOptionIds(opts)
    ensures forall i, j ::
              (0 <= i < |opts| && 0 <= j < |opts| &&
               OptionReviews(opts, selected)[i].wasSelected && OptionReviews(opts, selected)[j].wasSelected) ==> i == j
  {
  }

  /** `createQuestionReviewDto`. */
  function QuestionReview(db: Db, q: Question, selected: Option<int>, correctId: Option<int>, isCorrect: bool): (r: QuestionReviewDto)
    requires q.topicId in db.topics
    ensures r.questionId == q.id && r.selectedOptionId == selected && r.correctOptionId == correctId && r.isCorrect == isCorrect
    ensures r.questionText == q.text && r.topicName == db.topics[q.topicId].name
    ensures r.options == OptionReviews(q.options, selected)
  {
    QuestionReviewDto(q.id, q.text, TopicName(db, q), selected, correctId, isCorrect, OptionReviews(q.options, selected))
  }

  /** The identities of the listed questions that received an answer, in quiz order. */
  function Answered(db: Db, qids: seq<int>, m: map<int, int>): (r: seq<int>)
    requires Playable(db, qids)
    ensures |r| <= |qids| && Playable(db, r)
    ensures forall j :: 0 <= j < |r| ==> r[j] in qids && db.questions[r[j]].id in m
    decreases |qids|
  {
    if |qids| == 0 then []
    else
      assert forall i :: 1 <= i < |qids| ==> qids[1..][i - 1] == qids[i];
      (if db.questions[qids[0]].id in m then [qids[0]] else []) + Answered(db, qids[1..], m)
  }

  /** The question was answered but has no option flagged correct. */
  predicate Unscorable(q: Question, m: map<int, int>) {
    q.id in m && FirstCorrect(q.options).None?
  }

  /** `review` is the review of the answered question `qid`: it names the question,
      carries the picked option and the first correct option and whether they
      coincide, and marks as picked exactly the option with the picked identity. */
  predicate ReviewsAnswer(db: Db, qid: int, m: map<int, int>, review: QuestionReviewDto)
    requires qid in db.questions
  {
    var q := db.questions[qid];
    && q.id in m
    && review.questionId == q.id
    && review.selectedOptionId == Some(m[q.id])
    && FirstCorrect(q.options).Some?
    && review.correctOptionId == Some(FirstCorrect(q.options).value.id)
    && (review.isCorrect <==> IsRightAnswer(q, Some(m[q.id])))
    && review.options == OptionReviews(q.options, Some(m[q.id]))
  }

  /** One turn of the scoring loop of `submitQuiz` for the question `qid`: nothing for
      an unanswered question, a failure for an answered question without a correct
      option, otherwise whether the pick is the correct option, and the review. */
  function ScoreOne(db: Db, qid: int, m: map<int, int>): (r: Result<Option<(bool, QuestionReviewDto)>>)
    requires qid in db.questions && db.questions[qid].topicId in db.topics
    ensures r.Err? <==> Unscorable(db.questions[qid], m)
    ensures r.Err? ==> r.error == "No correct option found for question " + Text.IntToString(db.questions[qid].id)
    ensures r.Ok? ==> (r.value.Some? <==> db.questions[qid].id in m)
    ensures r.Ok? && r.value.Some? ==>
              ReviewsAnswer(db, qid, m, r.value.value.1) && (r.value.value.0 <==> r.value.value.1.isCorrect)
  {
    var q := db.questions[qid];
    if q.id !in m then Ok(None)
    else match FirstCorrect(q.options)
      case None => Err("No correct option found for question " + Text.IntToString(q.id))
      case Some(c) =>
        var right := c.id == m[q.id];
        Ok(Some((right, QuestionReview(db, q, Some(m[q.id]), Some(c.id), right))))
  }

  /** The scoring loop of `submitQuiz`: unanswered questions are skipped; an answered
      question without a correct option aborts the whole submission; otherwise it is
      scored and reviewed. Returns the number right and the reviews. */
  function Evaluate(db: Db, qids: seq<int>, m: map<int, int>): (r: Result<(nat, seq<QuestionReviewDto>)>)
    requires Playable(db, qids)
    ensures r.Ok? ==> r.value.0 == RightPicks(db, qids, m)
    ensures r.Ok? ==> r.value.0 <= |r.value.1| == |Answered(db, qids, m)|
    decreases |qids|
  {
    if |qids| == 0 then Ok((0, []))
    else
      assert forall i :: 1 <= i < |qids| ==> qids[1..][i - 1] == qids[i];
      Step(ScoreOne(db, qids[0], m), Evaluate(db, qids[1..], m))
  }

  /** Adds the outcome of one question in front of the outcome of the questions after
      it: the first failure wins; a skipped question adds nothing; a scored one adds its
      point and its review. */
  function Step(head: Result<Option<(bool, QuestionReviewDto)>>, rest: Result<(nat, seq<QuestionReviewDto>)>): (r: Result<(nat, seq<QuestionReviewDto>)>)
    ensures r.Err? <==> head.Err? || rest.Err?
    ensures head.Err? ==> r == Err(head.error)
    ensures r.Ok? && head.value.None? ==> r.value == rest.value
    ensures r.Ok? && head.value.Some? ==>
              && r.value.0 == (if head.value.value.0 then 1 else 0) + rest.value.0
              && r.value.1 == [head.value.value.1] + rest.value.1
  {
    var h :- head;
    var tail :- rest;
    match h
    case None => Ok(tail)
    case Some((right, review)) => Ok(((if right then 1 else 0) + tail.0, [review] + tail.1))
  }

  /** Scoring aborts exactly when some answered question of the quiz has no correct
      option, and the message names the first such question. */
  lemma {:induction false} EvaluateFailsIff(db: Db, qids: seq<int>, m: map<int, int>)
    requires Playable(db, qids)
    ensures Evaluate(db, qids, m).Err? <==> exists i :: 0 <= i < |qids| && Unscorable(db.questions[qids[i]], m)
    ensures Evaluate(db, qids, m).Err? ==>
              exists i :: 0 <= i < |qids| && Unscorable(db.questions[qids[i]], m)
                && (forall j :: 0 <= j < i ==> !Unscorable(db.questions[qids[j]], m))
                && Evaluate(db, qids, m).error == "No correct option found for question " + Text.IntToString(db.questions[qids[i]].id)
    decreases |qids|
  {
    if |qids| > 0 {
      assert forall i :: 1 <= i < |qids| ==> qids[1..][i - 1] == qids[i];
      EvaluateFailsIff(db, qids[1..], m);
      var q := db.questions[qids[0]];
      assert Evaluate(db, qids, m) == Step(ScoreOne(db, qids[0], m), Evaluate(db, qids[1..], m));
      if Unscorable(q, m) {
        assert Evaluate(db, qids, m).Err?;
      } else {
        if Evaluate(db, qids, m).Err? {
          var k :| 0 <= k < |qids[1..]| && Unscorable(db.questions[qids[1..][k]], m)
                   && (forall j :: 0 <= j < k ==> !Unscorable(db.questions[qids[1..][j]], m))
                   && Evaluate(db, qids[1..], m).error == "No correct option found for question " + Text.IntToString(db.questions[qids[1..][k]].id);
          assert Unscorable(db.questions[qids[k + 1]], m);
          assert forall j :: 0 <= j < k + 1 ==> !Unscorable(db.questions[qids[j]], m);
        }
      }
    }
  }

  /** Each review is the review of the answered question at the same position. */
  predicate ReviewsAll(db: Db, m: map<int, int>, answered: seq<int>, reviews: seq<QuestionReviewDto>)
    requires Playable(db, answered)
  {
    |answered| == |reviews| && forall i :: 0 <= i < |reviews| ==> ReviewsAnswer(db, answered[i], m, reviews[i])
  }

  /** Putting one more reviewed question in front keeps the reviews aligned. */
  lemma ReviewsAllCons(db: Db, m: map<int, int>, qid: int, review: QuestionReviewDto,
                       answered: seq<int>, reviews: seq<QuestionReviewDto>)
    requires qid in db.questions && db.questions[qid].topicId in db.topics && Playable(db, answered)
    requires ReviewsAnswer(db, qid, m, review) && ReviewsAll(db, m, answered, reviews)
    ensures Playable(db, [qid] + answered) && ReviewsAll(db, m, [qid] + answered, [review] + reviews)
  {
    var answered', reviews' := [qid] + answered, [review] + reviews;
    forall i | 0 <= i < |answered'|
      ensures answered'[i] in db.questions && db.questions[answered'[i]].topicId in db.topics
    {
      if i > 0 {
        assert answered'[i] == answered[i - 1];
      }
    }
    forall i | 0 <= i < |reviews'|
      ensures ReviewsAnswer(db, answered'[i], m, reviews'[i])
    {
      if i > 0 {
        assert answered'[i] == answered[i - 1] && reviews'[i] == reviews[i - 1];
      }
    }
  }

  /** The reviews follow the quiz order of the answered questions, one per answered question. */
  lemma {:induction false} EvaluateReviews(db: Db, qids: seq<int>, m: map<int, int>)
    requires Playable(db, qids) && Evaluate(db, qids, m).Ok?
    ensures ReviewsAll(db, m, Answered(db, qids, m), Evaluate(db, qids, m).value.1)
    decreases |qids|
  {
    if |qids| > 0 {
      assert forall i :: 1 <= i < |qids| ==> qids[1..][i - 1] == qids[i];
      var head := ScoreOne(db, qids[0], m);
      assert Evaluate(db, qids, m) == Step(head, Evaluate(db, qids[1..], m));
      EvaluateReviews(db, qids[1..], m);
      var rest := Evaluate(db, qids[1..], m).value.1;
      var restAnswered := Answered(db, qids[1..], m);
      if head.value.Some? {
        assert Answered(db, qids, m) == [qids[0]] + restAnswered;
        ReviewsAllCons(db, m, qids[0], head.value.value.1, restAnswered, rest);
      } else {
        assert Answered(db, qids, m) == restAnswered;
      }
    }
  }

  /** Some stored question has an option with this identity (`optionRepository.findById`). */
  predicate OptionExists(db: Db, optionId: int) {
    exists qid :: qid in db.questions && optionId in OptionIds(db.questions[qid].options)
  }

  /** The answer rows `submitQuiz` saves: one per quiz question, in quiz order, answered
      or not; the picked option is kept only when such an option exists. */
  function StoredAnswers(db: Db, qids: seq<int>, m: map<int, int>, attemptId: int): (r: seq<UserAnswer>)
    requires Playable(db, qids)
    ensures |r| == |qids|
    ensures forall i :: 0 <= i < |qids| ==> r[i].attemptId == attemptId && r[i].questionId == db.questions[qids[i]].id
    ensures forall i :: 0 <= i < |qids| ==>
              var q := db.questions[qids[i]];
              && r[i].isCorrect == IsRightAnswer(q, Pick(q, m))
              && r[i].selectedOptionId == (if q.id in m && OptionExists(db, m[q.id]) then Some(m[q.id]) else None)
    decreases |qids|
  {
    if |qids| == 0 then []
    else
      var q := db.questions[qids[0]];
      var picked := Pick(q, m);
      var stored := if picked.Some? && OptionExists(db, picked.value) then picked else None;
      assert forall i :: 1 <= i < |qids| ==> qids[1..][i - 1] == qids[i];
      [UserAnswer(attemptId, q.id, stored, IsRightAnswer(q, picked))] + StoredAnswers(db, qids[1..], m, attemptId)
  }

  /** `(double) correct * 100 / total`, as an exact fraction. */
  function Percentage(correct: int, total: int): (p: real)
    requires total > 0
    ensures 0 <= correct <= total ==> 0.0 <= p <= 100.0
    ensures correct == 0 ==> p == 0.0
    ensures correct == total ==> p == 100.0
  {
    correct as real * 100.0 / total as real
  }

  /** The topic identities of the listed questions, in order. */
  function QuestionTopics(db: Db, qids: seq<int>): (r: seq<int>)
    requires Playable(db, qids)
    ensures |r| == |qids| && forall i :: 0 <= i < |qids| ==> r[i] == db.questions[qids[i]].topicId
  {
    seq(|qids|, i requires 0 <= i < |qids| => db.questions[qids[i]].topicId)
  }

  /** The checks `submitQuiz` makes before scoring, in the source's order; on success,
      the quiz's question list and the map from question to picked option. */
  function Admit(s: QuizDb, req: QuizSubmissionRequest, email: string): (r: Result<(seq<int>, map<int, int>)>)
    ensures req.answers.None? || |req.answers.value| == 0 ==> r == Err("No answers provided in the request")
    ensures req.answers.Some? && |req.answers.value| > 0 && !AllComplete(req.answers.value) ==>
              r == Err("Some answers have missing questionId or selectedOptionId")
    ensures req.answers.Some? && |req.answers.value| > 0 && AllComplete(req.answers.value) && req.quizId !in s.active ==>
              r == Err("Quiz not found or expired")
    ensures req.answers.Some? && |req.answers.value| > 0 && AllComplete(req.answers.value) && req.quizId in s.active
            && |s.active[req.quizId]| == 0 ==>
              r == Err("No questions found for this quiz ID")
    ensures req.answers.Some? && |req.answers.value| > 0 && AllComplete(req.answers.value) && req.quizId in s.active
            && |s.active[req.quizId]| > 0 && email !in s.users ==>
              r == Err("User not found for email: " + email)
    ensures req.answers.Some? && |req.answers.value| > 0 && AllComplete(req.answers.value) && req.quizId in s.active
            && |s.active[req.quizId]| > 0 && email in s.users && !DistinctQuestionIds(req.answers.value) ==>
              r.Err? && exists j :: ClashAt(req.answers.value, map[], j, r.error)
    ensures r.Ok? <==> && req.answers.Some? && |req.answers.value| > 0 && AllComplete(req.answers.value)
                       && req.quizId in s.active && |s.active[req.quizId]| > 0 && email in s.users
                       && DistinctQuestionIds(req.answers.value)
    ensures r.Ok? ==> && r.value.0 == s.active[req.quizId]
                      && forall i :: 0 <= i < |req.answers.value| ==>
                           req.answers.value[i].questionId.value in r.value.1
                           && r.value.1[req.answers.value[i].questionId.value] == req.answers.value[i].selectedOptionId.value
  {
    if req.answers.None? || |req.answers.value| == 0 then Err("No answers provided in the request")
    else if !AllComplete(req.answers.value) then Err("Some answers have missing questionId or selectedOptionId")
    else if req.quizId !in s.active then Err("Quiz not found or expired")
    else
      var qids := s.active[req.quizId];
      if |qids| == 0 then Err("No questions found for this quiz ID")
      else if email !in s.users then Err("User not found for email: " + email)
      else
        AnswerMapClash(req.answers.value, map[]);
        var m :- AnswerMap(req.answers.value, map[]);
        Ok((qids, m))
  }

  /** The names of the quiz questions' topics, each topic once (`Collectors.toSet()` over
      the topics, then their names): exactly the names of the topics some question is on. */
  lemma {:induction false} NamesOfQuestionTopics(db: Db, qids: seq<int>)
    requires Playable(db, qids)
    ensures forall n :: n in TopicNamesOf(db, QuestionTopics(db, qids)) <==>
              exists i :: 0 <= i < |qids| && n == db.topics[db.questions[qids[i]].topicId].name
  {
    var ts := QuestionTopics(db, qids);
    var names := TopicNamesOf(db, ts);
    forall n | n in names
      ensures exists i :: 0 <= i < |qids| && n == db.topics[db.questions[qids[i]].topicId].name
    {
      var j :| 0 <= j < |names| && names[j] == n;
      var t :| t in ts && t in db.topics && db.topics[t].name == names[j];
      var i :| 0 <= i < |ts| && ts[i] == t;
      assert n == db.topics[db.questions[qids[i]].topicId].name;
    }
    forall n | exists i :: 0 <= i < |qids| && n == db.topics[db.questions[qids[i]].topicId].name
      ensures n in names
    {
      var i :| 0 <= i < |qids| && n == db.topics[db.questions[qids[i]].topicId].name;
      assert ts[i] in ts;
    }
  }

  /** The writes and the response of a submission that passed its checks and was scored. */
  function Record(s: QuizDb, quizId: string, email: string, qids: seq<int>, m: map<int, int>,
                  scored: (nat, seq<QuestionReviewDto>), attemptId: int, mailDelivered: bool): (r: (QuizDb, QuizResultResponse))
    requires Playable(s.catalog, qids) && |qids| > 0 && email in s.users
    ensures var (s', resp) := r;
            && s'.active == s.active - {quizId} && s'.catalog == s.catalog && s'.users == s.users
            && s'.attempts == s.attempts[attemptId := Attempt(email, s.catalog.questions[qids[0]].topicId,
                                                              s.catalog.questions[qids[0]].difficulty, scored.0, |qids|)]
            && s'.answers == s.answers + StoredAnswers(s.catalog, qids, m, attemptId)
            && resp.attemptId == attemptId && resp.totalQuestions == |qids|
            && resp.score == resp.correctAnswers == scored.0
            && resp.wrongAnswers == |qids| - scored.0
            && resp.percentage == Percentage(scored.0, |qids|)
            && resp.difficultyLevel == s.catalog.questions[qids[0]].difficulty.Name()
            && (forall n :: n in resp.topicNames <==>
                  exists i :: 0 <= i < |qids| && n == s.catalog.topics[s.catalog.questions[qids[i]].topicId].name)
            && resp.questionReviews == scored.1
            && (resp.emailSent <==> s.users[email] == Some(true) && mailDelivered)
  {
    NamesOfQuestionTopics(s.catalog, qids);
    var correct := scored.0;
    var total := |qids|;
    var first := s.catalog.questions[qids[0]];
    var attempt := Attempt(email, first.topicId, first.difficulty, correct, total);
    var s' := s.(active := s.active - {quizId},
                 attempts := s.attempts[attemptId := attempt],
                 answers := s.answers + StoredAnswers(s.catalog, qids, m, attemptId));
    var resp := QuizResultResponse(attemptId, correct, total, correct, total - correct, Percentage(correct, total),
                                   TopicNamesOf(s.catalog, QuestionTopics(s.catalog, qids)),
                                   first.difficulty.Name(), scored.1,
                                   s.users[email] == Some(true) && mailDelivered);
    (s', resp)
  }

  /** `submitQuiz` for the signed-in `email`. The request checks run in the source's
      order and nothing is stored unless all of them pass; on success the attempt and
      one answer row per question are stored, the active quiz is deleted, and the
      result mail counts as sent only for a verified user whose mail went out. */
  function SubmitQuiz(s: QuizDb, req: QuizSubmissionRequest, email: string, attemptId: int, mailDelivered: bool)
    : (r: Result<(QuizDb, QuizResultResponse)>)
    requires Consistent(s)
    ensures Admit(s, req, email).Err? ==> r == Err(Admit(s, req, email).error)
    ensures r.Ok? <==> (Admit(s, req, email).Ok? &&
              var (qids, m) := Admit(s, req, email).value;
              forall i :: 0 <= i < |qids| ==> !Unscorable(s.catalog.questions[qids[i]], m))
    ensures Admit(s, req, email).Ok? && r.Err? ==>
              var (qids, m) := Admit(s, req, email).value;
              exists i :: 0 <= i < |qids| && Unscorable(s.catalog.questions[qids[i]], m)
                && (forall j :: 0 <= j < i ==> !Unscorable(s.catalog.questions[qids[j]], m))
                && r.error == "No correct option found for question " + Text.IntToString(s.catalog.questions[qids[i]].id)
    ensures r.Ok? ==> var (s', resp) := r.value;
              var (qids, m) := Admit(s, req, email).value;
              && qids == s.active[req.quizId]
              && req.quizId !in s'.active
              && s'.catalog == s.catalog && s'.users == s.users
              && s'.answers == s.answers + StoredAnswers(s.catalog, qids, m, attemptId)
              && resp.attemptId == attemptId
              && s'.attempts == s.attempts[attemptId := Attempt(email, s.catalog.questions[qids[0]].topicId,
                                                                s.catalog.questions[qids[0]].difficulty,
                                                                RightPicks(s.catalog, qids, m), |qids|)]
              && resp.difficultyLevel == s.catalog.questions[qids[0]].difficulty.Name()
              && (forall n :: n in resp.topicNames <==>
                    exists i :: 0 <= i < |qids| && n == s.catalog.topics[s.catalog.questions[qids[i]].topicId].name)
              && resp.totalQuestions == |qids|
              && resp.correctAnswers == RightPicks(s.catalog, qids, m)
              && resp.correctAnswers + resp.wrongAnswers == resp.totalQuestions
              && resp.score == resp.correctAnswers
              && resp.percentage == Percentage(resp.correctAnswers, resp.totalQuestions)
              && ReviewsAll(s.catalog, m, Answered(s.catalog, qids, m), resp.questionReviews)
              && (resp.emailSent <==> s.users[email] == Some(true) && mailDelivered)
  {
    var admitted := Admit(s, req, email);
    if admitted.Err? then Err(admitted.error)
    else
      var qids := admitted.value.0;
      var m := admitted.value.1;
      var scored := Evaluate(s.catalog, qids, m);
      EvaluateFailsIff(s.catalog, qids, m);
      if scored.Err? then Err(scored.error)
      else
        EvaluateReviews(s.catalog, qids, m);
        Ok(Record(s, req.quizId, email, qids, m, scored.value, attemptId, mailDelivered))
  }

  /** An active quiz is used once: submitting the same quiz again is refused. */
  lemma ResubmitFails(s: QuizDb, req: QuizSubmissionRequest, email: string, attemptId: int, mailDelivered: bool,
                      email2: string, attemptId2: int, mailDelivered2: bool)
    requires Consistent(s) && attemptId !in s.attempts
    requires SubmitQuiz(s, req, email, attemptId, mailDelivered).Ok?
    ensures var s' := SubmitQuiz(s, req, email, attemptId, mailDelivered).value.0;
            && Consistent(s')
            && SubmitQuiz(s', req, email2, attemptId2, mailDelivered2) == Err("Quiz not found or expired")
  {
    SubmitKeepsConsistent(s, req, email, attemptId, mailDelivered);
  }

  /** A successful submission keeps the quiz tables consistent. */
  lemma SubmitKeepsConsistent(s: QuizDb, req: QuizSubmissionRequest, email: string, attemptId: int, mailDelivered: bool)
    requires Consistent(s) && attemptId !in s.attempts
    ensures SubmitQuiz(s, req, email, attemptId, mailDelivered).Ok? ==>
              Consistent(SubmitQuiz(s, req, email, attemptId, mailDelivered).value.0)
  {
    var r := SubmitQuiz(s, req, email, attemptId, mailDelivered);
    if r.Ok? {
      var (qids, m) := Admit(s, req, email).value;
      var scored := Evaluate(s.catalog, qids, m).value;
      assert r.value == Record(s, req.quizId, email, qids, m, scored, attemptId, mailDelivered);
      RecordKeepsConsistent(s, req.quizId, email, qids, m, scored, attemptId, mailDelivered);
    }
  }

  /** Recording a scored submission keeps the quiz tables consistent. */
  lemma RecordKeepsConsistent(s: QuizDb, quizId: string, email: string, qids: seq<int>, m: map<int, int>,
                              scored: (nat, seq<QuestionReviewDto>), attemptId: int, mailDelivered: bool)
    requires Consistent(s) && attemptId !in s.attempts
    requires Playable(s.catalog, qids) && |qids| > 0 && email in s.users
    ensures Consistent(Record(s, quizId, email, qids, m, scored, attemptId, mailDelivered).0)
  {
    var s' := Record(s, quizId, email, qids, m, scored, attemptId, mailDelivered).0;
    var stored := StoredAnswers(s.catalog, qids, m, attemptId);
    assert s'.answers == s.answers + stored;
    forall j | 0 <= j < |s'.answers|
      ensures s'.answers[j].attemptId in s'.attempts && s'.answers[j].questionId in s'.catalog.questions
    {
      if j < |s.answers| {
        assert s'.answers[j] == s.answers[j];
        assert s.answers[j].attemptId in s.attempts;
      } else {
        var i := j - |s.answers|;
        assert s'.answers[j] == stored[i];
        assert s.catalog.questions[qids[i]].id == qids[i];
      }
    }
    forall k | k in s'.active
      ensures Playable(s'.catalog, s'.active[k])
    {
      assert k in s.active;
    }
  }

  // ---------------------------------------------------------------------------
  // Replaying a stored attempt
  // ---------------------------------------------------------------------------

  /** The stored answer rows of one attempt, in storage order. */
  function AnswersOf(answers: seq<UserAnswer>, attemptId: int): (r: seq<UserAnswer>)
    ensures |r| <= |answers|
    ensures forall j :: 0 <= j < |r| ==> r[j] in answers && r[j].attemptId == attemptId
    decreases |answers|
  {
    if |answers| == 0 then []
    else (if answers[0].attemptId == attemptId then [answers[0]] else []) + AnswersOf(answers[1..], attemptId)
  }

  /** How many stored answer rows are marked right. */
  function RightCount(answers: seq<UserAnswer>): (n: nat)
    ensures n <= |answers|
    decreases |answers|
  {
    if |answers| == 0 then 0
    else (if answers[0].isCorrect then 1 else 0) + RightCount(answers[1..])
  }

  /** The review of one stored answer row. */
  function StoredReview(db: Db, ua: UserAnswer): (r: QuestionReviewDto)
    requires ua.questionId in db.questions && db.questions[ua.questionId].topicId in db.topics
    ensures r.questionId == db.questions[ua.questionId].id && r.selectedOptionId == ua.selectedOptionId
    ensures r.isCorrect == ua.isCorrect
    ensures r.questionText == db.questions[ua.questionId].text
    ensures r.topicName == db.topics[db.questions[ua.questionId].topicId].name
    ensures var opts := db.questions[ua.questionId].options;
            match FirstCorrectIndex(opts)
            case None => r.correctOptionId.None?
            case Some(k) => r.correctOptionId == Some(opts[k].id)
    ensures r.options == OptionReviews(db.questions[ua.questionId].options, ua.selectedOptionId)
  {
    var q := db.questions[ua.questionId];
    var correctId := match FirstCorrect(q.options) case None => None case Some(c) => Some(c.id);
    QuestionReview(db, q, ua.selectedOptionId, correctId, ua.isCorrect)
  }

  /** `getQuizResultByAttemptId`: the stored score and counts of an attempt, with a
      review of every stored answer row and the attempt's own topic. */
  function GetQuizResultByAttemptId(s: QuizDb, attemptId: int): (r: Result<QuizResultResponse>)
    requires Consistent(s)
    ensures r.Err? <==> attemptId !in s.attempts || |AnswersOf(s.answers, attemptId)| == 0
    ensures attemptId !in s.attempts ==> r == Err("Quiz attempt not found")
    ensures attemptId in s.attempts && |AnswersOf(s.answers, attemptId)| == 0 ==> r == Err("No answers found for this attempt")
    ensures r.Ok? ==> && r.value.attemptId == attemptId
                      && r.value.score == s.attempts[attemptId].score
                      && r.value.totalQuestions == s.attempts[attemptId].totalQuestions
                      && r.value.correctAnswers == RightCount(AnswersOf(s.answers, attemptId))
                      && r.value.correctAnswers + r.value.wrongAnswers == r.value.totalQuestions
                      && r.value.percentage == Percentage(r.value.correctAnswers, r.value.totalQuestions)
                      && r.value.difficultyLevel == s.attempts[attemptId].difficulty.Name()
                      && |r.value.questionReviews| == |AnswersOf(s.answers, attemptId)|
                      && (forall j :: 0 <= j < |r.value.questionReviews| ==>
                            var row := AnswersOf(s.answers, attemptId)[j];
                            row.questionId in s.catalog.questions &&
                            r.value.questionReviews[j] == StoredReview(s.catalog, row))
                      && r.value.topicNames == [s.catalog.topics[s.attempts[attemptId].topicId].name]
                      && !r.value.emailSent
  {
    if attemptId !in s.attempts then Err("Quiz attempt not found")
    else
      var rows := AnswersOf(s.answers, attemptId);
      if |rows| == 0 then Err("No answers found for this attempt")
      else
        var a := s.attempts[attemptId];
        var correct := RightCount(rows);
        var total := a.totalQuestions;
        assert forall j :: 0 <= j < |rows| ==> rows[j].questionId in s.catalog.questions;
        var reviews := seq(|rows|, j requires 0 <= j < |rows| => StoredReview(s.catalog, rows[j]));
        Ok(QuizResultResponse(attemptId, a.score, total, correct, total - correct, Percentage(correct, total),
                              [s.catalog.topics[a.topicId].name], a.difficulty.Name(), reviews, false))
  }

  /** Filtering a concatenation filters each part. */
  lemma {:induction false} AnswersOfAppend(a: seq<UserAnswer>, b: seq<UserAnswer>, attemptId: int)
    ensures AnswersOf(a + b, attemptId) == AnswersOf(a, attemptId) + AnswersOf(b, attemptId)
    decreases |a|
  {
    if |a| > 0 {
      assert (a + b)[1..] == a[1..] + b;
      AnswersOfAppend(a[1..], b, attemptId);
    } else {
      assert a + b == b;
    }
  }

  /** Rows of other attempts are all filtered out. */
  lemma {:induction false} AnswersOfNone(a: seq<UserAnswer>, attemptId: int)
    requires forall j :: 0 <= j < |a| ==> a[j].attemptId != attemptId
    ensures AnswersOf(a, attemptId) == []
    decreases |a|
  {
    if |a| > 0 {
      assert forall j :: 1 <= j < |a| ==> a[1..][j - 1] == a[j];
      AnswersOfNone(a[1..], attemptId);
    }
  }

  /** Rows all of this attempt are kept whole, in order. */
  lemma {:induction false} AnswersOfAll(a: seq<UserAnswer>, attemptId: int)
    requires forall j :: 0 <= j < |a| ==> a[j].attemptId == attemptId
    ensures AnswersOf(a, attemptId) == a
    decreases |a|
  {
    if |a| > 0 {
      assert forall j :: 1 <= j < |a| ==> a[1..][j - 1] == a[j];
      AnswersOfAll(a[1..], attemptId);
      assert [a[0]] + a[1..] == a;
    }
  }

  /** The scoring loop and the stored answer rows agree on how many answers were right. */
  lemma {:induction false} EvaluateMatchesStored(db: Db, qids: seq<int>, m: map<int, int>, attemptId: int)
    requires Playable(db, qids) && Evaluate(db, qids, m).Ok?
    ensures Evaluate(db, qids, m).value.0 == RightCount(StoredAnswers(db, qids, m, attemptId))
    decreases |qids|
  {
    if |qids| > 0 {
      assert forall i :: 1 <= i < |qids| ==> qids[1..][i - 1] == qids[i];
      EvaluateMatchesStored(db, qids[1..], m, attemptId);
    }
  }

  /** The score, counts, percentage and difficulty a replay reports for a recorded attempt. */
  predicate ReplayAgrees(h: Result<QuizResultResponse>, resp: QuizResultResponse) {
    && h.Ok?
    && h.value.score == resp.score
    && h.value.totalQuestions == resp.totalQuestions
    && h.value.correctAnswers == resp.correctAnswers
    && h.value.wrongAnswers == resp.wrongAnswers
    && h.value.percentage == resp.percentage
    && h.value.difficultyLevel == resp.difficultyLevel
  }

  /** Appending a submission's answer rows to rows of other attempts: filtering by the
      new attempt gives back exactly the appended rows, and as many of them are marked
      right as the scoring counted. */
  lemma AppendedRowsReplay(answers: seq<UserAnswer>, db: Db, qids: seq<int>, m: map<int, int>, attemptId: int)
    requires forall j :: 0 <= j < |answers| ==> answers[j].attemptId != attemptId
    requires Playable(db, qids) && Evaluate(db, qids, m).Ok?
    ensures AnswersOf(answers + StoredAnswers(db, qids, m, attemptId), attemptId) == StoredAnswers(db, qids, m, attemptId)
    ensures RightCount(StoredAnswers(db, qids, m, attemptId)) == Evaluate(db, qids, m).value.0
  {
    var stored := StoredAnswers(db, qids, m, attemptId);
    AnswersOfAppend(answers, stored, attemptId);
    AnswersOfNone(answers, attemptId);
    AnswersOfAll(stored, attemptId);
    EvaluateMatchesStored(db, qids, m, attemptId);
  }

  /** Replaying a freshly recorded attempt agrees with the recorded response. */
  lemma RecordReplays(s: QuizDb, quizId: string, email: string, qids: seq<int>, m: map<int, int>,
                      scored: (nat, seq<QuestionReviewDto>), attemptId: int, mailDelivered: bool)
    requires Consistent(s) && attemptId !in s.attempts
    requires Playable(s.catalog, qids) && |qids| > 0 && email in s.users
    requires Evaluate(s.catalog, qids, m) == Ok(scored)
    ensures Consistent(Record(s, quizId, email, qids, m, scored, attemptId, mailDelivered).0)
    ensures ReplayAgrees(GetQuizResultByAttemptId(Record(s, quizId, email, qids, m, scored, attemptId, mailDelivered).0, attemptId),
                         Record(s, quizId, email, qids, m, scored, attemptId, mailDelivered).1)
  {
    RecordKeepsConsistent(s, quizId, email, qids, m, scored, attemptId, mailDelivered);
    assert forall j :: 0 <= j < |s.answers| ==> s.answers[j].attemptId in s.attempts;
    AppendedRowsReplay(s.answers, s.catalog, qids, m, attemptId);
  }

  /** Replaying the attempt a submission just stored reports the same score, counts,
      percentage and difficulty as the submission itself. */
  lemma HistoryMatchesSubmit(s: QuizDb, req: QuizSubmissionRequest, email: string, attemptId: int, mailDelivered: bool)
    requires Consistent(s) && attemptId !in s.attempts
    requires SubmitQuiz(s, req, email, attemptId, mailDelivered).Ok?
    ensures var (s', resp) := SubmitQuiz(s, req, email, attemptId, mailDelivered).value;
            Consistent(s') && ReplayAgrees(GetQuizResultByAttemptId(s', attemptId), resp)
  {
    var (qids, m) := Admit(s, req, email).value;
    var scored := Evaluate(s.catalog, qids, m).value;
    assert SubmitQuiz(s, req, email, attemptId, mailDelivered).value
           == Record(s, req.quizId, email, qids, m, scored, attemptId, mailDelivered);
    RecordReplays(s, req.quizId, email, qids, m, scored, attemptId, mailDelivered);
  }

  /** Answers to questions outside the quiz do not change the scoring. */
  lemma {:induction false} EvaluateIgnoresOtherAnswers(db: Db, qids: seq<int>, m: map<int, int>, key: int, value: int)
    requires Playable(db, qids)
    requires forall i :: 0 <= i < |qids| ==> db.questions[qids[i]].id != key
    ensures Evaluate(db, qids, m[key := value]) == Evaluate(db, qids, m)
    decreases |qids|
  {
    if |qids| > 0 {
      assert forall i :: 1 <= i < |qids| ==> qids[1..][i - 1] == qids[i];
      EvaluateIgnoresOtherAnswers(db, qids[1..], m, key, value);
      ScoreOneIgnoresOtherAnswers(db, qids[0], m, key, value);
    }
  }

  /** Scoring one question reads only the answer to that question. */
  lemma ScoreOneIgnoresOtherAnswers(db: Db, qid: int, m: map<int, int>, key: int, value: int)
    requires qid in db.questions && db.questions[qid].topicId in db.topics
    requires db.questions[qid].id != key
    ensures ScoreOne(db, qid, m[key := value]) == ScoreOne(db, qid, m)
  {
    var q := db.questions[qid];
    assert (q.id in m[key := value]) == (q.id in m);
    if q.id in m {
      assert m[key := value][q.id] == m[q.id];
    }
  }

  /** When the quiz's questions are all well formed, scoring never aborts. */
  lemma EvaluateSucceedsOnValidCatalog(db: Db, qids: seq<int>, m: map<int, int>)
    requires Valid(db) && Playable(db, qids)
    ensures Evaluate(db, qids, m).Ok?
  {
    forall i | 0 <= i < |qids|
      ensures !Unscorable(db.questions[qids[i]], m)
    {
      var id := qids[i];
      assert id in db.questions;
      assert WellFormedQuestion(db.questions[id]);
      SingleCorrectIsFirst(db.questions[id].options);
    }
    EvaluateFailsIff(db, qids, m);
  }

  // ---------------------------------------------------------------------------
  // Topic statistics
  // ---------------------------------------------------------------------------

  /** The three difficulty counts split the topic's questions. */
  lemma DifficultiesPartition(db: Db, topicId: int)
    ensures |Matching(db, topicId, Beginner)| + |Matching(db, topicId, Moderate)| + |Matching(db, topicId, Expert)|
            == |OfTopic(db, topicId)|
  {
    var b, m, e := Matching(db, topicId, Beginner), Matching(db, topicId, Moderate), Matching(db, topicId, Expert);
    forall id | id in OfTopic(db, topicId)
      ensures id in b + m + e
    {
      match db.questions[id].difficulty
      case Beginner => assert id in b;
      case Moderate => assert id in m;
      case Expert => assert id in e;
    }
    assert OfTopic(db, topicId) == b + m + e;
    assert b * m == {} && (b + m) * e == {};
  }

  /** `getAllTopicsWithStats` over the topics in the repository's listing order. */
  function TopicsWithStats(db: Db, order: seq<int>): (r: seq<TopicStatisticsDto>)
    requires forall i :: 0 <= i < |order| ==> order[i] in db.topics
    ensures |r| == |order|
    ensures forall i :: 0 <= i < |order| ==>
              && r[i].topicId == order[i] && r[i].topicName == db.topics[order[i]].name
              && r[i].description == db.topics[order[i]].description
              && r[i].beginnerQuestions == |Matching(db, order[i], Beginner)|
              && r[i].moderateQuestions == |Matching(db, order[i], Moderate)|
              && r[i].expertQuestions == |Matching(db, order[i], Expert)|
              && r[i].totalQuestions == |OfTopic(db, order[i])|
  {
    var r := seq(|order|, i requires 0 <= i < |order| =>
      var t := db.topics[order[i]];
      var b, m, e := |Matching(db, order[i], Beginner)|, |Matching(db, order[i], Moderate)|, |Matching(db, order[i], Expert)|;
      TopicStatisticsDto(order[i], t.name, t.description, b, m, e, b + m + e));
    forall i | 0 <= i < |order| ensures r[i].totalQuestions == |OfTopic(db, order[i])| {
      DifficultiesPartition(db, order[i]);
    }
    r
  }
}

=== FILE: reset_password.dfy ===
/** The reset-password page (`ResetPassword.jsx`): the browser's `required` check,
    three local checks in their order, and the body that carries the token from the
    page's address. */
module ResetPassword {
  import opened Wrappers
  import opened Feedback
  import Text

  /** The page: the two password fields, the flags, and the `token` query parameter
      (`params.get("token")`, absent when the address has none). */
  datatype Page = Page(password: string, confirm: string, loading: bool, success: bool, token: Option<string>)

  datatype ResetBody = ResetBody(token: string, newPassword: string)

  datatype Effect = Show(toast: Toast) | Post(body: ResetBody)

  /** The browser's `required` check on the two password inputs: with either one empty
      the form is not submitted, so the handler never runs. */
  predicate RequiredFilled(p: Page) {
    p.password != "" && p.confirm != ""
  }

  /** `handleSubmit` up to the request, behind the browser's check (`None` when the
      browser blocks the submit): a confirmation that differs is refused first, then a
      missing or empty token, then a blank password (one of white space only, which
      `required` lets through); otherwise the page starts loading and posts the token
      with the password as typed. */
  function Submit(p: Page): (r: Option<(Page, Effect)>)
    ensures r.None? <==> !RequiredFilled(p)
    ensures r.Some? ==> (r.value.1.Post? <==> p.password == p.confirm && Truthy(p.token) && !Text.IsBlank(p.password))
    ensures r.Some? && r.value.1.Post? ==>
              r.value.0 == p.(loading := true) && r.value.1.body == ResetBody(p.token.value, p.password)
    ensures r.Some? && r.value.1.Show? ==> r.value.0 == p && r.value.1.toast.tone == Error
    ensures r.Some? && p.password != p.confirm ==> r.value.1 == Show(Toast(Error, "Passwords do not match"))
    ensures r.Some? && p.password == p.confirm && !Truthy(p.token) ==>
              r.value.1 == Show(Toast(Error, "Reset token is missing or invalid."))
    ensures r.Some? && p.password == p.confirm && Truthy(p.token) && Text.IsBlank(p.password) ==>
              r.value.1 == Show(Toast(Error, "Please enter a valid new password."))
  {
    Text.TrimEmptyIffBlank(p.password);
    if !RequiredFilled(p) then None
    else if p.password != p.confirm then Some((p, Show(Toast(Error, "Passwords do not match"))))
    else if !Truthy(p.token) then Some((p, Show(Toast(Error, "Reset token is missing or invalid."))))
    else if Text.Trim(p.password) == "" then Some((p, Show(Toast(Error, "Please enter a valid new password."))))
    else Some((p.(loading := true), Post(ResetBody(p.token.value, p.password))))
  }

  /** The `try`/`finally` after the request: loading ends in every case and `success`
      is set only by a successful reply (which also schedules the move to the login page). */
  function Complete(p: Page, reply: Reply): (r: (Page, Toast))
    ensures !r.0.loading
    ensures r.0.success <==> p.success || reply.Succeeded?
    ensures r.0 == p.(loading := false, success := r.0.success)
    ensures r.1 == ReplyToast(reply, "Password updated successfully! \U{1F389}", "Reset failed. Try again.")
  {
    var toast := ReplyToast(reply, "Password updated successfully! \U{1F389}", "Reset failed. Try again.");
    if reply.Succeeded? then (p.(loading := false, success := true), toast)
    else (p.(loading := false), toast)
  }

  /** A page opened without a token never sends a request, whatever is typed. */
  lemma NoTokenNoRequest(p: Page)
    requires !Truthy(p.token)
    ensures Submit(p).None? || !Submit(p).value.1.Post?
  {
  }

  /** The checks run in order: once both fields are filled, a mismatch is reported even
      when the token is missing and the password blank; with a field left empty the
      browser stops the submit and no toast shows. */
  lemma MismatchReportedFirst(p: Page)
    requires p.password != p.confirm
    ensures Submit(p).Some? <==> RequiredFilled(p)
    ensures Submit(p).Some? ==> Submit(p).value.1.toast.text == "Passwords do not match"
  {
  }

  /** White space passes the browser's check but not the handler's: a password of
      spaces only, typed twice with a token, gets the handler's own toast. */
  lemma SpacesPassRequiredOnly(p: Page)
    requires p.password == p.confirm == " " && Truthy(p.token)
    ensures RequiredFilled(p)
    ensures Submit(p) == Some((p, Show(Toast(Error, "Please enter a valid new password."))))
  {
    assert Text.IsBlank(p.password) by { assert p.password[0] == ' '; }
  }
}

=== FILE: text.dfy ===
/** String helpers with the semantics of the JavaScript and Java library calls the
    application uses: `includes`/`contains`, `toLowerCase`/`toUpperCase` (ASCII only),
    `trim`, `split`/`join` on one separator, decimal rendering of integers and
    JavaScript's `Number(string)` conversion. */
module Text {

  // ---------------------------------------------------------------------------
  // Substrings
  // ---------------------------------------------------------------------------

  /** `sub` occurs contiguously in `s` (JavaScript `includes`, Java `contains`). */
  predicate Contains(s: string, sub: string)
    decreases |s|
  {
    sub <= s || (0 < |s| && Contains(s[1..], sub))
  }

  /** An occurrence at a known offset makes `Contains` true. */
  lemma {:induction false} ContainsAt(s: string, sub: string, i: nat)
    requires i + |sub| <= |s| && s[i..i + |sub|] == sub
    ensures Contains(s, sub)
    decreases i
  {
    if i == 0 {
      assert sub <= s;
    } else {
      assert s[1..][i - 1..i - 1 + |sub|] == s[i..i + |sub|];
      ContainsAt(s[1..], sub, i - 1);
    }
  }

  /** A `Contains` fact yields an offset at which `sub` occurs. */
  lemma {:induction false} ContainsWitness(s: string, sub: string) returns (i: nat)
    requires Contains(s, sub)
    ensures i + |sub| <= |s| && s[i..i + |sub|] == sub
    decreases |s|
  {
    if sub <= s {
      i := 0;
      assert s[0..0 + |sub|] == sub;
    } else {
      var j := ContainsWitness(s[1..], sub);
      i := j + 1;
      assert s[i..i + |sub|] == s[1..][j..j + |sub|];
    }
  }

  /** Whatever contains `a + b` contains its tail `b`. */
  lemma ContainsTail(s: string, a: string, b: string)
    requires Contains(s, a + b)
    ensures Contains(s, b)
  {
    var i := ContainsWitness(s, a + b);
    assert s[i + |a|..i + |a| + |b|] == (a + b)[|a|..];
    ContainsAt(s, b, i + |a|);
  }

  // ---------------------------------------------------------------------------
  // Case conversion (ASCII letters only)
  // ---------------------------------------------------------------------------

  function LowerChar(c: char): char {
    if 'A' <= c <= 'Z' then (c as int + 32) as char else c
  }

  function UpperChar(c: char): char {
    if 'a' <= c <= 'z' then (c as int - 32) as char else c
  }

  /** `toLowerCase`, restricted to the ASCII letters. */
  function ToLower(s: string): string {
    seq(|s|, i requires 0 <= i < |s| => LowerChar(s[i]))
  }

  /** `toUpperCase`, restricted to the ASCII letters. */
  function ToUpper(s: string): string {
    seq(|s|, i requires 0 <= i < |s| => UpperChar(s[i]))
  }
  /** Lower-casing an upper-cased string gives the lower-cased string. */
  lemma LowerOfUpper(s: string)
    ensures ToLower(ToUpper(s)) == ToLower(s)
  {
    assert forall k :: 0 <= k < |s| ==> LowerChar(UpperChar(s[k])) == LowerChar(s[k]);
  }


  /** An already lower-case needle found in `s` is still found after lower-casing `s`. */
  lemma ContainsAfterLower(s: string, sub: string)
    requires Contains(s, sub) && ToLower(sub) == sub
    ensures Contains(ToLower(s), sub)
  {
    var i := ContainsWitness(s, sub);
    assert ToLower(s)[i..i + |sub|] == ToLower(sub);
    ContainsAt(ToLower(s), sub, i);
  }

  // ---------------------------------------------------------------------------
  // Whitespace and trim
  // ---------------------------------------------------------------------------

  /** The characters JavaScript's `trim` removes: white space and line terminators. */
  predicate IsSpace(c: char) {
    || c == ' ' || c == '\t' || c == '\n' || c == '\r'
    || c == '\U{B}' || c == '\U{C}' || c == '\U{A0}' || c == '\U{1680}'
    || ('\U{2000}' <= c <= '\U{200A}')
    || c == '\U{2028}' || c == '\U{2029}' || c == '\U{202F}' || c == '\U{205F}'
    || c == '\U{3000}' || c == '\U{FEFF}'
  }

  /** Every character of `s` is white space (so `!s.trim()` holds). */
  predicate IsBlank(s: string) {
    forall i :: 0 <= i < |s| ==> IsSpace(s[i])
  }

  /** Drops the leading white space: the result is a suffix of `s`, what was dropped
      is blank, and the result does not start with white space. */
  function TrimStart(s: string): (r: string)
    ensures |r| <= |s| && r == s[|s| - |r|..]
    ensures IsBlank(s[..|s| - |r|])
    ensures 0 < |r| ==> !IsSpace(r[0])
    decreases |s|
  {
    if 0 < |s| && IsSpace(s[0]) then TrimStart(s[1..]) else s
  }

  /** Drops the trailing white space: the result is a prefix of `s`, what was dropped
      is blank, and the result does not end with white space. */
  function TrimEnd(s: string): (r: string)
    ensures |r| <= |s| && r == s[..|r|]
    ensures IsBlank(s[|r|..])
    ensures 0 < |r| ==> !IsSpace(r[|r| - 1])
    decreases |s|
  {
    if 0 < |s| && IsSpace(s[|s| - 1]) then TrimEnd(s[..|s| - 1]) else s
  }

  /** JavaScript `trim`: the result neither starts nor ends with white space. */
  function Trim(s: string): (r: string)
    ensures 0 < |r| ==> !IsSpace(r[0]) && !IsSpace(r[|r| - 1])
  {
    TrimEnd(TrimStart(s))
  }

  /** What `trim` keeps is a piece of `s` with only white space around it. */
  lemma TrimIsPiece(s: string) returns (i: nat)
    ensures i + |Trim(s)| <= |s| && Trim(s) == s[i..i + |Trim(s)|]
    ensures IsBlank(s[..i]) && IsBlank(s[i + |Trim(s)|..])
  {
    var a := TrimStart(s);
    i := |s| - |a|;
    assert s[i + |Trim(s)|..] == a[|Trim(s)|..];
  }

  /** Nothing is left of a blank string after dropping leading white space. */
  lemma {:induction false} TrimStartOfBlank(s: string)
    requires IsBlank(s)
    ensures TrimStart(s) == ""
    decreases |s|
  {
    if 0 < |s| {
      TrimStartOfBlank(s[1..]);
    }
  }

  /** Trimming leaves nothing exactly when the string is blank. */
  lemma TrimEmptyIffBlank(s: string)
    ensures Trim(s) == "" <==> IsBlank(s)
  {
    if IsBlank(s) {
      TrimStartOfBlank(s);
    }
    if Trim(s) == "" {
      var a := TrimStart(s);
      assert IsBlank(a[0..]);
      assert |a| == 0;
      assert s[..|s| - |a|] == s;
    }
  }

  /** A string that neither starts nor ends with white space is its own trim. */
  lemma TrimNoEdgeSpace(s: string)
    requires 0 < |s| ==> !IsSpace(s[0]) && !IsSpace(s[|s| - 1])
    ensures Trim(s) == s
  {
  }

  /** A run of digits is its own trim. */
  lemma DigitsTrimToThemselves(s: string)
    ensures AllDigits(s) ==> Trim(s) == s
  {
    if AllDigits(s) && 0 < |s| {
      assert IsDigit(s[0]) && IsDigit(s[|s| - 1]);
      TrimNoEdgeSpace(s);
    }
  }

  /** Trimming twice is trimming once. */
  lemma TrimTwice(s: string)
    ensures Trim(Trim(s)) == Trim(s)
  {
    TrimNoEdgeSpace(Trim(s));
  }

  // ---------------------------------------------------------------------------
  // Split and join
  // ---------------------------------------------------------------------------

  /** JavaScript `s.split(sep)` for a one-character separator: the pieces between
      separators, in order; the empty string splits into one empty piece. */
  function Split(s: string, sep: char): (parts: seq<string>)
    ensures 0 < |parts|
    ensures forall k :: 0 <= k < |parts| ==> sep !in parts[k]
    decreases |s|
  {
    if |s| == 0 then [""]
    else
      var rest := Split(s[1..], sep);
      if s[0] == sep then [""] + rest
      else [[s[0]] + rest[0]] + rest[1..]
  }

  /** JavaScript `parts.join(sep)` / Java `String.join(sep, parts)`. */
  function Join(parts: seq<string>, sep: string): string
    decreases |parts|
  {
    if |parts| == 0 then ""
    else if |parts| == 1 then parts[0]
    else parts[0] + sep + Join(parts[1..], sep)
  }

  /** Joining the pieces of a split with the same separator restores the string. */
  lemma {:induction false} JoinSplit(s: string, sep: char)
    ensures Join(Split(s, sep), [sep]) == s
    decreases |s|
  {
    if |s| != 0 {
      var rest := Split(s[1..], sep);
      JoinSplit(s[1..], sep);
      if s[0] == sep {
        assert Join([""] + rest, [sep]) == "" + [sep] + Join(rest, [sep]);
      } else {
        var parts := [[s[0]] + rest[0]] + rest[1..];
        if |rest| == 1 {
          assert Join(parts, [sep]) == [s[0]] + rest[0];
        } else {
          assert parts[1..] == rest[1..];
          assert Join(rest, [sep]) == rest[0] + [sep] + Join(rest[1..], [sep]);
          assert Join(parts, [sep]) == [s[0]] + rest[0] + [sep] + Join(rest[1..], [sep]);
        }
        assert s == [s[0]] + s[1..];
      }
    }
  }

  /** A string free of the separator splits into itself. */
  lemma {:induction false} SplitNoSeparator(s: string, sep: char)
    requires sep !in s
    ensures Split(s, sep) == [s]
    decreases |s|
  {
    if |s| != 0 {
      SplitNoSeparator(s[1..], sep);
      assert s == [s[0]] + s[1..];
    }
  }

  /** Splitting `p + sep + rest` yields `p` followed by the pieces of `rest`. */
  lemma {:induction false} SplitAfterPiece(p: string, rest: string, sep: char)
    requires sep !in p
    ensures Split(p + [sep] + rest, sep) == [p] + Split(rest, sep)
    decreases |p|
  {
    var s := p + [sep] + rest;
    if |p| == 0 {
      assert s == [sep] + rest;
      assert s[1..] == rest;
    } else {
      assert s[1..] == p[1..] + [sep] + rest;
      SplitAfterPiece(p[1..], rest, sep);
      assert [p[0]] + p[1..] == p;
    }
  }

  /** Splitting a join of separator-free pieces gives the pieces back. */
  lemma {:induction false} SplitJoin(parts: seq<string>, sep: char)
    requires 0 < |parts|
    requires forall k :: 0 <= k < |parts| ==> sep !in parts[k]
    ensures Split(Join(parts, [sep]), sep) == parts
    decreases |parts|
  {
    if |parts| == 1 {
      SplitNoSeparator(parts[0], sep);
    } else {
      SplitJoin(parts[1..], sep);
      SplitAfterPiece(parts[0], Join(parts[1..], [sep]), sep);
      assert [parts[0]] + parts[1..] == parts;
    }
  }

  // ---------------------------------------------------------------------------
  // Decimal numbers
  // ---------------------------------------------------------------------------

  predicate IsDigit(c: char) {
    '0' <= c <= '9'
  }

  predicate AllDigits(s: string) {
    forall i :: 0 <= i < |s| ==> IsDigit(s[i])
  }

  function DigitChar(d: nat): char
    requires d < 10
  {
    ('0' as int + d) as char
  }

  function DigitValue(c: char): nat
    requires IsDigit(c)
  {
    c as int - '0' as int
  }

  /** The decimal rendering of a natural number (JavaScript and Java number-to-string). */
  function DecimalString(n: nat): (r: string)
    ensures 0 < |r| && AllDigits(r)
    decreases n
  {
    if n < 10 then [DigitChar(n)] else DecimalString(n / 10) + [DigitChar(n % 10)]
  }

  /** The value of a string of decimal digits. */
  function DigitsValue(s: string): nat
    requires AllDigits(s)
    decreases |s|
  {
    if |s| == 0 then 0 else DigitsValue(s[..|s| - 1]) * 10 + DigitValue(s[|s| - 1])
  }

  /** Reading back a rendered number gives the number. */
  lemma {:induction false} DecimalRoundTrip(n: nat)
    ensures DigitsValue(DecimalString(n)) == n
    decreases n
  {
    var r := DecimalString(n);
    if n >= 10 {
      DecimalRoundTrip(n / 10);
      assert r[..|r| - 1] == DecimalString(n / 10);
    }
  }

  /** Integer to string, with a leading minus sign for negatives. */
  function IntToString(i: int): (r: string)
    ensures 0 < |r| && IsDigit(r[|r| - 1])
    ensures AllDigits(r) || (r[0] == '-' && AllDigits(r[1..]))
  {
    if i < 0 then "-" + DecimalString(-i) else DecimalString(i)
  }

  /** A JavaScript number as far as this application uses it. */
  datatype JsNumber = Num(value: int) | NaN

  /** JavaScript `Number(s)` on a string: surrounding white space is ignored, the empty
      string is 0, an optionally signed run of digits is its value, anything else is NaN. */
  function ToNumber(s: string): (r: JsNumber)
    ensures IsBlank(s) ==> r == Num(0)
    ensures 0 < |s| && AllDigits(s) ==> r == Num(DigitsValue(s))
    ensures r.Num? && r.value < 0 ==> 0 < |Trim(s)| && Trim(s)[0] == '-'
  {
    TrimEmptyIffBlank(s);
    DigitsTrimToThemselves(s);
    var t := Trim(s);
    if |t| == 0 then Num(0)
    else if AllDigits(t) then Num(DigitsValue(t))
    else if 1 < |t| && (t[0] == '-' || t[0] == '+') && AllDigits(t[1..]) then
      var v: int := DigitsValue(t[1..]);
      Num(if t[0] == '-' then -v else v)
    else NaN
  }

  /** `Number(String(i))` is `i` for every integer. */
  lemma NumberOfIntString(i: int)
    ensures ToNumber(IntToString(i)) == Num(i)
  {
    var r := IntToString(i);
    TrimNoEdgeSpace(r);
    if i < 0 {
      assert r[1..] == DecimalString(-i);
      DecimalRoundTrip(-i);
      assert !AllDigits(r) by { assert !IsDigit(r[0]); }
    } else {
      DecimalRoundTrip(i);
    }
  }
}

=== FILE: topics_page.dfy ===
/** The admin topic list (`TopicsPage.jsx`): the list is kept sorted by identity, with a
    name comparison for rows whose identity is not a number, and a delete drops the rows
    of the deleted identity and sorts again. */
module TopicsPage {
  import Text

  /** A row of the list: the identity as `Number(topic.id)` reads it, and the name. */
  datatype TopicRow = TopicRow(id: Text.JsNumber, name: string)

  /** `a.localeCompare(b)`, read as the comparison of character codes: negative, zero or
      positive as `a` comes before, equals or comes after `b`. */
  function NameCompare(a: string, b: string): (r: int)
    ensures -1 <= r <= 1
    ensures r == 0 <==> a == b
    decreases |a|
  {
    if |a| == 0 then (if |b| == 0 then 0 else -1)
    else if |b| == 0 then 1
    else if a[0] < b[0] then -1
    else if a[0] > b[0] then 1
    else
      var r := NameCompare(a[1..], b[1..]);
      assert r == 0 ==> a == [a[0]] + a[1..] == [b[0]] + b[1..] == b;
      r
  }

  /** Swapping the arguments of the name comparison flips its sign. */
  lemma {:induction false} NameCompareFlips(a: string, b: string)
    ensures NameCompare(a, b) == -NameCompare(b, a)
    decreases |a|
  {
    if |a| > 0 && |b| > 0 && a[0] == b[0] {
      NameCompareFlips(a[1..], b[1..]);
    }
  }

  /** The comparator handed to `sort`: the difference of the identities, or the name
      comparison as soon as either identity is not a number. */
  function Compare(a: TopicRow, b: TopicRow): (r: int)
    ensures a.id.Num? && b.id.Num? ==> (r < 0 <==> a.id.value < b.id.value) && (r == 0 <==> a.id.value == b.id.value)
    ensures a.id.NaN? || b.id.NaN? ==> -1 <= r <= 1 && (r == 0 <==> a.name == b.name)
  {
    if a.id.NaN? || b.id.NaN? then NameCompare(a.name, b.name)
    else a.id.value - b.id.value
  }

  /** Every identity is a number. */
  predicate AllNumeric(s: seq<TopicRow>) {
    forall i :: 0 <= i < |s| ==> s[i].id.Num?
  }

  /** Every identity is a number and they never decrease along the list. */
  predicate SortedById(s: seq<TopicRow>) {
    && AllNumeric(s)
    && forall i, j :: 0 <= i < j < |s| ==> s[i].id.value <= s[j].id.value
  }

  /** Puts `x` in front of the first row it does not come after; rows comparing equal
      keep `x` first, as a stable sort keeps the earlier row first. */
  function Insert(x: TopicRow, s: seq<TopicRow>): (r: seq<TopicRow>)
    ensures multiset(r) == multiset(s) + multiset{x}
    ensures |r| == |s| + 1
    decreases |s|
  {
    if |s| == 0 then [x]
    else if Compare(x, s[0]) <= 0 then [x] + s
    else
      var rest := Insert(x, s[1..]);
      assert s == [s[0]] + s[1..];
      [s[0]] + rest
  }

  /** `sortTopics`: a sorted copy of the list, built by a stable insertion sort; the list
      passed in is a value and stays as it was. */
  function SortTopics(list: seq<TopicRow>): (r: seq<TopicRow>)
    ensures multiset(r) == multiset(list)
    ensures |r| == |list|
    decreases |list|
  {
    if |list| == 0 then []
    else
      assert list == [list[0]] + list[1..];
      Insert(list[0], SortTopics(list[1..]))
  }

  /** The comparator falls back to the names when either identity is not a number, and
      otherwise orders by identity alone. */
  lemma CompareFallsBackToNames(a: TopicRow, b: TopicRow)
    ensures a.id.NaN? || b.id.NaN? ==> Compare(a, b) == NameCompare(a.name, b.name)
    ensures a.id.Num? && b.id.Num? ==> (Compare(a, b) <= 0 <==> a.id.value <= b.id.value)
    ensures Compare(a, b) == -Compare(b, a)
  {
    NameCompareFlips(a.name, b.name);
  }

  /** A numbered row in front of a sorted list whose identities are all at least its own
      gives a sorted list. */
  lemma ConsSorted(h: TopicRow, rest: seq<TopicRow>)
    requires h.id.Num? && SortedById(rest)
    requires forall e | e in rest :: h.id.value <= e.id.value
    ensures SortedById([h] + rest)
  {
    var r := [h] + rest;
    forall i | 0 <= i < |r| ensures r[i].id.Num? {
      if i > 0 {
        assert r[i] == rest[i - 1];
      }
    }
    forall i, j | 0 <= i < j < |r|
      ensures r[i].id.value <= r[j].id.value
    {
      assert r[j] == rest[j - 1] && rest[j - 1] in rest;
      if i > 0 {
        assert r[i] == rest[i - 1];
      }
    }
  }

  /** The rest of a sorted list is sorted, and its head is no later than any of it. */
  lemma SortedTail(s: seq<TopicRow>)
    requires SortedById(s) && |s| > 0
    ensures SortedById(s[1..])
    ensures forall e | e in s[1..] :: s[0].id.value <= e.id.value
  {
    var tail := s[1..];
    assert forall i :: 0 <= i < |tail| ==> tail[i] == s[i + 1];
  }

  /** Inserting a numbered row into a list sorted by identity keeps it sorted. */
  lemma {:induction false} InsertKeepsSorted(x: TopicRow, s: seq<TopicRow>)
    requires x.id.Num? && SortedById(s)
    ensures SortedById(Insert(x, s))
    decreases |s|
  {
    if |s| > 0 && Compare(x, s[0]) > 0 {
      var tail := s[1..];
      SortedTail(s);
      InsertKeepsSorted(x, tail);
      var rest := Insert(x, tail);
      forall e | e in rest
        ensures s[0].id.value <= e.id.value
      {
        assert e in multiset(rest);
        if e != x {
          assert e in multiset(tail);
        }
      }
      ConsSorted(s[0], rest);
    }
  }

  /** When every identity is a number, `sortTopics` returns the rows in ascending
      identity order. */
  lemma {:induction false} SortOrdersById(list: seq<TopicRow>)
    requires AllNumeric(list)
    ensures SortedById(SortTopics(list))
    decreases |list|
  {
    if |list| > 0 {
      assert AllNumeric(list[1..]) by {
        assert forall i :: 0 <= i < |list| - 1 ==> list[1..][i] == list[i + 1];
      }
      SortOrdersById(list[1..]);
      InsertKeepsSorted(list[0], SortTopics(list[1..]));
    }
  }

  /** Sorting a list that is already in identity order returns it unchanged. */
  lemma {:induction false} SortOfSorted(list: seq<TopicRow>)
    requires SortedById(list)
    ensures SortTopics(list) == list
    decreases |list|
  {
    if |list| > 0 {
      var tail := list[1..];
      SortedTail(list);
      SortOfSorted(tail);
      if |tail| > 0 {
        assert tail[0] == list[1];
      }
      InsertInFront(list[0], tail);
      assert [list[0]] + tail == list;
    }
  }

  /** A row that comes no later than the head of a list goes in front of it. */
  lemma InsertInFront(x: TopicRow, s: seq<TopicRow>)
    requires |s| == 0 || Compare(x, s[0]) <= 0
    ensures Insert(x, s) == [x] + s
  {
  }

  /** `prev.filter(t => t.id !== id)`: the rows of every other identity, in their order. */
  function WithoutId(list: seq<TopicRow>, id: int): (r: seq<TopicRow>)
    ensures |r| <= |list|
    ensures forall t :: t in r <==> t in list && t.id != Text.Num(id)
    ensures forall t :: multiset(r)[t] == if t.id == Text.Num(id) then 0 else multiset(list)[t]
    decreases |list|
  {
    if |list| == 0 then []
    else
      assert list == [list[0]] + list[1..];
      (if list[0].id == Text.Num(id) then [] else [list[0]]) + WithoutId(list[1..], id)
  }

  /** The list after `handleDelete`: the other rows, sorted again. */
  function DeleteTopic(list: seq<TopicRow>, id: int): (r: seq<TopicRow>)
    ensures forall t :: t in r <==> t in list && t.id != Text.Num(id)
    ensures forall t :: multiset(r)[t] == if t.id == Text.Num(id) then 0 else multiset(list)[t]
  {
    var r := SortTopics(WithoutId(list, id));
    assert forall t :: t in r <==> t in multiset(r);
    r
  }

  /** Dropping rows keeps a list sorted by identity. */
  lemma {:induction false} WithoutIdKeepsSorted(list: seq<TopicRow>, id: int)
    requires SortedById(list)
    ensures SortedById(WithoutId(list, id))
    decreases |list|
  {
    if |list| > 0 {
      var tail := list[1..];
      SortedTail(list);
      WithoutIdKeepsSorted(tail, id);
      var rest := WithoutId(tail, id);
      if list[0].id != Text.Num(id) {
        assert forall e | e in rest :: e in tail;
        ConsSorted(list[0], rest);
      }
    }
  }

  /** Deleting from a list in identity order leaves the other rows in the order they
      had, which is again identity order. */
  lemma DeleteKeepsOrder(list: seq<TopicRow>, id: int)
    requires SortedById(list)
    ensures DeleteTopic(list, id) == WithoutId(list, id)
    ensures SortedById(DeleteTopic(list, id))
  {
    WithoutIdKeepsSorted(list, id);
    SortOfSorted(WithoutId(list, id));
  }
}

=== FILE: url.dfy ===
/** The part of the browser's `URLSearchParams` the quiz pages rely on: reading one
    parameter out of a query string. */
module Url {
  import opened Wrappers
  import Text

  /** Splits `s` at its first `c`: the text before it and the text after it. Without
      a `c`, the whole of `s` and the empty string. */
  function BreakAt(s: string, c: char): (r: (string, string))
    ensures forall ch :: ch in r.1 ==> ch in s
    decreases |s|
  {
    if |s| == 0 then ("", "")
    else if s[0] == c then ("", s[1..])
    else
      var (before, after) := BreakAt(s[1..], c);
      ([s[0]] + before, after)
  }

  /** Breaking `name + c + value` at `c` recovers the name and the value when the
      name itself holds no `c`. */
  lemma {:induction false} BreakAtPair(name: string, value: string, c: char)
    requires c !in name
    ensures BreakAt(name + [c] + value, c) == (name, value)
    decreases |name|
  {
    var s := name + [c] + value;
    if |name| == 0 {
      assert s == [c] + value;
    } else {
      assert s[1..] == name[1..] + [c] + value;
      BreakAtPair(name[1..], value, c);
      assert [name[0]] + name[1..] == name;
    }
  }

  /** The value of the first non-empty `name=value` piece whose name is `key`; it is
      the tail of one of the pieces. */
  function Lookup(pieces: seq<string>, key: string): (r: Option<string>)
    ensures |pieces| == 0 ==> r.None?
    ensures r.Some? ==> exists k :: 0 <= k < |pieces| && forall ch :: ch in r.value ==> ch in pieces[k]
    decreases |pieces|
  {
    if |pieces| == 0 then None
    else if pieces[0] == "" then Lookup(pieces[1..], key)
    else
      var (name, value) := BreakAt(pieces[0], '=');
      if name == key then Some(value) else Lookup(pieces[1..], key)
  }

  /** `new URLSearchParams(query).get(key)` for a query string without its leading `?`:
      the pieces between `&`, each read as `name=value`. An empty query holds no
      parameter, and a value read never holds `&`. */
  function QueryGet(query: string, key: string): (r: Option<string>)
    ensures query == "" ==> r.None?
    ensures r.Some? ==> '&' !in r.value
  {
    Lookup(Text.Split(query, '&'), key)
  }

  /** A query string made of `name=value` pieces joined by `&`. */
  function QueryOf(names: seq<string>, values: seq<string>): string
    requires |names| == |values|
  {
    Text.Join(seq(|names|, i requires 0 <= i < |names| => names[i] + "=" + values[i]), "&")
  }

  /** Reading a parameter back out of a query built by `QueryOf` gives the value
      stored under the first occurrence of its name, as long as no name holds `=`
      or `&`, no value holds `&` and no name is empty. */
  lemma QueryOfGet(names: seq<string>, values: seq<string>, k: nat)
    requires |names| == |values| && k < |names|
    requires forall i :: 0 <= i < |names| ==> names[i] != "" && '=' !in names[i] && '&' !in names[i] && '&' !in values[i]
    requires forall i :: 0 <= i < k ==> names[i] != names[k]
    ensures QueryGet(QueryOf(names, values), names[k]) == Some(values[k])
  {
    var pieces := seq(|names|, i requires 0 <= i < |names| => names[i] + "=" + values[i]);
    forall i | 0 <= i < |pieces|
      ensures '&' !in pieces[i]
    {
      assert pieces[i] == names[i] + ['='] + values[i];
    }
    if |pieces| > 0 {
      Text.SplitJoin(pieces, '&');
    }
    LookupPieces(pieces, names, values, k);
  }

  /** `Lookup` over well-formed `name=value` pieces finds the first piece named like the k-th. */
  lemma {:induction false} LookupPieces(pieces: seq<string>, names: seq<string>, values: seq<string>, k: nat)
    requires |names| == |values| == |pieces| && k < |names|
    requires forall i :: 0 <= i < |names| ==> pieces[i] == names[i] + "=" + values[i]
    requires forall i :: 0 <= i < |names| ==> names[i] != "" && '=' !in names[i]
    requires forall i :: 0 <= i < k ==> names[i] != names[k]
    ensures Lookup(pieces, names[k]) == Some(values[k])
    decreases k
  {
    assert pieces[0] == names[0] + ['='] + values[0];
    BreakAtPair(names[0], values[0], '=');
    if k > 0 {
      LookupPieces(pieces[1..], names[1..], values[1..], k - 1);
    }
  }
}

=== FILE: user_home.dfy ===
/** The quiz chooser (`UserHome.jsx`): toggling topics in and out of the selection, the
    question counter held between 10 and 50, and the address the Start button opens. */
module UserHome {
  import opened Wrappers
  import opened Catalog
  import Text
  import Url
  import QuizPlay

  const MinCount: int := 10
  const MaxCount: int := 50

  /** The chooser's state: the selected topic identities in selection order, the
      difficulty picked from the drop-down, and the question count. */
  datatype Chooser = Chooser(selected: seq<int>, difficulty: Difficulty, count: int)

  /** The state when the page opens. */
  function Initial(): (c: Chooser)
    ensures c.selected == [] && c.difficulty == Beginner && c.count == 10
  {
    Chooser([], Beginner, MinCount)
  }

  /** The list without any occurrence of `id` (`prev.filter(x => x !== id)`). */
  function Without(s: seq<int>, id: int): (r: seq<int>)
    ensures id !in r
    ensures forall x :: x in r <==> x in s && x != id
    ensures |r| <= |s|
    decreases |s|
  {
    if |s| == 0 then []
    else (if s[0] == id then [] else [s[0]]) + Without(s[1..], id)
  }

  /** `handleSelect`: a selected topic is removed, any other is appended at the end. */
  function Toggle(selected: seq<int>, id: int): (r: seq<int>)
    ensures id in selected ==> r == Without(selected, id)
    ensures id !in selected ==> r == selected + [id]
    ensures id in r <==> id !in selected
    ensures forall x :: x != id ==> (x in r <==> x in selected)
  {
    if id in selected then Without(selected, id) else selected + [id]
  }

  /** No topic is listed twice. */
  predicate NoDuplicates(s: seq<int>) {
    forall i, j :: 0 <= i < j < |s| ==> s[i] != s[j]
  }

  /** Removing an absent identity changes nothing. */
  lemma {:induction false} WithoutAbsent(s: seq<int>, id: int)
    requires id !in s
    ensures Without(s, id) == s
    decreases |s|
  {
    if |s| > 0 {
      WithoutAbsent(s[1..], id);
      assert [s[0]] + s[1..] == s;
    }
  }

  /** Removing an identity keeps the others in their order and without repeats. */
  lemma {:induction false} WithoutKeepsNoDuplicates(s: seq<int>, id: int)
    requires NoDuplicates(s)
    ensures NoDuplicates(Without(s, id))
    decreases |s|
  {
    if |s| > 0 {
      assert NoDuplicates(s[1..]) by {
        assert forall i :: 0 <= i < |s| - 1 ==> s[1..][i] == s[i + 1];
      }
      WithoutKeepsNoDuplicates(s[1..], id);
      var rest := Without(s[1..], id);
      if s[0] != id {
        assert s[0] !in rest by {
          assert s[0] !in s[1..];
        }
        forall i, j | 0 <= i < j < |rest| + 1
          ensures ([s[0]] + rest)[i] != ([s[0]] + rest)[j]
        {
          if i == 0 {
            assert ([s[0]] + rest)[j] == rest[j - 1];
          } else {
            assert ([s[0]] + rest)[i] == rest[i - 1] && ([s[0]] + rest)[j] == rest[j - 1];
          }
        }
      } else {
        assert Without(s, id) == rest;
      }
    }
  }

  /** Toggling never puts a topic in the selection twice. */
  lemma ToggleKeepsNoDuplicates(selected: seq<int>, id: int)
    requires NoDuplicates(selected)
    ensures NoDuplicates(Toggle(selected, id))
  {
    if id in selected {
      WithoutKeepsNoDuplicates(selected, id);
    }
  }

  /** Toggling an unselected topic twice restores the selection. */
  lemma ToggleTwice(selected: seq<int>, id: int)
    requires id !in selected
    ensures Toggle(Toggle(selected, id), id) == selected
  {
    var s := selected + [id];
    WithoutAbsent(selected, id);
    WithoutAppend(selected, id);
  }

  /** Removing the identity that was appended to a list free of it gives the list back. */
  lemma {:induction false} WithoutAppend(s: seq<int>, id: int)
    requires Without(s, id) == s
    ensures Without(s + [id], id) == s
    decreases |s|
  {
    if |s| == 0 {
      assert Without([id], id) == [] + Without([], id);
    } else {
      assert (s + [id])[1..] == s[1..] + [id];
      assert s[0] != id by {
        assert s[0] in Without(s, id);
      }
      assert Without(s[1..], id) == s[1..] by {
        assert Without(s, id) == [s[0]] + Without(s[1..], id);
      }
      WithoutAppend(s[1..], id);
      assert [s[0]] + s[1..] == s;
    }
  }

  /** `increment`: one more, but never above 50. */
  function Increment(count: int): (r: int)
    ensures r <= count + 1 && r <= 50
    ensures r == count + 1 || r == 50
  {
    if count + 1 <= MaxCount then count + 1 else MaxCount
  }

  /** `decrement`: one fewer, but never below 10. */
  function Decrement(count: int): (r: int)
    ensures r >= count - 1 && r >= 10
    ensures r == count - 1 || r == 10
  {
    if count - 1 >= MinCount then count - 1 else MinCount
  }

  /** The counter starts at 10 and both buttons keep it between 10 and 50; at 50 the
      plus button and at 10 the minus button leave it where it is. */
  lemma CounterStaysInRange(count: int)
    requires 10 <= count <= 50
    ensures 10 <= Increment(count) <= 50 && 10 <= Decrement(count) <= 50
    ensures count == 50 ==> Increment(count) == 50
    ensures count == 10 ==> Decrement(count) == 10
    ensures count < 50 ==> Increment(count) == count + 1
    ensures count > 10 ==> Decrement(count) == count - 1
  {
  }

  /** The query string of the quiz page: reading it back gives the comma-joined
      topics, the difficulty's name and the count under their parameter names. */
  function QuizQuery(c: Chooser): (r: string)
    ensures Url.QueryGet(r, "topics") == Some(QuizPlay.JoinIds(c.selected))
    ensures Url.QueryGet(r, "difficulty") == Some(c.difficulty.Name())
    ensures Url.QueryGet(r, "numQ") == Some(Text.IntToString(c.count))
  {
    NoAmpersandInIds(c.selected);
    DigitsHaveNoAmpersand(Text.IntToString(c.count));
    ThreeParametersReadBack(QuizPlay.JoinIds(c.selected), c.difficulty.Name(), Text.IntToString(c.count));
    "topics=" + QuizPlay.JoinIds(c.selected) + "&difficulty=" + c.difficulty.Name() + "&numQ=" + Text.IntToString(c.count)
  }

  /** `startQuiz`: with no topic it shows an error and stays; otherwise it opens the quiz
      page with the selection, the difficulty and the count in its address. */
  function StartQuiz(c: Chooser): (r: Result<string>)
    ensures r.Err? <==> |c.selected| == 0
    ensures r.Err? ==> r.error == "Please select at least one topic"
    ensures r.Ok? ==> r.value == "/quiz?" + QuizQuery(c)
  {
    if |c.selected| == 0 then Err("Please select at least one topic")
    else Ok("/quiz?" + QuizQuery(c))
  }

  /** Each of the three parameters reads back its value when no value holds `&`. */
  lemma ThreeParametersReadBack(topics: string, difficulty: string, numQ: string)
    requires '&' !in topics && '&' !in difficulty && '&' !in numQ
    ensures var query := "topics=" + topics + "&difficulty=" + difficulty + "&numQ=" + numQ;
            && Url.QueryGet(query, "topics") == Some(topics)
            && Url.QueryGet(query, "difficulty") == Some(difficulty)
            && Url.QueryGet(query, "numQ") == Some(numQ)
  {
    var names := ["topics", "difficulty", "numQ"];
    var values := [topics, difficulty, numQ];
    QueryOfThree(names, values);
    assert "topics" + "=" == "topics=" && "&" + "difficulty" + "=" == "&difficulty=" && "&" + "numQ" + "=" == "&numQ=";
    assert "topics=" + topics + "&difficulty=" + difficulty + "&numQ=" + numQ == Url.QueryOf(names, values);
    assert forall i :: 0 <= i < 3 ==> names[i] != "" && '=' !in names[i] && '&' !in names[i] && '&' !in values[i];
    Url.QueryOfGet(names, values, 0);
    Url.QueryOfGet(names, values, 1);
    Url.QueryOfGet(names, values, 2);
  }

  /** The quiz page opened by Start reads back the chosen topics in selection order,
      the difficulty's name and the count, and so asks for exactly that quiz. */
  lemma StartReachesQuizPage(c: Chooser)
    requires |c.selected| > 0
    ensures var url := StartQuiz(c).value;
            var (path, query) := Url.BreakAt(url, '?');
            && path == "/quiz"
            && var body := QuizPlay.Start(Url.QueryGet(query, "topics"), Url.QueryGet(query, "difficulty"), Url.QueryGet(query, "numQ"));
            && body.Ok?
            && |body.value.topicIds| == |c.selected|
            && (forall i :: 0 <= i < |c.selected| ==> body.value.topicIds[i] == Text.Num(c.selected[i]))
            && body.value.difficultyLevel == Some(c.difficulty.Name())
            && body.value.numberOfQuestions == Text.Num(c.count)
  {
    var query := QuizQuery(c);
    assert StartQuiz(c).value == "/quiz" + ['?'] + query;
    Url.BreakAtPair("/quiz", query, '?');
    QuizPlay.ParseTopicsOfJoin(c.selected);
    Text.NumberOfIntString(c.count);
  }

  /** `QueryOf` on three pairs spelt out. */
  lemma QueryOfThree(names: seq<string>, values: seq<string>)
    requires |names| == 3 && |values| == 3
    ensures Url.QueryOf(names, values)
            == names[0] + "=" + values[0] + "&" + names[1] + "=" + values[1] + "&" + names[2] + "=" + values[2]
  {
    var pieces := seq(|names|, i requires 0 <= i < |names| => names[i] + "=" + values[i]);
    assert pieces[1..][1..] == [pieces[2]];
    assert Text.Join(pieces[1..], "&") == pieces[1] + "&" + pieces[2];
  }

  /** An integer's decimal spelling holds no `&`. */
  lemma DigitsHaveNoAmpersand(s: string)
    requires Text.AllDigits(s) || (0 < |s| && s[0] == '-' && Text.AllDigits(s[1..]))
    ensures '&' !in s
  {
    if !Text.AllDigits(s) {
      assert forall j :: 1 <= j < |s| ==> s[1..][j - 1] == s[j];
    }
  }

  /** A comma-joined list of integers holds no `&`. */
  lemma {:induction false} NoAmpersandInIds(ids: seq<int>)
    ensures '&' !in QuizPlay.JoinIds(ids)
    decreases |ids|
  {
    var pieces := seq(|ids|, i requires 0 <= i < |ids| => Text.IntToString(ids[i]));
    if |ids| == 1 {
      DigitsHaveNoAmpersand(pieces[0]);
    } else if |ids| > 1 {
      DigitsHaveNoAmpersand(pieces[0]);
      NoAmpersandInIds(ids[1..]);
      assert pieces[1..] == seq(|ids[1..]|, i requires 0 <= i < |ids[1..]| => Text.IntToString(ids[1..][i]));
    }
  }
}

=== FILE: verify_email.dfy ===
/** The e-mail verification page (`VerifyEmail.jsx`): it asks the server only when its
    address carries a token, and turns the reply's message into a status by looking for
    the word "verified" in it. */
module VerifyEmail {
  import opened Wrappers
  import opened Feedback
  import Text

  datatype Status = Loading | Verified | Failure

  /** What the page shows: the status and the message under it. */
  datatype View = View(status: Status, message: string)

  const DefaultError: string := "Invalid or expired verification link."

  /** The page before any reply. */
  const Initial: View := View(Loading, "")

  /** The page asks the server exactly when its `token` parameter is a non-empty string
      (`if (token) verify()`); without one it shows the loading state for good. */
  predicate Requests(token: Option<string>) {
    Truthy(token)
  }

  /** `message?.toLowerCase() || ""`. */
  function Lowered(message: Option<string>): (r: string)
    ensures |r| == if message.Some? then |message.value| else 0
  {
    if message.Some? then Text.ToLower(message.value) else ""
  }

  /** The page after the reply. A successful reply whose message contains "verified"
      (in any case) is a success showing the server's message, and any other successful
      reply an error showing the message or a default. A failed reply is a success with a
      fixed text when its message contains "already verified", a success with a second
      fixed text when it contains "verified", and otherwise an error showing the
      lower-cased message or the default. */
  function OnReply(reply: Reply): (v: View)
    ensures v.status != Loading
    ensures v.status == Verified <==> Text.Contains(Lowered(reply.message), "verified")
    ensures reply.Succeeded? && v.status == Verified ==> v.message == reply.message.value
    ensures reply.Succeeded? && v.status == Failure ==> v.message == OrElse(reply.message, DefaultError)
    ensures reply.Failed? && Text.Contains(Lowered(reply.message), "already verified") ==>
              v == View(Verified, "Your email is already verified!")
    ensures reply.Failed? && v.status == Verified && !Text.Contains(Lowered(reply.message), "already verified") ==>
              v.message == "Your email has been verified successfully!"
    ensures reply.Failed? && v.status == Failure ==>
              v.message == (if Lowered(reply.message) != "" then Lowered(reply.message) else DefaultError)
  {
    var low := Lowered(reply.message);
    match reply
    case Succeeded(m) =>
      if m.Some? && Text.Contains(low, "verified") then View(Verified, m.value)
      else View(Failure, OrElse(m, DefaultError))
    case Failed(_) =>
      if Text.Contains(low, "already verified") then
        assert "already " + "verified" == "already verified";
        Text.ContainsTail(low, "already ", "verified");
        View(Verified, "Your email is already verified!")
      else if Text.Contains(low, "verified") then View(Verified, "Your email has been verified successfully!")
      else View(Failure, if low != "" then low else DefaultError)
  }

  /** The status does not depend on whether the reply came as a success or a failure:
      only the word "verified" in the message decides it. */
  lemma StatusIgnoresReplyKind(message: Option<string>)
    ensures OnReply(Succeeded(message)).status == OnReply(Failed(message)).status
  {
  }

  /** Upper-case letters do not hide the word: a message that spells "VERIFIED" or
      "Verified" still counts as verified. */
  lemma CaseDoesNotMatter(message: string)
    requires Text.Contains(message, "verified")
    ensures OnReply(Succeeded(Some(message))).status == Verified
    ensures OnReply(Succeeded(Some(Text.ToUpper(message)))).status == Verified
  {
    WordIsLowerCase();
    Text.ContainsAfterLower(message, "verified");
    Text.LowerOfUpper(message);
    assert Lowered(Some(message)) == Text.ToLower(message);
    assert Lowered(Some(Text.ToUpper(message))) == Text.ToLower(message);
  }

  /** The word looked for is already in lower case. */
  lemma WordIsLowerCase()
    ensures Text.ToLower("verified") == "verified"
  {
  }
}

=== FILE: wire.dfy ===
/** The JSON bodies exchanged between the quiz pages and the quiz service. A Java
    `Long` or `Integer` that may be `null` is an `Option<int>`; a `Double` is an exact
    `real`. */
module Wire {
  import opened Wrappers

  /** One option as the player sees it: an identity and a text, and no correctness flag. */
  datatype QuizOptionDto = QuizOptionDto(optionId: int, optionText: string)

  datatype QuizQuestionDto = QuizQuestionDto(questionId: int, questionText: string, topicName: string, options: seq<QuizOptionDto>)

  /** The generated quiz returned by `POST /quiz/generate`. */
  datatype QuizResponse = QuizResponse(quizId: string, questions: seq<QuizQuestionDto>, totalQuestions: int, topicNames: seq<string>, difficultyLevel: string)

  /** One answer of a submission; either identity may be missing from the JSON. */
  datatype UserAnswerDto = UserAnswerDto(questionId: Option<int>, selectedOptionId: Option<int>)

  /** The body of `POST /quiz/submit`; the answer list itself may be missing. */
  datatype QuizSubmissionRequest = QuizSubmissionRequest(quizId: string, answers: Option<seq<UserAnswerDto>>)

  /** One option of a reviewed question, with its correctness and whether it was picked. */
  datatype OptionReviewDto = OptionReviewDto(optionId: int, optionText: string, isCorrect: bool, wasSelected: bool)

  datatype QuestionReviewDto = QuestionReviewDto(
    questionId: int,
    questionText: string,
    topicName: string,
    selectedOptionId: Option<int>,
    correctOptionId: Option<int>,
    isCorrect: bool,
    options: seq<OptionReviewDto>)

  /** The scored result of a submission or of a stored attempt. */
  datatype QuizResultResponse = QuizResultResponse(
    attemptId: int,
    score: int,
    totalQuestions: int,
    correctAnswers: int,
    wrongAnswers: int,
    percentage: real,
    topicNames: seq<string>,
    difficultyLevel: string,
    questionReviews: seq<QuestionReviewDto>,
    emailSent: bool)

  /** A topic with how many questions it holds at each difficulty. */
  datatype TopicStatisticsDto = TopicStatisticsDto(
    topicId: int,
    topicName: string,
    description: Option<string>,
    beginnerQuestions: int,
    moderateQuestions: int,
    expertQuestions: int,
    totalQuestions: int)
}

=== FILE: wrappers.dfy ===
/** Failure-compatible wrappers shared by every module of the model. */
module Wrappers {

  /** A value that may be absent: JavaScript `null`/`undefined`, a Java `null` or an empty `Optional`. */
  datatype Option<+T> = None | Some(value: T) {

    /** The held value, or `default` when absent. */
    function GetOr(default: T): T {
      match this
      case Some(v) => v
      case None => default
    }
  }

  /** The outcome of a backend operation: a value, or the message of the exception it throws. */
  datatype Result<+T> = Ok(value: T) | Err(error: string) {

    predicate IsFailure() {
      Err?
    }

    function PropagateFailure<U>(): Result<U>
      requires Err?
    {
      Err(error)
    }

    function Extract(): T
      requires Ok?
    {
      value
    }
  }

  /** JavaScript `s || fallback` on a string that may be missing: both a missing
      value and the empty string are falsy and give way to the fallback. */
  function OrElse(s: Option<string>, fallback: string): string {
    if s.Some? && s.value != "" then s.value else fallback
  }

  /** True when `s` holds a non-empty string (JavaScript truthiness of a string). */
  predicate Truthy(s: Option<string>) {
    s.Some? && s.value != ""
  }
}
